=== FILE: README.md ===
# Betic evaluator in Dafny

A model of the Betic scripting language's evaluator. The evaluator walks an
already-parsed program tree. It keeps a stack of variable frames and a table
of named types for each module instance, checks types at run time, and routes
name lookups and calls through imported modules.

Modules and files:

- `types.dfy` (`BeticTypes`): the structural type descriptor `{ base, of? }`.
  It holds the compatibility test `DiffTypes` with its algebra, and the plain
  serialisation of descriptors.
- `values.dfy` (`BeticValues`): the value representation. A payload carries a
  type, the `constant`/`expected` flags, an optional name, and an owner tag
  naming the module instance a value was reached through.
- `numbers.dfy` (`BeticNumbers`): JavaScript numbers, either integral or
  opaque. Floating-point results come from a `FloatUnit` parameter.
- `ast.dfy` (`BeticAst`): the program tree the evaluator is given.
- `util.dfy` (`BeticUtil`): the runtime helpers, which are plain value
  serialisation, host-value conversion and byte-list conversion. It also
  holds the error kinds.
- `operators.dfy` (`BeticOperators`): the decisions the evaluator takes on
  evaluated values. These are arithmetic, conditions, quantity modifiers,
  indexing, literal checks and argument binding.
- `engine.dfy` (`BeticEngine`): the evaluator itself.
  - Each module instance is an `Engine` object holding its frames and type
    table.
  - All values live in one shared `Store`, and frames bind names to slots in
    it. Two names bound to the same value therefore see each other's
    in-place updates, as they do in the source.
  - Statements and expressions are methods returning `Result`/`Outcome`.
    Where the source prints a diagnostic and exits, the model returns an
    error kind.

The source's error kinds are kept (util.ts:11-24). The model adds three:

- `HostException`: an uncaught JavaScript exception, such as a property read
  on `undefined` or an unhandled rejection, that ends the process.
- `Unmodelled`: a JavaScript coercion the model does not follow, such as a
  payload that does not match its type tag.
- `OutOfFuel`: the bound on interpreted recursion.

A bare `Occult` is sometimes read as compatible with every type. The code (util.ts:30-51) rejects `Occult` against `Occult<Int>`,
because equal bases need the same `of` presence. The model follows the code;
`BeticTypes.OccultCompatibility` states the rule.

## Model

| member | source | states |
|---|---|---|
| BeticTypes.DiffTypesReflexive | util.ts:30-51 | every descriptor is compatible with itself |
| BeticTypes.DiffTypesSymmetric | util.ts:30-51 | swapping source and target never changes the answer |
| BeticTypes.DiffTypesDifferentBases | util.ts:30-51 | different bases are compatible iff one of them is Occult, whatever their `of` parts |
| BeticTypes.DiffTypesOfPresence | util.ts:38-41 | equal bases with `of` on one side only are incompatible |
| BeticTypes.OccultCompatibility | util.ts:30-51 | a bare Occult matches every type except an Occult carrying an `of` |
| BeticTypes.DiffTypesNotTransitive | util.ts:32-37 | compatibility is not transitive: List<Int> ~ List<Occult> ~ List<String> but List<Int> ≁ List<String> |
| BeticTypes.DiffTypesIsSpineMatch | util.ts:30-51 | DiffTypes agrees with an independent definition. Compare the chains of bases down `of`: at the first differing level one side must be Occult, and equal chains must have equal length |
| BeticTypes.SerializeTypePlainNotInjective | util.ts:72-87 | `List` is invisible in the plain text (`result += []` appends nothing), so different descriptors print alike |
| BeticTypes.SerializeTypePlainRoundTrip | util.ts:72-87 | a descriptor with bracket-free bases and no List wrapper prints as `base` / `base<inner>` text that reads back to itself |
| BeticNumbers.TruncRem | engine.ts:643-644 | JavaScript `%` on integers truncates: the remainder takes the dividend's sign, is smaller than the divisor in magnitude, and differs from the dividend by a multiple of the divisor |
| BeticNumbers.Arith | engine.ts:635-651 | `+`, `-` and `*` are exact on integral numbers, and `%` by a non-zero divisor is the truncating remainder TruncRem |
| BeticUtil.NatToStringRoundTrip | util.ts:162-163 | the decimal text of a natural number reads back to it |
| BeticUtil.IntToStringRoundTrip | util.ts:162-163 | the decimal text of an integer, with `-` when negative, reads back to it |
| BeticUtil.SerializeIntRoundTrip | util.ts:162-163 | an Int value prints as decimal text that parses back to its payload |
| BeticUtil.SerializeScalars | util.ts:157-173 | a None value prints `none` whatever its payload; a Boolean prints `true` or `false` |
| BeticUtil.SerializeListText | util.ts:174-182 | a List prints as `[ ` + element texts joined by `, ` + ` ]` |
| BeticUtil.SerializeMapText | util.ts:183-191 | a Map prints as `{\n` + `  key: value` lines in entry order joined by `,\n` + `\n}` |
| BeticUtil.SerializeItemsAll | util.ts:176-179 | the element texts are each element's own text, in order |
| BeticUtil.SerializeEntriesAll | util.ts:185-188 | the entry lines are each entry's key and value text, in order |
| BeticUtil.GeneratePrimitive | util.ts:256-381 | every produced value is non-constant, not expected, unnamed and has a null owner tag |
| BeticUtil.GenerateNone | util.ts:358-381 | null and unrecognised host values give None holding `none`, whatever type is passed |
| BeticUtil.GenerateScalarTypes | util.ts:258-291 | numbers are Int exactly when integral, else Double; strings and booleans are String and Boolean; a given type overrides all three |
| BeticUtil.GenerateArray | util.ts:293-308 | an array always gives base List with element type = the given type's `of` or Occult, elements converted without a type, in order |
| BeticUtil.GenerateRoundTrip | util.ts:256-329 | converting a plain host value and reading it back with ToJs gives the same host value, so keys and elements keep their order |
| BeticUtil.FromBeticListToUint8Array | util.ts:226-245 | throws unless the list's element type base is Byte; a Byte list whose payloads are all whole numbers always converts, to the element payloads in order, each reduced modulo 256 |
| BeticUtil.ByteListWraps | util.ts:233-239 | the Byte payloads 300 and -1 convert to the bytes 44 and 255 (Uint8Array wraps modulo 256) |
| BeticUtil.ByteListRoundTrip | util.ts:226-254 | a byte array made into a List<Byte> converts back to the same bytes |
| BeticUtil.IntListDoesNotConvert | util.ts:228-243 | a list typed List<Int> never converts to a byte array |
| BeticOperators.ArithmeticResult | engine.ts:629-681 | TypeMismatch exactly when the pairing is not Int/Int, Double/Double or String+String, and an accepted pairing whose payloads match their types always succeeds. A numeric result is the operation's value, typed Int exactly when integral. String addition concatenates. Results are fresh |
| BeticOperators.IntArithmeticExact | engine.ts:635-661 | Int `+`, `-`, `*` give the exact integer, typed Int |
| BeticOperators.MixedArithmeticRejected | engine.ts:654-680 | Int with Double fails TypeMismatch |
| BeticOperators.StrictEquals | engine.ts:927-934 | `===`: an object never equals a non-object, None and String payloads compare by their text, and two objects compare by identity, which is not modelled (None) |
| BeticOperators.StrictEqualsReflexive | engine.ts:927-934 | every scalar payload except a non-integral number is `===` to itself |
| BeticOperators.Truth | engine.ts:895-965 | a logical operator has a truth value exactly on two Booleans (`and`/`or` are the connectives), `equals`/`not equals` on any two values that are not both objects, agreeing with `===` (StrictEquals, negated for `not equals`), and a relational operator on two numbers |
| BeticOperators.ConditionResult | engine.ts:880-966 | InvalidValue exactly when a logical operator lacks two Booleans or a relational one lacks two numbers (Int and Double may mix). Succeeds exactly when the operands are accepted and the operator's truth value is defined on the payloads, giving a fresh Boolean holding it |
| BeticOperators.ConditionComplement | engine.ts:895-965 | each operator and its negated form accept the same operands and give opposite Booleans |
| BeticOperators.IntegralComparisons | engine.ts:935-953 | on whole numbers the relational operators are the integer comparisons |
| BeticOperators.NoneEqualsNoneText | engine.ts:927-932 | a None value `equals` the String `none`, because both hold the same JavaScript string |
| BeticOperators.ModifierTarget | engine.ts:511-600 | a constant target is ImmutableValue; a non-Int/Double target is InvalidValue; otherwise the modifier goes on |
| BeticOperators.ModifierCheck | engine.ts:570-587 | an Int target accepts only integral results; a Double target accepts any; the stored payload is the result |
| BeticOperators.ModifierResult | engine.ts:520-587 | a non-numeric right side is InvalidValue. A success is a number, and an integral one for an Int target. `++`/`--` add or subtract one |
| BeticOperators.ModifierResultAsWritten | engine.ts:543-587 | the compound modifiers behave as ModifierResult. As written, `++`/`--` never store a number: on a numeric payload they succeed exactly for a Double-compatible target, always with `undefined`, and without a right side an Int target crashes (HostException) |
| BeticOperators.IncrementAsWrittenLosesValue | engine.ts:546-587 | as written, `x++` on an Int never succeeds, and on a Double it leaves `undefined` in the variable |
| BeticOperators.GettersDisagree | engine.ts:689-698 | the two getters' base lists disagree: List and String are refused by the `.` getter yet indexable, Map is the only base both accept, and the `.` getter refuses Int, Double, Boolean, Function, Void and None |
| BeticOperators.IntModifiersExact | engine.ts:545-566 | `++`, `--`, `+=`, `-=`, `*=` on Ints compute a+1, a-1, a+b, a-b, a*b; e.g. 5 `+=` 3 gives 8 |
| BeticOperators.MissingOperandIsNaN | engine.ts:552-587 | a compound modifier without a right side computes NaN: an Int target fails, a Double target holds NaN |
| BeticOperators.FieldEntries | engine.ts:700-704 | the pairs a `.` getter binds: exactly a Map or struct's entries. List members and Function/Micro statements have no key, so they bind nothing visible; any other payload has no `forEach` and throws |
| BeticOperators.EntriesFrame | engine.ts:700-704 | the getter's frame binds exactly the entries' keys |
| BeticOperators.EntriesFrameLastWins | engine.ts:702-704 | of several entries with one key, the last one is bound |
| BeticOperators.LookupKey | engine.ts:738-740 | the first entry with the key, as `find` returns it; none exactly when no entry has it |
| BeticOperators.IndexResult | engine.ts:723-816 | a Map needs a String index, a List or String an Int index, else InvalidValue. A Map with a present key, a List index in range and a String index within its text always succeed; a Map whose entries lack the key is InvalidValue. Results carry the source's owner tag |
| BeticOperators.IndexOutOfRange | engine.ts:766-792 | a String indexed out of range is InvalidValue; a List indexed out of range dereferences undefined and crashes |
| BeticOperators.ElementsCheck | engine.ts:1139-1157 | a literal's members pass iff there are none, or `of` is given and every member is defined and fits it. Any defined misfit is the TypeMismatch reported |
| BeticOperators.SetOfSize | engine.ts:1204 | the key set is as large as the key list exactly when the keys are pairwise different |
| BeticOperators.MapLiteralCheck | engine.ts:1171-1212 | a member TypeMismatch is reported first; otherwise repeated keys are DuplicateKeys, ahead of an undefined member's crash; the literal passes exactly when the members pass and the keys are distinct |
| BeticOperators.DuplicateKeysBeforeThrow | engine.ts:1171-1212 | a repeated key is DuplicateKeys even when a member is undefined (which alone would crash) or the literal has no `of` |
| BeticOperators.ReturnCheck | engine.ts:1229-1251 | a Void callable must not provide a value and any other must, else TypeMismatch |
| BeticOperators.BindArguments | engine.ts:975-1008 | success iff every parameter is satisfied. A supplied argument must fit its parameter, else TypeMismatch; an absent one must be optional, else MissingArgument; the first failing parameter decides. Supplied arguments are bound by parameter name over the frame copy, extra arguments are ignored, and nothing else changes |
| BeticEngine.LastHit | engine.ts:1391-1403 | the last import whose frame binds the name, none when no import does |
| BeticEngine.StampOwners | engine.ts:1397-1400 | after the probe, the value found carries the id of the last import that binds the name, and values no import binds are untouched |
| BeticEngine.Store.Alloc | engine.ts:1118-1381 | a new value gets a new slot at the end of the store |
| BeticEngine.Engine.constructor | engine.ts:62-152 | a new instance has one empty frame and the 13 built-in types, each with no fields and no owner |
| BeticEngine.Engine.FirstImport | engine.ts:833 | the first import with the id, as `find` returns it |
| BeticEngine.Engine.FindType | engine.ts:1435-1461 | a local type entry is returned first; otherwise the answer is FindInImports over every import |
| BeticEngine.Engine.FindInImports | engine.ts:1439-1456 | nothing is found exactly when no import knows the type; otherwise the result is the fields the last import that knows it returns, tagged with that import's id |
| BeticEngine.Engine.LastKnower | engine.ts:1439-1456 | the last import whose own lookup knows the type, with no later import knowing it; none when no import does |
| BeticEngine.Engine.ResolveReference | engine.ts:1383-1421 | a current-frame binding is returned with nothing changed. Otherwise each import's current frame is probed in order, one hop only; every hit is stamped with its import's id and the last hit is returned. No hit is UninitializedValue |
| BeticEngine.Engine.StampImports | engine.ts:1391-1403 | the probe loop's stamping and result agree with Stamp and LastHit |
| BeticEngine.Engine.Eval | engine.ts:604-627 | a reference bound in the current frame yields that slot and changes nothing. Every engine stays valid, the store only grows, value types never change, and on success every frame stack is as it was. No fuel is OutOfFuel |
| BeticEngine.Engine.EvalAll | engine.ts:824-828 | arguments are evaluated in order to one in-store value each; an argument that is a local name yields that name's own slot |
| BeticEngine.Engine.EvalOperands | engine.ts:632-633 | two local names evaluate to their own slots with the store unchanged; every success has both operands in the store and every frame stack as it was |
| BeticEngine.Engine.EvalArithmetic | engine.ts:629-681 | once both operands are evaluated, the result is exactly ArithmeticResult on their payloads, as a new value. For two local names the operands are those names' slots and values |
| BeticEngine.Engine.EvalCondition | engine.ts:880-966 | once both operands are evaluated, the result is exactly ConditionResult on their payloads, as a new Boolean. For two local names the operands are those names' slots and values |
| BeticEngine.Engine.BuildFrame | engine.ts:700-704 | the getter frame binds exactly the entries' keys, each to a slot holding EntriesFrame's value |
| BeticEngine.Engine.EvalMapGetter | engine.ts:683-721 | an unindexable source is UnindexibleReference. For a local source of another base, a payload without `forEach` crashes, and an access naming one of its entries yields that entry's value re-tagged with the source's owner. Every success carries the source's owner tag |
| BeticEngine.Engine.EvalAccess | engine.ts:706-711 | the access runs in the pushed getter frame, which is popped; a name bound there yields that value, tagged with the source's owner |
| BeticEngine.Engine.EvalListGetter | engine.ts:723-816 | a source that is not List, Map or String is UnindexibleReference; otherwise the result is exactly IndexResult on the evaluated source and index, as a new value. For local names these are the names' values |
| BeticEngine.Engine.EvalFunctionCall | engine.ts:818-850 | a local callee that is not a Function is InvalidValue; a success leaves every frame stack as it was. An untagged local Function called on local names runs here on those names' own slots, and the call gives exactly what RunFunction promises (FunctionRan) |
| BeticEngine.Engine.CallFunctionIn | engine.ts:830-838 | an untagged function runs in this engine with RunFunction's outcome (FunctionRan); a function tagged with an id no import has does not run and yields a new None |
| BeticEngine.Engine.EvalMicroCall | engine.ts:852-878 | a local callee that is not a Micro is InvalidValue, and a Micro called without an argument crashes; a success leaves every frame stack as it was |
| BeticEngine.Engine.CallMicroIn | engine.ts:859-866 | an untagged micro, or one whose import is gone, does not run and yields a new None |
| BeticEngine.Engine.RunBody | engine.ts:1021-1038 | BodyGave: without provides the result is a new None. With provides it is the provided value itself, or a new None when that is undefined. An empty body providing a parameter's name yields that parameter's slot |
| BeticEngine.Engine.RunFunction | engine.ts:968-1042 | a callee value that is neither native nor interpreted is HostException. Otherwise the arguments bind exactly when every parameter is satisfied (else TypeMismatch or MissingArgument). A native call then gives the host's answer: a new value, `undefined`, or for a throw HostException (asynchronous) or RuntimeError (synchronous). An interpreted call gives its body's result (BodyGave). A local callee is that name's value, and then the host receives the arguments' values. These clauses form FunctionRan |
| BeticEngine.Engine.CallWith | engine.ts:976-1040 | a native or interpreted payload: the arguments bind exactly when every parameter is satisfied by the argument types (else TypeMismatch or MissingArgument); then the host gets exactly the arguments' values and its answer is HostGave's, or the body's result is BodyGave's |
| BeticEngine.Engine.RunMicro | engine.ts:1044-1089 | a callee that is not a Micro, or an undefined argument, is HostException. The body runs exactly when the argument's type fits the prototype's, else TypeMismatch; once run the result is the body's (BodyGave). A local callee is that name's value |
| BeticEngine.Engine.EvalLiteral | engine.ts:1118-1313 | Int, Double, Boolean (`"true"` only) and String literals give a value of that type holding the literal. A Function or Micro literal fails exactly as CallableResult says, and otherwise carries its return type, body, parameters and provides |
| BeticEngine.Engine.CallableResult | engine.ts:1224-1313 | the provides rule fails with TypeMismatch, then a missing return type crashes, then an undeclared return or parameter type is UninitializedValue; success exactly when all pass |
| BeticEngine.Engine.EvalListLiteral | engine.ts:1133-1170 | the members are evaluated in order; then an ElementsCheck failure is the error, and otherwise the result is a new List with the literal's `of` holding copies of the members in order |
| BeticEngine.Engine.EvalMapLiteral | engine.ts:1171-1222 | the values are evaluated in order; then a MapLiteralCheck failure is the error, and otherwise the result is a new Map with the literal's `of` pairing each key with a copy of its value, in order, keys distinct |
| BeticEngine.Engine.EvalStruct | engine.ts:1315-1380 | a built-in base is Unmodelled and an undeclared type UninitializedValue. MissingProperty names a required field no pair supplies, and TypeMismatch a supplied field whose value's type does not fit. A success is a new value of the type, with no owner, whose entries are the supplied declared fields in declaration order with compatible types, and every required field was supplied. For local supplied values it succeeds exactly when StructCheck passes, and otherwise fails with StructCheck's error; each entry then holds the value of the first pair with its key (FromValues) |
| BeticEngine.Engine.FillFields | engine.ts:1326-1366 | Filled: the entries fill exactly the declared fields some pair supplies, in order, with compatible types. A missing required field stops with MissingProperty and a misfit with TypeMismatch. On local values the outcome is StructCheck's, and each entry holds the value the first pair with its key names (FromValues) |
| BeticEngine.Engine.FillField | engine.ts:1327-1364 | the first pair naming the field supplies it. An absent optional field gives no entry and an absent required one MissingProperty; a supplied value whose type does not fit is TypeMismatch, and one that fits becomes the entry under the field's name. On local values it succeeds exactly when the field Fits, failing with Misfit otherwise, and the entry holds the value the supplying pair names |
| BeticEngine.StructCheck | engine.ts:1326-1366 | the declared fields are checked in order: passes exactly when every field Fits the supplied values' types, and otherwise fails with the error (Misfit) of the first field that does not |
| BeticEngine.FirstMisfit | engine.ts:1326-1366 | when the first k fields fit and field k does not, StructCheck fails with field k's error |
| BeticEngine.FirstPair | engine.ts:1331 | the first supplied pair with the field's name, as `find` returns it |
| BeticAst.DesugarFunction | engine.ts:335-353 | a function definition is the definition of a variable of its name, neither constant nor expected, holding a Function literal with the definition's return type, parameters, body and provides expression |
| BeticAst.DesugarMicro | engine.ts:355-377 | a micro definition is the definition of a variable of its name, neither constant nor expected, holding a Micro literal with the definition's return type, prototype, body and provides expression |
| BeticEngine.Engine.ExecStatement | engine.ts:269-333 | a type definition overwrites the table entry of that name with its fields and no owner. A success changes only the current frame of this engine. No fuel is OutOfFuel |
| BeticEngine.Engine.ExecBlock | engine.ts:384-391 | a block that passes changes only the current frame of this engine; an empty block passes and changes nothing |
| BeticEngine.Engine.ExecVarDef | engine.ts:308-324 | a name already in the current frame fails (AlreadyExists when the initializer is a local name). Otherwise the name is bound to the initializer's own slot, which takes the declared `constant`/`expected` flags, and nothing else changes |
| BeticEngine.Engine.ExecFor | engine.ts:379-406 | a local count that is not an Int logs TypeMismatch and passes with no value changed. Once counted, the passes obey Counted, and for a local Int count the first value read is the count's. An Int count of zero or less runs nothing |
| BeticEngine.Engine.CountTo | engine.ts:383-393 | Counted: pass i ran only while i was below the count read before it, and a normal end read a count not above the number of passes. The first value read is the count's; a count of zero or less runs no pass and changes nothing |
| BeticEngine.Engine.ScopedBlock | engine.ts:384-392 | the pushed frame is popped again, so on success every frame stack is as before |
| BeticEngine.Engine.EvalTest | engine.ts:409-413 | once evaluated, the verdict is Truthiness of the condition; a local name is read unchanged |
| BeticEngine.Truthiness | engine.ts:411-413 | a condition must be a Boolean, else InvalidValue, and holds exactly when its payload is `true` |
| BeticEngine.Engine.ExecElifs | engine.ts:422-446 | Tested: each elif condition, in order, has the verdict Truthiness gives its value; a non-Boolean one stops with InvalidValue. After a pass every elif was tested and the else-suppressing flag holds exactly when some verdict was true. A local first condition is read unchanged; with no elifs nothing runs or changes |
| BeticEngine.Engine.ExecIf | engine.ts:408-476 | a non-Boolean condition is InvalidValue. The body runs exactly when the condition is true, and then no elif is tested and the else does not run. Otherwise the elifs are Tested in order, and after a pass the else runs exactly when it exists and no elif verdict was true. A local condition is read unchanged |
| BeticEngine.Engine.ExecAssign | engine.ts:478-506 | a constant local target is ImmutableValue before the value is evaluated. Once the value is reached, the assignment passes exactly when the target's and the value's types are compatible, else TypeMismatch, and on a pass the target's slot holds its value with the payload replaced. With a local target and value the outcome is AssignOutcome and only the target's slot changes |
| BeticEngine.Engine.AssignFrom | engine.ts:489-504 | for a mutable target, once the value is reached only the types decide: a pass exactly when they are compatible, else TypeMismatch; constancy is not checked again. For a local value the outcome is AssignOutcome and only the target's slot changes, to the new payload |
| BeticEngine.AssignOutcome | engine.ts:481-502 | an assignment passes exactly when the target is not constant and the types are compatible; constant is reported before TypeMismatch |
| BeticEngine.Engine.ExecModifier | engine.ts:508-602 | with a local target and a local or absent operand, the outcome is ModifyOutcome and only the target's slot changes, to ModifierResult's payload |
| BeticEngine.Engine.ModifyWith | engine.ts:520-600 | once the target passed its checks, the outcome is ModifierResult's and only the target's slot changes |
| BeticEngine.ModifyOutcome | engine.ts:508-602 | the target's checks come first, then the operand and result checks; passes exactly when both do |

## Left out

- Module loading and process control (`init`, `start`, `resolveImports`, the TypeScript and Betic import injection, engine.ts:158-267) are not modelled. Imports are a given list of module instances with given ids.
- The parser subprocess (util.ts:384-399) and the syntax-error scraping are not modelled; the model starts from a parsed tree.
- Native port bodies are not modelled. A native function is a callback number answered by the engine's `host` parameter, which may return a value, return `undefined`, or throw.
- GeneratePrimitive's Function and AsyncFunction cases (util.ts:330-357) are not modelled: they call the host value to build a native function.
- Floating point is not modelled. Non-integral numbers are opaque. Division, exponent, root, non-integral comparisons and `parseFloat` come from the `FloatUnit` parameter. Double printing is not modelled (`SerializeValuePlain` gives None).
- Integers are unbounded. The 2^53 limit of JavaScript numbers, and of `parseInt` on long literals, is not modelled.
- Diagnostics text, colours, caret printing, `SerializeType`/`SerializeValue` and the call stack are left out; an error is returned as its kind.
- Un-awaited checks are modelled as ordinary checks, run after the synchronous checks of the same literal. These are the type checks of Function/Micro literals (engine.ts:1224, 1254, 1265) and the `forEach(async …)` member checks. In the source, a failed lookup ends the process a little later, so statements after the literal may already have run.
- Nested values are copies. A list member, map entry or struct field is a separate value, not the same object as the one it was built from. So aliasing below the top level is not modelled: a write to a member got by indexing or a `.` getter does not reach the container.
- Identity equality of objects (`===` on two lists, maps or functions) gives `Unmodelled`.
- JavaScript coercions of payloads that do not match their type tag give `Unmodelled`. This covers a relational or logical operator on such payloads, and a `for` count whose payload is not a whole number.
- The owner tag written onto a type entry found through an import (engine.ts:1448) is not written back to that import's table; nothing reads it.
- A `.` getter on a Function or Micro payload binds nothing: the source would bind a statement object under the key `undefined`.
- BeticEngine.Engine.Eval: recursion is bounded by a `fuel` argument, and running out is `OutOfFuel`. A `for` loop also runs at most `fuel` passes.
- Where a contract ties a result to operand values, it states it exactly when the operands are names bound in the current frame (LocalRef). For other operand expressions it speaks of the values reached, returned as ghost outputs, because a nested expression may change the store before the operator reads it.
- BeticEngine.Engine.ExecFor: the placeholder values (0 to n-1, each in a new Int slot) and the frames the passes run in are in CountTo's loop, not in a contract; the contract states the counts read and the number of passes.
- BeticEngine.Engine.ExecIf: what each body does is ExecBlock's, whose contract does not state it (see ExecBlock); the contract states which bodies ran.
- BeticEngine.Engine.ExecElifs: only the first elif condition is tied to the state before the statement; a later one is read after earlier elif bodies may have run, and is stated as the value reached.
- BeticEngine.Engine.RunFunction: for a callee that is not a local name, the host's arguments are stated by their presence only, because evaluating the callee may change the store first.
- BeticEngine.Engine.RunMicro: the frame the body runs in (the current frame with the prototype's name bound to the argument) is not stated in the contract.
- BeticEngine.Engine.EvalStruct: when a supplied value is not a local name, the entries' values are not tied to the supplied expressions, only their keys and types, because evaluating them may change the store; a field value is a copy (see nested values above).
- BeticEngine.Engine.FillFields: when a supplied value is not a local name, the entries' values are stated by key and type only, for the same reason.
- BeticEngine.Engine.FillField: when the supplying value is not a local name, the entry's value is stated by its type only, for the same reason.
- BeticEngine.Engine.EvalMapGetter: the result is stated for a local source and an access that names one of its entries. An access that is any other expression runs in the pushed frame, and its result is stated only through its owner tag.
- BeticEngine.Engine.EvalFunctionCall: when the callee or an argument is not a local name, the result is not tied to RunFunction's, because evaluating them may change the store first; nor does it state where a tagged function runs when its import exists. CallFunctionIn states the case of a missing import.
- BeticEngine.Engine.CallFunctionIn: for a tagged function whose import exists, the contract does not state the import's outcome; the call there is that engine's RunFunction.
- BeticEngine.Engine.EvalMicroCall: the contract does not state where a tagged micro runs when its import exists; CallMicroIn states the cases where it does not run.
- BeticEngine.Engine.ExecModifier: the engine runs the corrected `++`/`--` (ModifierResult), not the code as written. The as-written behaviour is ModifierResultAsWritten; see Findings.
- Frames are maps, and a name is bound only when it was bound explicitly. The source's frames are plain JavaScript objects, so `constructor`, `toString`, `valueOf` and `__proto__` are found through the object prototype even when unbound (engine.ts:311, 1387). In the source, defining such a name fails with AlreadyExists, and referencing it yields a host function. The type table is such an object too (engine.ts:1440, 1459): a type named `constructor` or `toString` counts as declared, and a struct literal of it crashes the host, where the model's FindType finds nothing and the literal is UninitializedValue. None of this is modelled.
- Strings are sequences of characters. The source indexes JavaScript strings by UTF-16 code unit (engine.ts:775), so a character outside the Basic Multilingual Plane counts as two there. This is not modelled.
- BeticEngine.Engine.ExecBlock: the contract does not state the order of the statements or that the first failure stops the block.
- `macro`, `switch`, `try`/`catch` and comment statements do nothing, and macro calls and manual casts give None, as in the source.

## Findings

| source | as written | input that shows it | evidently intended | confidence | as-written member | corrected member |
|---|---|---|---|---|---|---|
| engine.ts:545-587 | `x++` and `x--` bump the payload, but leave `result` undefined, which is then stored. An Int target fails the type check, whose report reads the position of a missing right side and crashes. A Double target ends up holding `undefined`. | `var x = 1; x++` (Int), or a Double variable with `x--` | `++`/`--` add or subtract one, and the result is stored | not executed | BeticOperators.ModifierResultAsWritten, BeticOperators.IncrementAsWrittenLosesValue | BeticOperators.ModifierResult, BeticOperators.IntModifiersExact |

=== FILE: ast.dfy ===
/**
 * The already-parsed program tree the evaluator walks. Positions, comments
 * and the concrete grammar belong to the external front end and are omitted.
 */
module BeticAst {
  import opened Wrappers
  import opened BeticTypes
  import opened BeticNumbers

  /** A declared parameter, micro prototype or struct field: `{ type, value, optional }`. */
  datatype Field = Field(ty: Type, name: string, optional: bool)

  datatype CondOp =
    | And | Or | Nand | Nor
    | Equals | NotEquals
    | LessThan | GreaterThan | LessThanEquals | GreaterThanEquals
    | NotLessThan | NotGreaterThan | NotLessThanEquals | NotGreaterThanEquals

  datatype ModOp = Increment | Decrement | AddBy | SubtractBy | DivideBy | MultiplyBy

  datatype Expr =
    | Arithmetic(aop: ArithOp, left: Expr, right: Expr)
    | MapValueGetter(source: Expr, access: Expr)
    | ListValueGetter(indexed: Expr, index: Expr)
    | FunctionCall(callee: Expr, args: seq<Expr>)
    | MicroCall(micro: Expr, microArgs: seq<Expr>)
    | MacroCall
    | Condition(cop: CondOp, left: Expr, right: Expr)
    | ManualCast
    | Primitive(literal: Literal)
    | Reference(name: string)

  /** Literal forms, told apart in the source by the literal's type base. */
  datatype Literal =
    | IntLiteral(intValue: int)
    | DoubleLiteral(doubleValue: Num)
    | BooleanLiteral(boolText: string)
    | StringLiteral(stringValue: string)
    | ListLiteral(listOf: Option<Type>, elements: seq<Expr>)
    | MapLiteral(mapOf: Option<Type>, pairs: seq<Pair>)
    | FunctionLiteral(returnType: Option<Type>, params: seq<Field>, body: seq<Stmt>, providesExpr: Option<Expr>)
    | MicroLiteral(microReturnType: Option<Type>, prototype: Field, microBody: seq<Stmt>, microProvides: Option<Expr>)
    | StructLiteral(ty: Type, supplied: seq<Pair>)

  datatype Pair = Pair(key: string, value: Expr)

  datatype Elif = Elif(condition: Expr, block: seq<Stmt>)

  datatype Stmt =
    | VariableDefinition(name: string, constant: bool, expected: bool, init: Expr)
    | TypeDefinition(typeName: string, fields: seq<Field>)
    | FunctionDefinition(fnName: string, fnReturns: Option<Type>, fnParams: seq<Field>, fnBody: seq<Stmt>, fnProvides: Option<Expr>)
    | MicroDefinition(mcName: string, mcReturns: Option<Type>, mcPrototype: Field, mcBody: seq<Stmt>, mcProvides: Option<Expr>)
    | MacroDefinition
    | SwitchStatement
    | TryCatchBlock
    | Comment
    | ForStatement(placeholder: string, count: Expr, forBody: seq<Stmt>)
    | IfStatement(cond: Expr, thenBody: seq<Stmt>, elifs: seq<Elif>, elseBody: Option<seq<Stmt>>)
    | AssignStatement(assignTarget: Expr, assignValue: Expr)
    | QuantityModifier(mop: ModOp, modified: Expr, operand: Option<Expr>)
    | ExpressionStatement(expr: Expr)

  /**
   * A function definition is the definition of a variable, neither constant
   * nor expected, of its name, holding a Function literal with its return
   * type, parameters, body and provides expression.
   */
  function DesugarFunction(s: Stmt): (d: Stmt)
    requires s.FunctionDefinition?
    ensures d.VariableDefinition? && d.name == s.fnName && !d.constant && !d.expected
    ensures d.init.Primitive? && d.init.literal.FunctionLiteral?
    ensures var f := d.init.literal;
      f.returnType == s.fnReturns && f.params == s.fnParams && f.body == s.fnBody && f.providesExpr == s.fnProvides
  {
    VariableDefinition(s.fnName, false, false,
      Primitive(FunctionLiteral(s.fnReturns, s.fnParams, s.fnBody, s.fnProvides)))
  }

  /**
   * A micro definition is the definition of a variable, neither constant
   * nor expected, of its name, holding a Micro literal with its return
   * type, prototype, body and provides expression.
   */
  function DesugarMicro(s: Stmt): (d: Stmt)
    requires s.MicroDefinition?
    ensures d.VariableDefinition? && d.name == s.mcName && !d.constant && !d.expected
    ensures d.init.Primitive? && d.init.literal.MicroLiteral?
    ensures var m := d.init.literal;
      m.microReturnType == s.mcReturns && m.prototype == s.mcPrototype && m.microBody == s.mcBody
      && m.microProvides == s.mcProvides
  {
    VariableDefinition(s.mcName, false, false,
      Primitive(MicroLiteral(s.mcReturns, s.mcPrototype, s.mcBody, s.mcProvides)))
  }
}

=== FILE: engine.dfy ===
/**
 * The evaluator. Every module instance (the main program and each imported
 * module) is an Engine with its own stack of variable frames and its own
 * table of named types; all values live in one shared Store, and a frame
 * binds names to the values' slots there, so two names bound to one value
 * see each other's updates.
 */
module BeticEngine {
  import opened Wrappers
  import opened BeticTypes
  import opened BeticNumbers
  import opened BeticAst
  import opened BeticValues
  import opened BeticUtil
  import opened BeticOperators

  /** A frame of variables: names to the slots of their values. */
  type Frame = map<string, Handle>

  /** The shared heap of values, and the non-fatal diagnostics reported so far. */
  class Store {
    var slots: seq<PrimitiveData>
    var log: seq<ErrorKind>

    constructor()
      ensures slots == [] && log == []
    {
      slots := [];
      log := [];
    }

    /** Places a value in a new slot. */
    method Alloc(p: PrimitiveData) returns (h: Handle)
      modifies this
      ensures slots == old(slots) + [p] && h == |old(slots)|
      ensures log == old(log)
    {
      h := |slots|;
      slots := slots + [p];
    }
  }

  /** What a host callback did: returned a value, returned undefined, or threw. */
  datatype HostOutcome = Returned(data: PrimitiveData) | ReturnedNothing | Threw(message: string)

  /** An imported module instance under its generated identifier. */
  datatype Import = Import(id: ModuleId, engine: Engine)

  /** The base types every engine knows from the start. */
  const BUILTIN_TYPES: seq<string> :=
    ["Int", "Byte", "Double", "Boolean", "String", "Map", "List", "Function", "Micro", "Macro", "Occult", "None", "Void"]

  /** The index of the last frame among `tops` that binds `name`. */
  function LastHit(tops: seq<Frame>, name: string): (r: Option<nat>)
    ensures r.Some? ==> (r.value < |tops| && name in tops[r.value]
      && forall j :: r.value < j < |tops| ==> name !in tops[j])
    ensures r.None? ==> forall j :: 0 <= j < |tops| ==> name !in tops[j]
  {
    if |tops| == 0 then None
    else if name in tops[|tops| - 1] then Some(|tops| - 1)
    else LastHit(tops[..|tops| - 1], name)
  }

  predicate HitsIn(tops: seq<Frame>, name: string, n: nat) {
    forall j :: 0 <= j < |tops| && name in tops[j] ==> tops[j][name] < n
  }

  /**
   * The slots after each import whose current frame binds `name` has, in
   * order, written its identifier into the owner tag of that value.
   */
  function Stamp(slots: seq<PrimitiveData>, tops: seq<Frame>, ids: seq<ModuleId>, name: string): (r: seq<PrimitiveData>)
    requires |ids| == |tops| && HitsIn(tops, name, |slots|)
    ensures |r| == |slots|
    ensures forall h :: 0 <= h < |slots| ==> r[h].representation == slots[h].representation
    decreases |tops|
  {
    if |tops| == 0 then slots
    else
      var n := |tops| - 1;
      var s := Stamp(slots, tops[..n], ids[..n], name);
      if name in tops[n] then s[tops[n][name] := WithOwner(s[tops[n][name]], Some(ids[n]))] else s
  }

  /**
   * The value found is tagged with the identifier of the last import that
   * binds the name, and a value no import binds keeps its tag.
   */
  lemma {:induction false} StampOwners(slots: seq<PrimitiveData>, tops: seq<Frame>, ids: seq<ModuleId>, name: string)
    requires |ids| == |tops| && HitsIn(tops, name, |slots|)
    ensures LastHit(tops, name).Some? ==>
      var j := LastHit(tops, name).value;
      Stamp(slots, tops, ids, name)[tops[j][name]].engine == Some(ids[j])
    ensures forall h :: 0 <= h < |slots| && (forall j :: 0 <= j < |tops| && name in tops[j] ==> tops[j][name] != h) ==>
      Stamp(slots, tops, ids, name)[h] == slots[h]
    decreases |tops|
  {
    if |tops| > 0 {
      var n := |tops| - 1;
      assert HitsIn(tops[..n], name, |slots|);
      StampOwners(slots, tops[..n], ids[..n], name);
      if name !in tops[n] {
        assert LastHit(tops, name) == LastHit(tops[..n], name);
        if LastHit(tops, name).Some? {
          var j := LastHit(tops, name).value;
          assert tops[..n][j] == tops[j];
        }
      }
    }
  }

  class Engine {
    const imports: seq<Import>
    const store: Store
    /** The host: runs native callback `callback` on the given arguments (None for undefined). */
    const host: (nat, seq<Option<PrimitiveData>>) -> HostOutcome
    const fpu: FloatUnit
    /** Imports always have a lower rank: module instances import each other without cycles. */
    const rank: nat
    /** This engine and every engine reachable through imports. */
    ghost const reach: set<Engine>

    var frames: seq<Frame>
    var typeTable: map<string, TypeData>

    /** The import structure: acyclic, sharing one store, each import's reach inside this one's. */
    ghost predicate Linked()
      decreases rank
    {
      && this in reach
      && forall i :: 0 <= i < |imports| ==>
        && imports[i].engine.rank < rank
        && imports[i].engine in reach
        && imports[i].engine.reach <= reach
        && imports[i].engine.store == store
        && imports[i].engine.Linked()
    }

    /** The engine has a current frame and every binding points into the store. */
    ghost predicate FramesWithin(n: nat)
      reads this`frames
    {
      && |frames| > 0
      && forall k, x :: 0 <= k < |frames| && x in frames[k] ==> frames[k][x] < n
    }

    ghost predicate Valid()
      reads reach, store
    {
      && Linked()
      && forall e :: e in reach ==> e.store == store && e.FramesWithin(|store.slots|)
    }

    /** The store only grows, a value's type never changes, and diagnostics are only appended. */
    twostate predicate Grown()
      reads store
    {
      && |old(store.slots)| <= |store.slots|
      && (forall h :: 0 <= h < |old(store.slots)| ==> store.slots[h].representation.ty == old(store.slots[h].representation.ty))
      && old(store.log) <= store.log
    }

    /** No engine's frames changed. */
    twostate predicate FramesKept()
      reads reach
    {
      forall e :: e in reach ==> e.frames == old(e.frames)
    }

    /** This engine's current frame was popped, and no other engine's frames changed. */
    twostate predicate Popped()
      reads this, reach
    {
      && 0 < |old(frames)| && frames == old(frames)[..|old(frames)| - 1]
      && forall e :: e in reach && e != this ==> e.frames == old(e.frames)
    }

    /** Only this engine's current frame changed. */
    twostate predicate TopOnly()
      reads this, reach
    {
      && 0 < |old(frames)| == |frames|
      && frames[..|frames| - 1] == old(frames)[..|frames| - 1]
      && forall e :: e in reach && e != this ==> e.frames == old(e.frames)
    }

    predicate InStore(v: Val)
      reads store
    {
      v.Obj? ==> v.h < |store.slots|
    }

    /** `v` is a value in the store of type `ty` holding `p`. */
    predicate Holds(v: Val, ty: Type, p: Payload)
      reads store
    {
      v.Obj? && v.h < |store.slots| && store.slots[v.h].representation.ty == ty && store.slots[v.h].representation.value == p
    }

    /** `v` is the value last placed in the store. */
    predicate Newest(v: Val)
      reads store
    {
      v.Obj? && v.h == |store.slots| - 1
    }

    /** `e` is a reference to a name the current frame binds. */
    predicate LocalRef(e: Expr)
      reads this`frames, store`slots
    {
      && |frames| > 0 && e.Reference? && e.name in CurrentFrame()
      && CurrentFrame()[e.name] < |store.slots|
    }

    /** The slot a local reference names. */
    function Slot(e: Expr): Handle
      requires LocalRef(e)
      reads this`frames, store`slots
    {
      CurrentFrame()[e.name]
    }

    /** The value a local reference names. */
    function Var(e: Expr): PrimitiveData
      requires LocalRef(e)
      reads this`frames, store`slots
    {
      store.slots[Slot(e)]
    }

    /** Every supplied pair's value is a reference to a name the current frame binds. */
    predicate AllLocal(pairs: seq<Pair>)
      reads this`frames, store`slots
    {
      forall j :: 0 <= j < |pairs| ==> LocalRef(pairs[j].value)
    }

    /** Every expression is a reference to a name the current frame binds. */
    predicate LocalExprs(es: seq<Expr>)
      reads this`frames, store`slots
    {
      forall i :: 0 <= i < |es| ==> LocalRef(es[i])
    }

    /** The values the pairs' local references name (None for any other value). */
    function LocalValues(pairs: seq<Pair>): (vals: seq<PrimitiveData>)
      reads this`frames, store`slots
      ensures |vals| == |pairs|
      ensures forall j :: 0 <= j < |pairs| && LocalRef(pairs[j].value) ==> vals[j] == Var(pairs[j].value)
    {
      if |frames| == 0 then seq(|pairs|, j => NoneData())
      else
        var top, slots := CurrentFrame(), store.slots;
        seq(|pairs|, j requires 0 <= j < |pairs| =>
          var e := pairs[j].value;
          if e.Reference? && e.name in top && top[e.name] < |slots| then slots[top[e.name]] else NoneData())
    }

    /** `r` is what placing the outcome `x` gives: its error, or a new value holding it. */
    predicate Produced(x: Result<PrimitiveData, ErrorKind>, r: Result<Val, ErrorKind>)
      reads store
    {
      if x.Failure? then r == Failure(x.error)
      else r.Success? && Newest(r.value) && store.slots[r.value.h] == x.value
    }

    /**
     * A new module instance: one empty frame and the built-in types, each
     * with no fields and no owner. The imports `init` would load are given.
     */
    constructor(imports: seq<Import>, store: Store, host: (nat, seq<Option<PrimitiveData>>) -> HostOutcome,
                fpu: FloatUnit, rank: nat)
      requires forall i :: 0 <= i < |imports| ==>
        imports[i].engine.rank < rank && imports[i].engine.store == store && imports[i].engine.Valid()
      ensures Valid()
      ensures frames == [map[]]
      ensures typeTable.Keys == set b | b in BUILTIN_TYPES
      ensures forall b :: b in typeTable ==> typeTable[b] == TypeData([], None)
    {
      this.imports := imports;
      this.store := store;
      this.host := host;
      this.fpu := fpu;
      this.rank := rank;
      this.reach := {this} + (set i, e | 0 <= i < |imports| && e in imports[i].engine.reach :: e);
      frames := [map[]];
      typeTable := map b | b in BUILTIN_TYPES :: TypeData([], None);
      new;
      assert forall i :: 0 <= i < |imports| ==> imports[i].engine in imports[i].engine.reach;
    }

    function CurrentFrame(): Frame
      requires |frames| > 0
      reads this`frames
    {
      frames[|frames| - 1]
    }

    lemma FramesWithinMono(n: nat, m: nat)
      requires FramesWithin(n) && n <= m
      ensures FramesWithin(m)
    {
    }

    /** The store grew and no frame changed outside `e`'s reach, where `e` is still valid. */
    twostate lemma ValidAfter(e: Engine)
      requires old(Valid()) && e in reach && e.reach <= reach && e.Valid()
      requires |old(store.slots)| <= |store.slots|
      requires forall x :: x in reach && x !in e.reach ==> x.frames == old(x.frames)
      ensures Valid()
    {
      forall x | x in reach && x !in e.reach
        ensures x.FramesWithin(|store.slots|)
      {
        var n := |old(store.slots)|;
        assert old(x.FramesWithin(n));
        assert x.FramesWithin(n);
        x.FramesWithinMono(n, |store.slots|);
      }
    }

    lemma ImportValid(k: nat)
      requires Valid() && k < |imports|
      ensures imports[k].engine.Valid()
    {
    }

    /** The current frames of the first k imports, in import order. */
    ghost function ImportTops(k: nat): (tops: seq<Frame>)
      requires Valid() && k <= |imports|
      reads reach, store
      ensures |tops| == k
      ensures forall j :: 0 <= j < k ==> tops[j] == imports[j].engine.CurrentFrame()
    {
      if k == 0 then [] else ImportTops(k - 1) + [imports[k - 1].engine.CurrentFrame()]
    }

    function ImportIds(): (ids: seq<ModuleId>)
      ensures |ids| == |imports|
    {
      seq(|imports|, i requires 0 <= i < |imports| => imports[i].id)
    }

    /** The first import with the identifier, as `find` returns it; |imports| when there is none. */
    function FirstImport(id: ModuleId): (k: nat)
      ensures k <= |imports|
      ensures k < |imports| ==> imports[k].id == id
      ensures forall j :: 0 <= j < k ==> imports[j].id != id
    {
      FirstImportFrom(id, 0)
    }

    function FirstImportFrom(id: ModuleId, start: nat): (k: nat)
      requires start <= |imports|
      ensures start <= k <= |imports|
      ensures k < |imports| ==> imports[k].id == id
      ensures forall j :: start <= j < k ==> imports[j].id != id
      decreases |imports| - start
    {
      if start == |imports| || imports[start].id == id then start else FirstImportFrom(id, start + 1)
    }

    /**
     * Looks a type up by base: this engine's table first, otherwise the last
     * import that knows it, tagged with that import's identifier. Imports
     * look in their own imports in turn.
     */
    function FindType(base: string): (r: Option<TypeData>)
      requires Linked()
      reads reach
      ensures base in typeTable ==> r == Some(typeTable[base])
      ensures base !in typeTable ==> r == FindInImports(base, |imports|)
      decreases rank, |imports| + 1, 0
    {
      if base in typeTable then Some(typeTable[base]) else FindInImports(base, |imports|)
    }

    function FindInImports(base: string, k: nat): (r: Option<TypeData>)
      requires Linked() && k <= |imports|
      reads reach
      ensures r.None? <==> LastKnower(base, k).None?
      ensures r.Some? ==> (var j := LastKnower(base, k).value;
        r.value == TypeData(imports[j].engine.FindType(base).value.fields, Some(imports[j].id)))
      decreases rank, k, 1
    {
      if k == 0 then None
      else
        var found := imports[k - 1].engine.FindType(base);
        if found.Some? then
          assert LastKnower(base, k) == Some(k - 1);
          Some(TypeData(found.value.fields, Some(imports[k - 1].id)))
        else
          assert LastKnower(base, k) == LastKnower(base, k - 1);
          FindInImports(base, k - 1)
    }

    /** Import i knows the type. */
    predicate Knows(base: string, i: nat)
      requires Linked() && i < |imports|
      reads reach
      decreases rank, i, 0
    {
      imports[i].engine.FindType(base).Some?
    }

    /** The last of the first k imports that knows the type, none when no import does. */
    function LastKnower(base: string, k: nat): (j: Option<nat>)
      requires Linked() && k <= |imports|
      reads reach
      ensures j.Some? ==> j.value < k && Knows(base, j.value)
      ensures forall i :: (if j.Some? then j.value + 1 else 0) <= i < k ==> !Knows(base, i)
      decreases rank, k, 0
    {
      if k == 0 then None
      else if Knows(base, k - 1) then Some(k - 1)
      else LastKnower(base, k - 1)
    }

    /* ---- Values and references. ---- */

    /** Places a new value in the store. */
    method Place(p: PrimitiveData) returns (h: Handle)
      requires Valid()
      modifies store
      ensures Valid() && Grown()
      ensures store.slots == old(store.slots) + [p] && h == |old(store.slots)|
    {
      h := store.Alloc(p);
      forall e | e in reach
        ensures e.FramesWithin(|store.slots|)
      {
        e.FramesWithinMono(|store.slots| - 1, |store.slots|);
      }
    }

    /** A new value as the result of an expression. */
    /**
     * What a callable's body gave: None without a provides expression; with
     * one, once it was `reached`, the `provided` value, or None when that is
     * undefined.
     */
    predicate BodyGave(providesExpr: Option<Expr>, r: Result<Val, ErrorKind>, provided: Val, reached: bool)
      reads store
    {
      && (r.Success? && providesExpr.None? ==> Produced(Success(NoneData()), r))
      && (r.Success? && providesExpr.Some? ==> reached)
      && (reached ==> providesExpr.Some?)
      && (reached && provided.Undefined? ==> Produced(Success(NoneData()), r))
      && (reached && provided.Obj? ==> r == Success(provided))
    }

    /**
     * What a native call gave for the host's outcome: a new value for a
     * returned one, undefined for none, and for a throw HostException when
     * the callback is asynchronous (a rejected promise), RuntimeError when not.
     */
    predicate HostGave(outcome: HostOutcome, isAsync: bool, r: Result<Val, ErrorKind>)
      reads store
    {
      match outcome
      case Returned(p) => Produced(Success(p), r)
      case ReturnedNothing => r == Success(Undefined)
      case Threw(_) => r == Failure(if isAsync then HostException else RuntimeError)
    }

    method Produce(p: PrimitiveData) returns (r: Result<Val, ErrorKind>)
      requires Valid()
      modifies store
      ensures Valid() && Grown()
      ensures store.slots == old(store.slots) + [p] && r == Success(Obj(|old(store.slots)|))
    {
      var h := Place(p);
      r := Success(Obj(h));
    }

    /**
     * A name in the current frame; otherwise the value the last import binds
     * in its current frame (imports do not look further), after every import
     * that binds the name has tagged its value with the import's identifier.
     */
    method ResolveReference(name: string) returns (r: Result<Handle, ErrorKind>)
      requires Valid()
      modifies store
      ensures Valid() && Grown() && store.log == old(store.log)
      ensures name in CurrentFrame() ==> r == Success(CurrentFrame()[name]) && store.slots == old(store.slots)
      ensures name !in CurrentFrame() ==>
        var tops := ImportTops(|imports|);
        && HitsIn(tops, name, |old(store.slots)|)
        && store.slots == Stamp(old(store.slots), tops, ImportIds(), name)
        && r == (if LastHit(tops, name).Some? then Success(tops[LastHit(tops, name).value][name]) else Failure(UninitializedValue))
      ensures r.Success? ==> r.value < |store.slots|
    {
      if name in CurrentFrame() {
        return Success(CurrentFrame()[name]);
      }
      ghost var tops := ImportTops(|imports|);
      assert HitsIn(tops, name, |store.slots|) by {
        forall j | 0 <= j < |tops| && name in tops[j]
          ensures tops[j][name] < |store.slots|
        {
          assert imports[j].engine.FramesWithin(|store.slots|);
        }
      }
      var found := StampImports(name, tops);
      assert ImportTops(|imports|) == tops;
      if found.Some? {
        r := Success(found.value);
      } else {
        r := Failure(UninitializedValue);
      }
    }

    /** The import loop of ResolveReference, over the imports' current frames `tops`. */
    method StampImports(name: string, ghost tops: seq<Frame>) returns (found: Option<Handle>)
      requires Valid()
      requires |tops| == |imports| && HitsIn(tops, name, |store.slots|)
      requires forall j :: 0 <= j < |imports| ==> |imports[j].engine.frames| > 0 && imports[j].engine.CurrentFrame() == tops[j]
      modifies store
      ensures Valid() && Grown()
      ensures store.slots == Stamp(old(store.slots), tops, ImportIds(), name) && store.log == old(store.log)
      ensures found == (if LastHit(tops, name).Some? then Some(tops[LastHit(tops, name).value][name]) else None)
    {
      ghost var slots0 := store.slots;
      found := None;
      var k := 0;
      while k < |imports|
        invariant 0 <= k <= |imports|
        invariant HitsIn(tops[..k], name, |slots0|)
        invariant store.slots == Stamp(slots0, tops[..k], ImportIds()[..k], name)
        invariant found == (if LastHit(tops[..k], name).Some? then Some(tops[LastHit(tops[..k], name).value][name]) else None)
        invariant store.log == old(store.log)
      {
        assert tops[..k + 1][..k] == tops[..k];
        assert ImportIds()[..k + 1][..k] == ImportIds()[..k];
        var frame := imports[k].engine.CurrentFrame();
        if name in frame {
          var h := frame[name];
          store.slots := store.slots[h := WithOwner(store.slots[h], Some(imports[k].id))];
          found := Some(h);
        }
        k := k + 1;
      }
      assert tops[..|imports|] == tops;
      assert ImportIds()[..|imports|] == ImportIds();
    }

    /** Pushes a frame. */
    method Push(sub: Frame)
      requires Valid()
      requires forall x :: x in sub ==> sub[x] < |store.slots|
      modifies this`frames
      ensures Valid() && frames == old(frames) + [sub]
    {
      frames := frames + [sub];
    }

    /** Pops the current frame when it is not the only one. */
    method Pop()
      requires Valid() && |frames| > 1
      modifies this`frames
      ensures Valid() && frames == old(frames)[..|old(frames)| - 1]
    {
      frames := frames[..|frames| - 1];
    }

    /** Writes a module identifier (or none) into the owner tag of a value. */
    method Retag(h: Handle, owner: Option<ModuleId>)
      requires Valid() && h < |store.slots|
      modifies store
      ensures Valid() && Grown()
      ensures store.slots == old(store.slots)[h := WithOwner(old(store.slots)[h], owner)]
    {
      store.slots := store.slots[h := WithOwner(store.slots[h], owner)];
    }

    /* ---- Expressions. ---- */

    /** Evaluates an expression to a value in the store (or undefined, from a host callback). */
    method Eval(e: Expr, fuel: nat) returns (r: Result<Val, ErrorKind>)
      requires Valid()
      modifies reach, store
      ensures Valid() && Grown()
      ensures r.Success? ==> FramesKept() && InStore(r.value)
      ensures fuel == 0 ==> r == Failure(OutOfFuel)
      ensures fuel > 0 && e.Reference? && e.name in old(CurrentFrame()) ==>
        r == Success(Obj(old(CurrentFrame())[e.name])) && store.slots == old(store.slots) && store.log == old(store.log)
      decreases fuel, 0
    {
      if fuel == 0 {
        return Failure(OutOfFuel);
      }
      match e {
        case Arithmetic(op, left, right) =>
          ghost var lh, rh, reached;
          r, lh, rh, reached := EvalArithmetic(op, left, right, fuel - 1);
        case MapValueGetter(source, access) =>
          ghost var sh, reached;
          r, sh, reached := EvalMapGetter(source, access, fuel - 1);
        case ListValueGetter(source, index) =>
          ghost var sh, ih, stage;
          r, sh, ih, stage := EvalListGetter(source, index, fuel - 1);
        case FunctionCall(callee, args) =>
          ghost var vals, f, found, bound, hostArgs, provided, reached;
          r, vals, f, found, bound, hostArgs, provided, reached := EvalFunctionCall(callee, args, fuel - 1);
        case MicroCall(micro, args) =>
          r := EvalMicroCall(micro, args, fuel - 1);
        case MacroCall =>
          r := Produce(NoneData());
        case Condition(op, left, right) =>
          ghost var lh, rh, reached;
          r, lh, rh, reached := EvalCondition(op, left, right, fuel - 1);
        case ManualCast =>
          r := Produce(NoneData());
        case Primitive(literal) =>
          r := EvalPrimitive(literal, fuel - 1);
        case Reference(name) =>
          var h :- ResolveReference(name);
          r := Success(Obj(h));
      }
    }

    /** Sends a literal to the evaluation of its form. */
    method EvalPrimitive(literal: Literal, fuel: nat) returns (r: Result<Val, ErrorKind>)
      requires Valid()
      modifies reach, store
      ensures Valid() && Grown()
      ensures r.Success? ==> FramesKept() && InStore(r.value)
      decreases fuel, 6
    {
      match literal {
        case StructLiteral(ty, supplied) =>
          ghost var unsupplied, mismatch;
          r, unsupplied, mismatch := EvalStruct(ty, supplied, fuel);
        case ListLiteral(of, elements) =>
          ghost var vals, reached;
          r, vals, reached := EvalListLiteral(of, elements, fuel);
        case MapLiteral(of, pairs) =>
          ghost var vals, reached;
          r, vals, reached := EvalMapLiteral(of, pairs, fuel);
        case _ =>
          r := EvalLiteral(literal, fuel);
      }
    }

    /** Evaluates expressions left to right. */
    method EvalAll(es: seq<Expr>, fuel: nat) returns (r: Result<seq<Val>, ErrorKind>)
      requires Valid()
      modifies reach, store
      ensures Valid() && Grown()
      ensures r.Success? ==> FramesKept() && |r.value| == |es|
      ensures r.Success? ==> forall i :: 0 <= i < |es| ==> InStore(r.value[i])
      ensures r.Success? ==> forall i :: 0 <= i < |es| && fuel > 0 && old(LocalRef(es[i])) ==>
        r.value[i] == Obj(old(Slot(es[i])))
      ensures fuel > 0 && old(LocalExprs(es)) ==> r.Success? && store.slots == old(store.slots)
      decreases fuel, 2
    {
      var vals: seq<Val> := [];
      var k := 0;
      while k < |es|
        invariant 0 <= k <= |es| && |vals| == k
        invariant Valid() && Grown() && FramesKept()
        invariant forall i :: 0 <= i < k ==> InStore(vals[i])
        invariant forall i :: 0 <= i < k && fuel > 0 && old(LocalRef(es[i])) ==> vals[i] == Obj(old(Slot(es[i])))
        invariant fuel > 0 && old(LocalExprs(es)) ==> store.slots == old(store.slots)
      {
        var v :- Eval(es[k], fuel);
        vals := vals + [v];
        k := k + 1;
      }
      return Success(vals);
    }

    /**
     * The two operands of a binary expression, evaluated left to right; an
     * operand that evaluates to undefined crashes the host.
     */
    method EvalOperands(left: Expr, right: Expr, fuel: nat) returns (r: Result<(Handle, Handle), ErrorKind>)
      requires Valid()
      modifies reach, store
      ensures Valid() && Grown()
      ensures r.Success? ==> FramesKept() && r.value.0 < |store.slots| && r.value.1 < |store.slots|
      ensures fuel > 0 && old(LocalRef(left)) && old(LocalRef(right)) ==>
        r == Success((old(Slot(left)), old(Slot(right)))) && store.slots == old(store.slots)
      decreases fuel, 3
    {
      var lv := Eval(left, fuel);
      if lv.Failure? || lv.value.Undefined? {
        return if lv.Failure? then Failure(lv.error) else Failure(HostException);
      }
      var rv := Eval(right, fuel);
      if rv.Failure? || rv.value.Undefined? {
        return if rv.Failure? then Failure(rv.error) else Failure(HostException);
      }
      r := Success((lv.value.h, rv.value.h));
    }

    /**
     * `left op right`: ArithmeticResult decides on the values the operands
     * name; `reached` tells that both evaluated to values, in slots `lh`
     * and `rh`.
     */
    method EvalArithmetic(op: ArithOp, left: Expr, right: Expr, fuel: nat)
      returns (r: Result<Val, ErrorKind>, ghost lh: Handle, ghost rh: Handle, ghost reached: bool)
      requires Valid()
      modifies reach, store
      ensures Valid() && Grown()
      ensures r.Success? ==> FramesKept() && InStore(r.value) && reached
      ensures reached ==> (lh < |store.slots| && rh < |store.slots|
        && Produced(ArithmeticResult(op, store.slots[lh].representation, store.slots[rh].representation, fpu), r))
      ensures fuel > 0 && old(LocalRef(left)) && old(LocalRef(right)) ==>
        (reached && lh == old(Slot(left)) && rh == old(Slot(right))
         && store.slots[lh] == old(Var(left)) && store.slots[rh] == old(Var(right)))
      decreases fuel, 4
    {
      lh, rh, reached := 0, 0, false;
      var operands := EvalOperands(left, right, fuel);
      if operands.Failure? {
        r := Failure(operands.error);
        return;
      }
      var (l, rr) := operands.value;
      lh, rh, reached := l, rr, true;
      var x := ArithmeticResult(op, store.slots[l].representation, store.slots[rr].representation, fpu);
      if x.Failure? {
        r := Failure(x.error);
        return;
      }
      r := Produce(x.value);
    }

    /** `left op right` for a condition: ConditionResult decides on the values the operands name. */
    method EvalCondition(op: CondOp, left: Expr, right: Expr, fuel: nat)
      returns (r: Result<Val, ErrorKind>, ghost lh: Handle, ghost rh: Handle, ghost reached: bool)
      requires Valid()
      modifies reach, store
      ensures Valid() && Grown()
      ensures r.Success? ==> FramesKept() && InStore(r.value) && reached
      ensures reached ==> (lh < |store.slots| && rh < |store.slots|
        && Produced(ConditionResult(op, store.slots[lh].representation, store.slots[rh].representation, fpu), r))
      ensures fuel > 0 && old(LocalRef(left)) && old(LocalRef(right)) ==>
        (reached && lh == old(Slot(left)) && rh == old(Slot(right))
         && store.slots[lh] == old(Var(left)) && store.slots[rh] == old(Var(right)))
      decreases fuel, 4
    {
      lh, rh, reached := 0, 0, false;
      var operands := EvalOperands(left, right, fuel);
      if operands.Failure? {
        r := Failure(operands.error);
        return;
      }
      var (l, rr) := operands.value;
      lh, rh, reached := l, rr, true;
      var x := ConditionResult(op, store.slots[l].representation, store.slots[rr].representation, fpu);
      if x.Failure? {
        r := Failure(x.error);
        return;
      }
      r := Produce(x.value);
    }

    /** A frame binding each entry's key to a new slot holding a copy of its value. */
    method BuildFrame(entries: seq<Entry>) returns (f: Frame)
      requires Valid()
      modifies store
      ensures Valid() && Grown() && old(store.slots) <= store.slots
      ensures forall x :: x in f <==> x in EntriesFrame(entries)
      ensures forall x :: x in f ==> f[x] < |store.slots| && store.slots[f[x]] == EntriesFrame(entries)[x]
    {
      f := map[];
      var k := 0;
      while k < |entries|
        invariant 0 <= k <= |entries|
        invariant Valid() && Grown() && old(store.slots) <= store.slots
        invariant forall x :: x in f <==> x in EntriesFrame(entries[..k])
        invariant forall x :: x in f ==> f[x] < |store.slots| && store.slots[f[x]] == EntriesFrame(entries[..k])[x]
      {
        var h := Place(entries[k].value);
        f := f[entries[k].key := h];
        assert entries[..k + 1][..k] == entries[..k];
        k := k + 1;
      }
      assert entries[..|entries|] == entries;
    }

    /**
     * `source.access`: evaluates `access` in a pushed frame holding only the
     * source's fields, pops it, and gives the result the source's owner tag.
     * `reached` tells that the source evaluated to a value, in slot `sh`.
     */
    method EvalMapGetter(source: Expr, access: Expr, fuel: nat)
      returns (r: Result<Val, ErrorKind>, ghost sh: Handle, ghost reached: bool)
      requires Valid()
      modifies reach, store
      ensures Valid() && Grown()
      ensures r.Success? ==> FramesKept() && InStore(r.value) && reached
      ensures reached ==> sh < |store.slots|
      ensures reached && Unindexable(BaseOf(store.slots[sh])) ==> r == Failure(UnindexibleReference)
      ensures r.Success? ==> r.value.Obj? && store.slots[r.value.h].engine == store.slots[sh].engine
      ensures fuel > 0 && old(LocalRef(source)) ==> reached && sh == old(Slot(source))
      ensures fuel > 0 && old(LocalRef(source)) && !Unindexable(BaseOf(old(Var(source)))) ==>
        var fields := FieldEntries(old(Var(source)).representation.value);
        && (fields.Failure? ==> r == Failure(HostException))
        && (fields.Success? && access.Reference? && access.name in EntriesFrame(fields.value) ==>
              r.Success? && store.slots[r.value.h] == WithOwner(EntriesFrame(fields.value)[access.name], old(Var(source)).engine))
      decreases fuel, 4
    {
      sh, reached := 0, false;
      var sv := Eval(source, fuel);
      if sv.Failure? || sv.value.Undefined? {
        r := if sv.Failure? then Failure(sv.error) else Failure(HostException);
        return;
      }
      var sx := sv.value.h;
      sh, reached := sx, true;
      if Unindexable(BaseOf(store.slots[sx])) {
        r := Failure(UnindexibleReference);
        return;
      }
      var fields := FieldEntries(store.slots[sx].representation.value);
      if fields.Failure? {
        r := Failure(fields.error);
        return;
      }
      r := EvalAccess(sx, fields.value, access, fuel);
    }

    /**
     * The second half of `source.access`, for a source in slot `sx` with
     * the given entries: `access` is evaluated in a pushed frame binding
     * the entries, and the result takes the source's owner tag as it is
     * after that evaluation.
     */
    method EvalAccess(sx: Handle, entries: seq<Entry>, access: Expr, fuel: nat) returns (r: Result<Val, ErrorKind>)
      requires Valid() && sx < |store.slots|
      modifies reach, store
      ensures Valid() && Grown()
      ensures r.Success? ==> (FramesKept() && InStore(r.value) && r.value.Obj?
        && store.slots[r.value.h].engine == store.slots[sx].engine)
      ensures fuel > 0 && access.Reference? && access.name in EntriesFrame(entries) ==>
        r.Success? && store.slots[r.value.h] == WithOwner(EntriesFrame(entries)[access.name], old(store.slots[sx]).engine)
      decreases fuel, 3
    {
      var sub := BuildFrame(entries);
      ghost var built := store.slots;
      assert built[sx] == old(store.slots[sx]);
      Push(sub);
      assert CurrentFrame() == sub;
      var v := Eval(access, fuel);
      if v.Failure? || v.value.Undefined? {
        return if v.Failure? then Failure(v.error) else Failure(HostException);
      }
      assert fuel > 0 && access.Reference? && access.name in sub ==>
        v.value.h == sub[access.name] && store.slots == built;
      Retag(v.value.h, store.slots[sx].engine);
      Pop();
      r := Success(v.value);
    }

    /**
     * `source[index]` on a List, Map or String: IndexResult decides on the
     * values the source and the index name. `stage` tells how far the
     * evaluation got: 1 once the source gave a value (slot `sh`), 2 once the
     * index did too (slot `ih`).
     */
    method EvalListGetter(source: Expr, index: Expr, fuel: nat)
      returns (r: Result<Val, ErrorKind>, ghost sh: Handle, ghost ih: Handle, ghost stage: nat)
      requires Valid()
      modifies reach, store
      ensures Valid() && Grown()
      ensures r.Success? ==> FramesKept() && InStore(r.value) && stage == 2
      ensures stage >= 1 ==> sh < |store.slots|
      ensures stage >= 1 && !Indexable(BaseOf(store.slots[sh])) ==> r == Failure(UnindexibleReference)
      ensures stage == 2 ==> (ih < |store.slots| && Indexable(BaseOf(store.slots[sh]))
        && Produced(IndexResult(store.slots[sh], store.slots[ih].representation), r))
      ensures fuel > 0 && old(LocalRef(source)) && old(LocalRef(index)) ==>
        (stage >= 1 && sh == old(Slot(source)) && store.slots[sh] == old(Var(source))
         && (Indexable(BaseOf(old(Var(source)))) ==>
               stage == 2 && ih == old(Slot(index)) && store.slots[ih] == old(Var(index))))
      decreases fuel, 4
    {
      sh, ih, stage := 0, 0, 0;
      var sv := Eval(source, fuel);
      if sv.Failure? || sv.value.Undefined? {
        r := if sv.Failure? then Failure(sv.error) else Failure(HostException);
        return;
      }
      var sx := sv.value.h;
      sh, stage := sx, 1;
      if !Indexable(BaseOf(store.slots[sx])) {
        r := Failure(UnindexibleReference);
        return;
      }
      var iv := Eval(index, fuel);
      if iv.Failure? || iv.value.Undefined? {
        r := if iv.Failure? then Failure(iv.error) else Failure(HostException);
        return;
      }
      ih, stage := iv.value.h, 2;
      var x := IndexResult(store.slots[sx], store.slots[iv.value.h].representation);
      if x.Failure? {
        r := Failure(x.error);
        return;
      }
      r := Produce(x.value);
    }

    /**
     * A call: the callee must be a Function. A local function runs here; one
     * tagged with an import's identifier runs in that import, and one whose
     * import is gone yields None.
     */
    method EvalFunctionCall(callee: Expr, args: seq<Expr>, fuel: nat)
      returns (r: Result<Val, ErrorKind>, ghost vals: seq<Val>, ghost f: PrimitiveData, ghost found: bool,
               ghost bound: bool, ghost hostArgs: seq<Option<PrimitiveData>>, ghost provided: Val, ghost reached: bool)
      requires Valid()
      modifies reach, store
      ensures Valid() && Grown()
      ensures r.Success? ==> FramesKept() && InStore(r.value)
      ensures fuel > 0 && old(LocalRef(callee)) && BaseOf(old(Var(callee))) != "Function" ==> r == Failure(InvalidValue)
      ensures (&& fuel > 0 && old(LocalRef(callee)) && BaseOf(old(Var(callee))) == "Function"
               && old(Var(callee)).engine.None? && old(LocalExprs(args))) ==>
        && |vals| == |args| && (forall i :: 0 <= i < |args| ==> vals[i] == Obj(old(Slot(args[i]))))
        && FunctionRan(callee, vals, fuel, r, f, found, bound, hostArgs, provided, reached)
      decreases fuel, 6
    {
      vals, f, found, bound, hostArgs, provided, reached := [], NoneData(), false, false, [], Undefined, false;
      var nv := Eval(callee, fuel);
      if nv.Failure? {
        return Failure(nv.error), vals, f, found, bound, hostArgs, provided, reached;
      }
      if nv.value.Undefined? {
        return Failure(HostException), vals, f, found, bound, hostArgs, provided, reached;
      }
      if BaseOf(store.slots[nv.value.h]) != "Function" {
        return Failure(InvalidValue), vals, f, found, bound, hostArgs, provided, reached;
      }
      var given := EvalAll(args, fuel);
      if given.Failure? {
        return Failure(given.error), vals, f, found, bound, hostArgs, provided, reached;
      }
      vals := given.value;
      r, f, found, bound, hostArgs, provided, reached := CallFunctionIn(store.slots[nv.value.h].engine, callee, given.value, fuel);
    }

    /**
     * Runs a function here when it has no owner tag, in the first import
     * with the tag otherwise, and yields None when no import has it.
     */
    method CallFunctionIn(owner: Option<ModuleId>, callee: Expr, vals: seq<Val>, fuel: nat)
      returns (r: Result<Val, ErrorKind>, ghost f: PrimitiveData, ghost found: bool, ghost bound: bool,
               ghost hostArgs: seq<Option<PrimitiveData>>, ghost provided: Val, ghost reached: bool)
      requires Valid()
      requires forall i :: 0 <= i < |vals| ==> InStore(vals[i])
      modifies reach, store
      ensures Valid() && Grown()
      ensures r.Success? ==> FramesKept() && InStore(r.value)
      ensures owner.None? ==> FunctionRan(callee, vals, fuel, r, f, found, bound, hostArgs, provided, reached)
      ensures owner.Some? && FirstImport(owner.value) == |imports| ==>
        r.Success? && Newest(r.value) && store.slots[r.value.h] == NoneData()
      decreases fuel, 5
    {
      f, found, bound, hostArgs, provided, reached := NoneData(), false, false, [], Undefined, false;
      if owner.None? {
        r, f, found, bound, hostArgs, provided, reached := RunFunction(callee, vals, fuel);
      } else {
        var k := FirstImport(owner.value);
        if k < |imports| {
          var e := imports[k].engine;
          ImportValid(k);
          r, f, found, bound, hostArgs, provided, reached := e.RunFunction(callee, vals, fuel);
          ValidAfter(e);
        } else {
          r := Produce(NoneData());
        }
      }
    }

    /**
     * A micro call: the callee must be a Micro and there must be an argument.
     * A local micro does not run and yields None; an imported one runs in
     * its import.
     */
    method EvalMicroCall(micro: Expr, args: seq<Expr>, fuel: nat) returns (r: Result<Val, ErrorKind>)
      requires Valid()
      modifies reach, store
      ensures Valid() && Grown()
      ensures r.Success? ==> FramesKept() && InStore(r.value)
      ensures fuel > 0 && old(LocalRef(micro)) && BaseOf(old(Var(micro))) != "Micro" ==> r == Failure(InvalidValue)
      ensures fuel > 0 && old(LocalRef(micro)) && BaseOf(old(Var(micro))) == "Micro" && |args| == 0 ==> r == Failure(HostException)
      decreases fuel, 5
    {
      var nv :- Eval(micro, fuel);
      if nv.Undefined? {
        return Failure(HostException);
      }
      if BaseOf(store.slots[nv.h]) != "Micro" {
        return Failure(InvalidValue);
      }
      if |args| == 0 {
        return Failure(HostException);
      }
      var av :- Eval(args[0], fuel);
      r := CallMicroIn(store.slots[nv.h].engine, micro, av, fuel);
    }

    /**
     * Runs a micro in the first import with its owner tag; an untagged micro,
     * or one whose import is gone, does not run and yields None.
     */
    method CallMicroIn(owner: Option<ModuleId>, micro: Expr, arg: Val, fuel: nat) returns (r: Result<Val, ErrorKind>)
      requires Valid() && InStore(arg)
      modifies reach, store
      ensures Valid() && Grown()
      ensures r.Success? ==> FramesKept() && InStore(r.value)
      ensures owner.None? || FirstImport(owner.value) == |imports| ==>
        r.Success? && Newest(r.value) && store.slots[r.value.h] == NoneData()
      decreases fuel, 4
    {
      if owner.None? {
        r := Produce(NoneData());
      } else {
        var k := FirstImport(owner.value);
        if k < |imports| {
          var e := imports[k].engine;
          ImportValid(k);
          ghost var m, found, ran, provided, reached;
          r, m, found, ran, provided, reached := e.RunMicro(micro, arg, fuel);
          ValidAfter(e);
        } else {
          r := Produce(NoneData());
        }
      }
    }

    /**
     * Runs a callable's body in a pushed frame, then evaluates its provides
     * expression there if it has one (`provided`, once `reached`); yields
     * that value, or None when there is no provides expression or the
     * provided value is undefined.
     */
    method RunBody(sub: Frame, block: seq<Stmt>, providesExpr: Option<Expr>, fuel: nat)
      returns (r: Result<Val, ErrorKind>, ghost provided: Val, ghost reached: bool)
      requires Valid()
      requires forall x :: x in sub ==> sub[x] < |store.slots|
      modifies reach, store
      ensures Valid() && Grown()
      ensures r.Success? ==> FramesKept() && InStore(r.value)
      ensures BodyGave(providesExpr, r, provided, reached)
      ensures block == [] && fuel > 0 && providesExpr.Some? && providesExpr.value.Reference? && providesExpr.value.name in sub ==>
        reached && provided == Obj(sub[providesExpr.value.name])
      decreases fuel, 2
    {
      provided, reached := Undefined, false;
      Push(sub);
      var o := ExecBlock(block, fuel);
      if o.Fail? {
        return Failure(o.error), provided, reached;
      }
      r, provided, reached := Provide(providesExpr, fuel);
    }

    /**
     * The end of a callable's body: evaluates the provides expression, if
     * any, in the body's frame, then pops that frame; see BodyGave.
     */
    method Provide(providesExpr: Option<Expr>, fuel: nat)
      returns (r: Result<Val, ErrorKind>, ghost provided: Val, ghost reached: bool)
      requires Valid() && |frames| > 1
      modifies reach, store
      ensures Valid() && Grown()
      ensures r.Success? ==> Popped() && InStore(r.value)
      ensures BodyGave(providesExpr, r, provided, reached)
      ensures fuel > 0 && providesExpr.Some? && providesExpr.value.Reference? && providesExpr.value.name in old(CurrentFrame()) ==>
        reached && provided == Obj(old(CurrentFrame())[providesExpr.value.name])
      decreases fuel, 1
    {
      provided, reached := Undefined, false;
      if providesExpr.Some? {
        var pv := Eval(providesExpr.value, fuel);
        if pv.Failure? {
          return Failure(pv.error), provided, reached;
        }
        provided, reached := pv.value, true;
        Pop();
        if pv.value.Undefined? {
          r := Produce(NoneData());
        } else {
          r := Success(pv.value);
        }
      } else {
        Pop();
        r := Produce(NoneData());
      }
    }

    /**
     * What running the function the callee expression names gave: the
     * function `f` (once `found`) must be callable, else HostException;
     * it is `bound` exactly when every parameter is satisfied by the
     * arguments, else TypeMismatch or MissingArgument; a bound native
     * function gives what the host gave on `hostArgs`, a bound interpreted
     * one what its body gave (its provides expression giving `provided`,
     * once `reached`). A local callee is found as the value it names.
     */
    twostate predicate FunctionRan(callee: Expr, args: seq<Val>, fuel: nat, new r: Result<Val, ErrorKind>, f: PrimitiveData,
                                   found: bool, bound: bool, new hostArgs: seq<Option<PrimitiveData>>, provided: Val, reached: bool)
      reads this, store
    {
      && (r.Success? ==> found && bound)
      && (found && !Callable(f.representation.value) ==> r == Failure(HostException) && !bound)
      && (found && Callable(f.representation.value) ==>
        var params := Params(f.representation.value);
        && (bound <==> forall i :: 0 <= i < |params| ==> Satisfied(params, Typed(old(store.slots), args), i))
        && (!bound ==> r.Failure? && (r.error == TypeMismatch || r.error == MissingArgument)))
      && (bound && f.representation.value.NativeValue? ==>
        && |hostArgs| == |args|
        && (forall i :: 0 <= i < |args| ==> (hostArgs[i].Some? <==> args[i].Obj?))
        && HostGave(host(f.representation.value.callback, hostArgs), f.representation.value.isAsync, r))
      && (bound && f.representation.value.FunctionValue? ==> BodyGave(f.representation.value.providing, r, provided, reached))
      && (reached ==> bound && f.representation.value.FunctionValue?)
      && (fuel > 0 && old(LocalRef(callee)) ==> found && f == old(Var(callee)))
      && (fuel > 0 && old(LocalRef(callee)) && bound && f.representation.value.NativeValue? ==>
        hostArgs == HostArgs(old(store.slots), args))
    }

    /**
     * Runs the function the callee expression names (to `f`, once `found`)
     * in this engine: binds the arguments over a copy of the current frame
     * (`bound` when every parameter is satisfied), then calls the host on
     * `hostArgs` for a native function or runs the body of an interpreted
     * one (its provides expression giving `provided`, once `reached`).
     */
    method RunFunction(callee: Expr, args: seq<Val>, fuel: nat)
      returns (r: Result<Val, ErrorKind>, ghost f: PrimitiveData, ghost found: bool, ghost bound: bool,
               ghost hostArgs: seq<Option<PrimitiveData>>, ghost provided: Val, ghost reached: bool)
      requires Valid()
      requires forall i :: 0 <= i < |args| ==> InStore(args[i])
      modifies reach, store
      ensures Valid() && Grown()
      ensures r.Success? ==> FramesKept() && InStore(r.value)
      ensures FunctionRan(callee, args, fuel, r, f, found, bound, hostArgs, provided, reached)
      decreases fuel, 4
    {
      f, found, bound, hostArgs, provided, reached := NoneData(), false, false, [], Undefined, false;
      var nv :- Eval(callee, fuel);
      if nv.Undefined? {
        return Failure(HostException), f, found, bound, hostArgs, provided, reached;
      }
      f, found := store.slots[nv.h], true;
      var fv := store.slots[nv.h].representation.value;
      if !Callable(fv) {
        return Failure(HostException), f, found, bound, hostArgs, provided, reached;
      }
      TypedKept(old(store.slots), store.slots, args);
      r, bound, hostArgs, provided, reached := CallWith(fv, args, fuel);
    }

    /**
     * Calls a native or interpreted function's payload on the arguments:
     * binds them to its parameters over a copy of the current frame, then
     * calls the host (for a native one) or runs the body.
     */
    method CallWith(fv: Payload, args: seq<Val>, fuel: nat)
      returns (r: Result<Val, ErrorKind>, ghost bound: bool, ghost hostArgs: seq<Option<PrimitiveData>>,
               ghost provided: Val, ghost reached: bool)
      requires Valid() && Callable(fv)
      requires forall i :: 0 <= i < |args| ==> InStore(args[i])
      modifies reach, store
      ensures Valid() && Grown()
      ensures r.Success? ==> FramesKept() && InStore(r.value) && bound
      ensures bound <==> forall i :: 0 <= i < |Params(fv)| ==> Satisfied(Params(fv), Typed(old(store.slots), args), i)
      ensures !bound ==> r.Failure? && (r.error == TypeMismatch || r.error == MissingArgument)
      ensures bound && fv.NativeValue? ==>
        && hostArgs == HostArgs(old(store.slots), args)
        && HostGave(host(fv.callback, hostArgs), fv.isAsync, r)
      ensures bound && fv.FunctionValue? ==> BodyGave(fv.providing, r, provided, reached)
      ensures reached ==> bound && fv.FunctionValue?
      decreases fuel, 3
    {
      bound, hostArgs, provided, reached := false, [], Undefined, false;
      var typed := Typed(store.slots, args);
      var binding := BindArguments(Params(fv), typed, CurrentFrame());
      if binding.Failure? {
        return Failure(binding.error), bound, hostArgs, provided, reached;
      }
      bound := true;
      match fv {
        case NativeValue(callback, isAsync, _) =>
          var given := HostArgs(store.slots, args);
          hostArgs := given;
          match host(callback, given) {
            case Returned(p) =>
              r := Produce(p);
            case ReturnedNothing =>
              r := Success(Undefined);
            case Threw(_) =>
              r := Failure(if isAsync then HostException else RuntimeError);
          }
        case FunctionValue(block, _, providing) =>
          r, provided, reached := RunBody(binding.value, block, providing, fuel);
      }
    }

    /**
     * Runs the micro the callee expression names (to `m`, once `found`) in
     * this engine, with the argument bound to the prototype's name over a
     * copy of the current frame; it `ran` once the argument's type fit the
     * prototype's, its provides expression giving `provided`, once `reached`.
     */
    method RunMicro(callee: Expr, arg: Val, fuel: nat)
      returns (r: Result<Val, ErrorKind>, ghost m: PrimitiveData, ghost found: bool, ghost ran: bool,
               ghost provided: Val, ghost reached: bool)
      requires Valid() && InStore(arg)
      modifies reach, store
      ensures Valid() && Grown()
      ensures r.Success? ==> FramesKept() && InStore(r.value)
      ensures r.Success? ==> found && ran
      ensures found && (!m.representation.value.MicroValue? || arg.Undefined?) ==> r == Failure(HostException) && !ran
      ensures found && m.representation.value.MicroValue? && arg.Obj? ==>
        var fits := DiffTypes(m.representation.value.prototype.ty, old(store.slots[arg.h]).representation.ty);
        && (ran <==> fits)
        && (!fits ==> r == Failure(TypeMismatch))
      ensures ran ==> found && m.representation.value.MicroValue? && BodyGave(m.representation.value.microProvides, r, provided, reached)
      ensures reached ==> ran
      ensures fuel > 0 && old(LocalRef(callee)) ==> found && m == old(Var(callee))
      decreases fuel, 3
    {
      m, found, ran, provided, reached := NoneData(), false, false, Undefined, false;
      var nv :- Eval(callee, fuel);
      if nv.Undefined? {
        return Failure(HostException), m, found, ran, provided, reached;
      }
      m, found := store.slots[nv.h], true;
      var mv := store.slots[nv.h].representation.value;
      if !mv.MicroValue? {
        return Failure(HostException), m, found, ran, provided, reached;
      }
      if arg.Undefined? {
        return Failure(HostException), m, found, ran, provided, reached;
      }
      if !DiffTypes(mv.prototype.ty, store.slots[arg.h].representation.ty) {
        return Failure(TypeMismatch), m, found, ran, provided, reached;
      }
      ran := true;
      r, provided, reached := RunBody(CurrentFrame()[mv.prototype.name := arg.h], mv.microBlock, mv.microProvides, fuel);
    }

    /**
     * A List literal: its members are evaluated in order (`vals`, once
     * `reached`) and must pass ElementsCheck; the list holds copies of them.
     */
    method EvalListLiteral(of: Option<Type>, elements: seq<Expr>, fuel: nat)
      returns (r: Result<Val, ErrorKind>, ghost vals: seq<Val>, ghost reached: bool)
      requires Valid()
      modifies reach, store
      ensures Valid() && Grown()
      ensures r.Success? ==> FramesKept() && InStore(r.value) && reached
      ensures reached ==> (|vals| == |elements| && forall i :: 0 <= i < |vals| ==> InStore(vals[i]))
      ensures reached ==> Produced(ListResult(of, TypesOf(store.slots, vals), DataOf(store.slots, vals)), r)
      ensures reached && fuel > 0 ==> forall i :: 0 <= i < |elements| && old(LocalRef(elements[i])) ==>
        vals[i] == Obj(old(Slot(elements[i])))
      decreases fuel, 3
    {
      vals, reached := [], false;
      var evaluated := EvalAll(elements, fuel);
      if evaluated.Failure? {
        r := Failure(evaluated.error);
        return;
      }
      var vs := evaluated.value;
      vals, reached := vs, true;
      var x := ListResult(of, TypesOf(store.slots, vs), DataOf(store.slots, vs));
      if x.Failure? {
        r := Failure(x.error);
        return;
      }
      ghost var before := store.slots;
      r := Produce(x.value);
      OfPrefix(before, [x.value], vs);
    }

    /**
     * A Map literal: its values are evaluated in order (`vals`, once
     * `reached`) and, with its keys, must pass MapLiteralCheck; the map
     * pairs each key with a copy of its value.
     */
    method EvalMapLiteral(of: Option<Type>, pairs: seq<Pair>, fuel: nat)
      returns (r: Result<Val, ErrorKind>, ghost vals: seq<Val>, ghost reached: bool)
      requires Valid()
      modifies reach, store
      ensures Valid() && Grown()
      ensures r.Success? ==> FramesKept() && InStore(r.value) && reached
      ensures reached ==> (|vals| == |pairs| && forall i :: 0 <= i < |vals| ==> InStore(vals[i]))
      ensures reached ==> Produced(MapResult(of, pairs, TypesOf(store.slots, vals), DataOf(store.slots, vals)), r)
      ensures reached && fuel > 0 ==> forall i :: 0 <= i < |pairs| && old(LocalRef(pairs[i].value)) ==>
        vals[i] == Obj(old(Slot(pairs[i].value)))
      decreases fuel, 3
    {
      vals, reached := [], false;
      var evaluated := EvalAll(seq(|pairs|, i requires 0 <= i < |pairs| => pairs[i].value), fuel);
      if evaluated.Failure? {
        r := Failure(evaluated.error);
        return;
      }
      var vs := evaluated.value;
      vals, reached := vs, true;
      var x := MapResult(of, pairs, TypesOf(store.slots, vs), DataOf(store.slots, vs));
      if x.Failure? {
        r := Failure(x.error);
        return;
      }
      ghost var before := store.slots;
      r := Produce(x.value);
      OfPrefix(before, [x.value], vs);
    }

    /** Scalar, Function and Micro literals. */
    method EvalLiteral(literal: Literal, fuel: nat) returns (r: Result<Val, ErrorKind>)
      requires Valid() && !literal.StructLiteral? && !literal.ListLiteral? && !literal.MapLiteral?
      modifies reach, store
      ensures Valid() && Grown() && FramesKept()
      ensures r.Success? ==> InStore(r.value)
      ensures literal.IntLiteral? ==> r.Success? && Holds(r.value, Plain("Int"), NumberValue(Integral(literal.intValue)))
      ensures literal.DoubleLiteral? ==> r.Success? && Holds(r.value, Plain("Double"), NumberValue(literal.doubleValue))
      ensures literal.BooleanLiteral? ==> r.Success? && Holds(r.value, Plain("Boolean"), BooleanValue(literal.boolText == "true"))
      ensures literal.StringLiteral? ==> r.Success? && Holds(r.value, Plain("String"), StringValue(literal.stringValue))
      ensures literal.FunctionLiteral? ==>
        var c := old(CallableResult(literal.returnType, literal.params, literal.providesExpr.Some?));
          (r.Success? <==> c.Success?) && (c.Failure? ==> r == Failure(c.error))
      ensures literal.FunctionLiteral? && r.Success? ==>
        Holds(r.value, Type("Function", literal.returnType), FunctionValue(literal.body, literal.params, literal.providesExpr))
      ensures literal.MicroLiteral? ==>
        var c := old(CallableResult(literal.microReturnType, [], literal.microProvides.Some?));
          (r.Success? <==> c.Success?) && (c.Failure? ==> r == Failure(c.error))
      ensures literal.MicroLiteral? && r.Success? ==>
        Holds(r.value, Type("Micro", literal.microReturnType), MicroValue(literal.microBody, literal.prototype, literal.microProvides))
      decreases fuel, 4
    {
      match literal {
        case IntLiteral(i) =>
          r := Produce(GeneratePrimitive(JsNumber(Integral(i)), None));
        case DoubleLiteral(n) =>
          r := Produce(GeneratePrimitive(JsNumber(n), Some(Plain("Double"))));
        case BooleanLiteral(text) =>
          r := Produce(GeneratePrimitive(JsBoolean(text == "true"), None));
        case StringLiteral(s) =>
          r := Produce(GeneratePrimitive(JsString(s), None));
        case FunctionLiteral(returnType, params, body, providing) =>
          var check := CallableResult(returnType, params, providing.Some?);
          if check.Failure? {
            return Failure(check.error);
          }
          r := Produce(Fresh(Type("Function", returnType), FunctionValue(body, params, providing)));
        case MicroLiteral(returnType, prototype, body, providing) =>
          var check := CallableResult(returnType, [], providing.Some?);
          if check.Failure? {
            return Failure(check.error);
          }
          r := Produce(Fresh(Type("Micro", returnType), MicroValue(body, prototype, providing)));
      }
    }

    /**
     * The checks of a Function or Micro literal, in order: the provides
     * rule, then the return type, which must be given (reading a missing
     * one throws) and declared, then each parameter type (a Micro literal
     * checks no parameters).
     */
    function CallableResult(returnType: Option<Type>, params: seq<Field>, providesValue: bool): (r: Result<(), ErrorKind>)
      requires Linked()
      reads reach
      ensures ReturnCheck(returnType, providesValue).Fail? ==> r == Failure(TypeMismatch)
      ensures ReturnCheck(returnType, providesValue).Pass? && returnType.None? ==> r == Failure(HostException)
      ensures r.Success? <==> (ReturnCheck(returnType, providesValue).Pass? && returnType.Some?
        && FindType(returnType.value.base).Some? && forall i :: 0 <= i < |params| ==> FindType(params[i].ty.base).Some?)
      ensures r.Failure? ==> r.error in {TypeMismatch, HostException, UninitializedValue}
    {
      if ReturnCheck(returnType, providesValue).Fail? then Failure(TypeMismatch)
      else if returnType.None? then Failure(HostException)
      else if FindType(returnType.value.base).None? || exists i :: 0 <= i < |params| && FindType(params[i].ty.base).None? then
        Failure(UninitializedValue)
      else Success(())
    }

    /**
     * A struct literal of a declared type: each declared field, in order,
     * takes the first supplied pair with its name, whose value must fit the
     * field's type; a missing field must be optional and is left out;
     * undeclared keys are ignored. `unsupplied` names the required field
     * whose absence stopped the literal; `mismatch` the field, and the type
     * of the value supplied for it, that stopped it with TypeMismatch.
     */
    method EvalStruct(ty: Type, supplied: seq<Pair>, fuel: nat)
      returns (r: Result<Val, ErrorKind>, ghost unsupplied: Option<nat>, ghost mismatch: Option<(nat, Type)>)
      requires Valid()
      modifies reach, store
      ensures Valid() && Grown()
      ensures r.Success? ==> FramesKept() && InStore(r.value)
      ensures BuiltinLiteral(ty.base) ==> r == Failure(Unmodelled)
      ensures !BuiltinLiteral(ty.base) && old(FindType(ty.base)).None? ==> r == Failure(UninitializedValue)
      ensures unsupplied.Some? ==> (old(FindType(ty.base)).Some? && r == Failure(MissingProperty)
        && var fields := old(FindType(ty.base)).value.fields;
          unsupplied.value < |fields| && !fields[unsupplied.value].optional
          && FirstPair(supplied, fields[unsupplied.value].name) == |supplied|)
      ensures mismatch.Some? ==> (old(FindType(ty.base)).Some? && r == Failure(TypeMismatch)
        && var fields := old(FindType(ty.base)).value.fields;
          var (m, found) := mismatch.value;
          m < |fields| && FirstPair(supplied, fields[m].name) < |supplied| && !DiffTypes(found, fields[m].ty))
      ensures r.Success? ==> (!BuiltinLiteral(ty.base) && old(FindType(ty.base)).Some? && Newest(r.value) && unsupplied.None?
        && var fields := old(FindType(ty.base)).value.fields;
          var data := store.slots[r.value.h];
          && data.representation.ty == ty && data.engine.None?
          && data.representation.value.EntriesValue?
          && FilledBy(SuppliedFields(fields, supplied), data.representation.value.entries)
          && forall m :: 0 <= m < |fields| && !fields[m].optional ==> FirstPair(supplied, fields[m].name) < |supplied|)
      ensures fuel > 0 && !BuiltinLiteral(ty.base) && old(FindType(ty.base)).Some? && old(AllLocal(supplied)) ==>
        var check := StructCheck(old(FindType(ty.base)).value.fields, supplied, old(LocalValues(supplied)));
        && (r.Success? <==> check.Pass?)
        && (r.Failure? ==> check.Fail? && r.error == check.error)
        && (r.Success? ==> FromValues(store.slots[r.value.h].representation.value.entries, supplied, old(LocalValues(supplied))))
      decreases fuel, 5
    {
      unsupplied, mismatch := None, None;
      if BuiltinLiteral(ty.base) {
        return Failure(Unmodelled), None, None;
      }
      var declared := FindType(ty.base);
      if declared.None? {
        return Failure(UninitializedValue), None, None;
      }
      var entries;
      ghost var local := fuel > 0 && AllLocal(supplied);
      entries, unsupplied, mismatch := FillFields(declared.value.fields, supplied, fuel, local, LocalValues(supplied));
      if entries.Failure? {
        return Failure(entries.error), unsupplied, mismatch;
      }
      r := Produce(Fresh(ty, EntriesValue(entries.value)));
    }

    /** The entries of a struct literal, field by field; see EvalStruct. */
    method FillFields(fields: seq<Field>, supplied: seq<Pair>, fuel: nat, ghost local: bool, ghost vals: seq<PrimitiveData>)
      returns (r: Result<seq<Entry>, ErrorKind>, ghost unsupplied: Option<nat>, ghost mismatch: Option<(nat, Type)>)
      requires Valid()
      requires local ==> fuel > 0 && AllLocal(supplied) && LocalValues(supplied) == vals
      modifies reach, store
      ensures Valid() && Grown()
      ensures r.Success? ==> FramesKept()
      ensures Filled(fields, supplied, vals, local, r, unsupplied, mismatch)
      decreases fuel, 4
    {
      unsupplied, mismatch := None, None;
      ghost var chosen: seq<Field> := [];
      var entries: seq<Entry> := [];
      var k := 0;
      while k < |fields|
        invariant 0 <= k <= |fields|
        invariant Valid() && Grown() && FramesKept()
        invariant Progress(fields, k, supplied, vals, local, chosen, entries)
        invariant local ==> AllLocal(supplied) && LocalValues(supplied) == vals
      {
        var one;
        ghost var missing, misfit;
        one, chosen, missing, misfit := FillNext(fields, k, supplied, fuel, local, vals, chosen, entries);
        if one.Failure? {
          return Failure(one.error), missing, misfit;
        }
        entries := if one.value.Some? then entries + [one.value.value] else entries;
        k := k + 1;
      }
      Finished(fields, supplied, vals, local, chosen, entries);
      r := Success(entries);
    }

    /**
     * Field k of a struct literal after the k before it: either the progress
     * extends to it (with the entry, if any, appended), or filling stops
     * with its error.
     */
    method FillNext(fields: seq<Field>, k: nat, supplied: seq<Pair>, fuel: nat, ghost local: bool, ghost vals: seq<PrimitiveData>,
                    ghost chosen: seq<Field>, ghost entries: seq<Entry>)
      returns (one: Result<Option<Entry>, ErrorKind>, ghost next: seq<Field>, ghost unsupplied: Option<nat>,
               ghost mismatch: Option<(nat, Type)>)
      requires Valid() && k < |fields| && Progress(fields, k, supplied, vals, local, chosen, entries)
      requires local ==> fuel > 0 && AllLocal(supplied) && LocalValues(supplied) == vals
      modifies reach, store
      ensures Valid() && Grown()
      ensures one.Success? ==> FramesKept() && (local ==> AllLocal(supplied) && LocalValues(supplied) == vals)
      ensures one.Success? ==>
        Progress(fields, k + 1, supplied, vals, local, next, if one.value.Some? then entries + [one.value.value] else entries)
      ensures one.Failure? ==> Filled(fields, supplied, vals, local, Failure(one.error), unsupplied, mismatch)
      decreases fuel, 3
    {
      next, unsupplied, mismatch := chosen, None, None;
      ghost var found;
      one, found := FillField(fields[k], supplied, fuel, local, vals);
      if one.Failure? {
        unsupplied, mismatch := Stopped(fields, k, supplied, vals, local, chosen, entries, one.error, found);
        return;
      }
      next := ProgressStep(fields, k, supplied, vals, local, chosen, entries, one.value);
    }

    /**
     * One declared field of a struct literal: the entry for the first pair
     * supplying it, whose value (of type `found`) must fit the field's type;
     * no entry for an absent optional field; MissingProperty for an absent
     * required one.
     */
    method FillField(field: Field, supplied: seq<Pair>, fuel: nat, ghost local: bool, ghost vals: seq<PrimitiveData>)
      returns (r: Result<Option<Entry>, ErrorKind>, ghost found: Option<Type>)
      requires Valid()
      requires local ==> fuel > 0 && AllLocal(supplied) && LocalValues(supplied) == vals
      modifies reach, store
      ensures Valid() && Grown()
      ensures r.Success? ==> FramesKept()
      ensures FirstPair(supplied, field.name) == |supplied| ==>
        && r == (if field.optional then Success(None) else Failure(MissingProperty))
        && found.None? && store.slots == old(store.slots)
      ensures r.Success? ==> (r.value.Some? <==> FirstPair(supplied, field.name) < |supplied|)
      ensures r.Success? && r.value.Some? ==>
        r.value.value.key == field.name && DiffTypes(r.value.value.value.representation.ty, field.ty)
      ensures found.Some? ==> FirstPair(supplied, field.name) < |supplied| && (r.Success? <==> DiffTypes(found.value, field.ty))
      ensures found.Some? && !DiffTypes(found.value, field.ty) ==> r == Failure(TypeMismatch)
      ensures r.Success? && FirstPair(supplied, field.name) < |supplied| ==>
        && found.Some? && r.value.Some? && r.value.value.key == field.name
        && r.value.value.value.representation.ty == found.value
      ensures r.Success? && !field.optional ==> FirstPair(supplied, field.name) < |supplied|
      ensures local ==>
        && store.slots == old(store.slots)
        && (r.Success? <==> Fits(field, supplied, vals))
        && (r.Failure? ==> r.error == Misfit(field, supplied))
        && (r.Success? ==> AllLocal(supplied) && LocalValues(supplied) == vals)
        && (r.Success? && r.value.Some? ==> r.value.value.value == vals[FirstPair(supplied, field.name)])
      decreases fuel, 2
    {
      found := None;
      var j := FirstPair(supplied, field.name);
      if j == |supplied| {
        return if field.optional then Success(None) else Failure(MissingProperty), None;
      }
      var v := Eval(supplied[j].value, fuel);
      if v.Failure? {
        return Failure(v.error), None;
      }
      if v.value.Undefined? {
        return Failure(HostException), None;
      }
      var data := store.slots[v.value.h];
      found := Some(data.representation.ty);
      if !DiffTypes(data.representation.ty, field.ty) {
        return Failure(TypeMismatch), found;
      }
      r := Success(Some(Entry(field.name, data)));
    }

    /* ---- Statements. ---- */

    /** Runs one statement. */
    method ExecStatement(s: Stmt, fuel: nat) returns (r: Outcome<ErrorKind>)
      requires Valid()
      modifies reach, store
      ensures Valid() && Grown()
      ensures r.Pass? ==> TopOnly()
      ensures fuel == 0 ==> r == Fail(OutOfFuel)
      ensures fuel > 0 && s.TypeDefinition? ==> r.Pass? && typeTable == old(typeTable)[s.typeName := TypeData(s.fields, None)]
      decreases fuel, 0
    {
      if fuel == 0 {
        return Fail(OutOfFuel);
      }
      match s {
        case VariableDefinition(name, constant, expected, init) =>
          r := ExecVarDef(name, constant, expected, init, fuel - 1);
        case TypeDefinition(name, fields) =>
          typeTable := typeTable[name := TypeData(fields, None)];
          r := Pass;
        case FunctionDefinition(_, _, _, _, _) =>
          var d := DesugarFunction(s);
          r := ExecVarDef(d.name, d.constant, d.expected, d.init, fuel - 1);
        case MicroDefinition(_, _, _, _, _) =>
          var d := DesugarMicro(s);
          r := ExecVarDef(d.name, d.constant, d.expected, d.init, fuel - 1);
        case MacroDefinition =>
          r := Pass;
        case SwitchStatement =>
          r := Pass;
        case TryCatchBlock =>
          r := Pass;
        case Comment =>
          r := Pass;
        case ForStatement(placeholder, count, body) =>
          ghost var counted, bounds, passes;
          r, counted, bounds, passes := ExecFor(placeholder, count, body, fuel - 1);
        case IfStatement(cond, thenBody, elifs, elseBody) =>
          ghost var c, reached, ranThen, conds, tests, ranElse;
          r, c, reached, ranThen, conds, tests, ranElse := ExecIf(cond, thenBody, elifs, elseBody, fuel - 1);
        case AssignStatement(target, value) =>
          ghost var h, left, right, reached;
          r, h, left, right, reached := ExecAssign(target, value, fuel - 1);
        case QuantityModifier(op, target, operand) =>
          ghost var h, t, right;
          r, h, t, right := ExecModifier(op, target, operand, fuel - 1);
        case ExpressionStatement(e) =>
          var v := Eval(e, fuel - 1);
          r := if v.Failure? then Fail(v.error) else Pass;
      }
    }

    /** Runs statements in order, stopping at the first failure. */
    method ExecBlock(block: seq<Stmt>, fuel: nat) returns (r: Outcome<ErrorKind>)
      requires Valid()
      modifies reach, store
      ensures Valid() && Grown()
      ensures r.Pass? ==> TopOnly()
      ensures block == [] ==> r == Pass && frames == old(frames) && store.slots == old(store.slots)
      decreases fuel, 1
    {
      var k := 0;
      while k < |block|
        invariant 0 <= k <= |block|
        invariant Valid() && Grown() && TopOnly()
        invariant block == [] ==> frames == old(frames) && store.slots == old(store.slots)
      {
        var o := ExecStatement(block[k], fuel);
        if o.Fail? {
          return o;
        }
        k := k + 1;
      }
      return Pass;
    }

    /**
     * Binds a new name in the current frame to the initializer's value,
     * marking that value constant or expected as declared.
     */
    method ExecVarDef(name: string, constant: bool, expected: bool, init: Expr, fuel: nat) returns (r: Outcome<ErrorKind>)
      requires Valid()
      modifies reach, store
      ensures Valid() && Grown()
      ensures r.Pass? ==> TopOnly()
      ensures r.Pass? ==> (name !in old(CurrentFrame()) && name in CurrentFrame()
        && CurrentFrame() == old(CurrentFrame())[name := CurrentFrame()[name]])
      ensures r.Pass? ==> (CurrentFrame()[name] < |store.slots|
        && store.slots[CurrentFrame()[name]].representation.constant == constant
        && store.slots[CurrentFrame()[name]].representation.expected == expected)
      ensures name in old(CurrentFrame()) ==> r.Fail?
      ensures fuel > 0 && old(LocalRef(init)) ==>
        var h := old(Slot(init));
        var p := old(Var(init));
        && (name in old(CurrentFrame()) ==> r == Fail(AlreadyExists) && store.slots == old(store.slots))
        && (name !in old(CurrentFrame()) ==>
              r.Pass? && CurrentFrame() == old(CurrentFrame())[name := h]
              && store.slots == old(store.slots)[h := p.(representation := p.representation.(expected := expected, constant := constant))])
      decreases fuel, 4
    {
      var v := Eval(init, fuel);
      if v.Failure? {
        return Fail(v.error);
      }
      if name in CurrentFrame() {
        return Fail(AlreadyExists);
      }
      if v.value.Undefined? {
        return Fail(HostException);
      }
      var h := v.value.h;
      var p := store.slots[h];
      store.slots := store.slots[h := p.(representation := p.representation.(expected := expected, constant := constant))];
      frames := frames[|frames| - 1 := CurrentFrame()[name := h]];
      r := Pass;
    }

    /**
     * `for placeholder in count`: the count must be an Int (otherwise the
     * mismatch is reported and the statement is skipped). Pass i runs the
     * body in a copy of the current frame with the placeholder bound to i,
     * while i is below the count's current value; once `counted`, the
     * values read are `bounds` and `passes` passes ran (see CountTo).
     */
    method ExecFor(placeholder: string, count: Expr, body: seq<Stmt>, fuel: nat)
      returns (r: Outcome<ErrorKind>, ghost counted: bool, ghost bounds: seq<int>, ghost passes: nat)
      requires Valid()
      modifies reach, store
      ensures Valid() && Grown()
      ensures r.Pass? ==> FramesKept()
      ensures counted ==> Counted(r, bounds, passes)
      ensures fuel > 0 && old(LocalRef(count)) && BaseOf(old(Var(count))) != "Int" ==>
        r.Pass? && !counted && store.slots == old(store.slots) && store.log == old(store.log) + [TypeMismatch]
      ensures (&& fuel > 0 && old(LocalRef(count)) && BaseOf(old(Var(count))) == "Int"
               && old(Var(count)).representation.value.NumberValue? && old(Var(count)).representation.value.n.Integral?) ==>
        counted && |bounds| > 0 && bounds[0] == old(Var(count)).representation.value.n.i
      ensures (&& fuel > 0 && old(LocalRef(count)) && BaseOf(old(Var(count))) == "Int"
               && old(Var(count)).representation.value.NumberValue? && old(Var(count)).representation.value.n.Integral?
               && old(Var(count)).representation.value.n.i <= 0) ==>
        r.Pass? && store.slots == old(store.slots) && store.log == old(store.log)
      decreases fuel, 4
    {
      counted, bounds, passes := false, [], 0;
      var cv := Eval(count, fuel);
      if cv.Failure? {
        return Fail(cv.error), counted, bounds, passes;
      }
      if cv.value.Undefined? {
        return Fail(HostException), counted, bounds, passes;
      }
      var h := cv.value.h;
      if BaseOf(store.slots[h]) != "Int" {
        store.log := store.log + [TypeMismatch];
        return Pass, counted, bounds, passes;
      }
      counted := true;
      r, bounds, passes := CountTo(placeholder, h, body, fuel);
    }

    /**
     * The passes of a `for`: pass i binds the placeholder to i and runs the
     * body, while i is below the count's current value. `bounds` are the
     * count's values as read before each pass and at the end; `passes`
     * passes ran.
     */
    method CountTo(placeholder: string, h: Handle, body: seq<Stmt>, fuel: nat)
      returns (r: Outcome<ErrorKind>, ghost bounds: seq<int>, ghost passes: nat)
      requires Valid() && h < |store.slots|
      modifies reach, store
      ensures Valid() && Grown()
      ensures r.Pass? ==> FramesKept()
      ensures Counted(r, bounds, passes)
      ensures old(store.slots[h]).representation.value.NumberValue? && old(store.slots[h]).representation.value.n.Integral? ==>
        |bounds| > 0 && bounds[0] == old(store.slots[h]).representation.value.n.i
      ensures (&& old(store.slots[h]).representation.value.NumberValue? && old(store.slots[h]).representation.value.n.Integral?
               && old(store.slots[h]).representation.value.n.i <= 0) ==>
        r.Pass? && passes == 0 && store.slots == old(store.slots) && store.log == old(store.log)
      decreases fuel, 3
    {
      bounds, passes := [], 0;
      var i: nat := 0;
      while true
        invariant i <= fuel && passes == i == |bounds|
        invariant Valid() && Grown() && FramesKept() && h < |store.slots|
        invariant forall j :: 0 <= j < i ==> j < bounds[j]
        invariant i == 0 ==> store.slots == old(store.slots) && store.log == old(store.log)
        invariant i > 0 ==> (&& old(store.slots[h]).representation.value.NumberValue?
                             && old(store.slots[h]).representation.value.n.Integral?
                             && bounds[0] == old(store.slots[h]).representation.value.n.i)
        decreases fuel - i
      {
        var bound := store.slots[h].representation.value;
        if !(bound.NumberValue? && bound.n.Integral?) {
          return Fail(Unmodelled), bounds, passes;
        }
        bounds := bounds + [bound.n.i];
        if i >= bound.n.i {
          return Pass, bounds, passes;
        }
        if i >= fuel {
          return Fail(OutOfFuel), bounds, passes;
        }
        var ph := Place(GeneratePrimitive(JsNumber(Integral(i)), None));
        passes := passes + 1;
        var o := ScopedBlock(CurrentFrame()[placeholder := ph], body, fuel);
        if o.Fail? {
          return o, bounds, passes;
        }
        i := i + 1;
      }
    }

    /** Runs a block in a pushed frame, then pops it. */
    method ScopedBlock(sub: Frame, block: seq<Stmt>, fuel: nat) returns (r: Outcome<ErrorKind>)
      requires Valid()
      requires forall x :: x in sub ==> sub[x] < |store.slots|
      modifies reach, store
      ensures Valid() && Grown()
      ensures r.Pass? ==> FramesKept()
      decreases fuel, 2
    {
      Push(sub);
      r := ExecBlock(block, fuel);
      if r.Pass? {
        Pop();
      }
    }

    /**
     * Evaluates a condition of an `if` or `elif` (to `c`, once `reached`),
     * which must be a Boolean; true exactly when its payload is true.
     */
    method EvalTest(cond: Expr, fuel: nat) returns (r: Result<bool, ErrorKind>, ghost c: PrimitiveData, ghost reached: bool)
      requires Valid()
      modifies reach, store
      ensures Valid() && Grown()
      ensures r.Success? ==> FramesKept() && reached
      ensures reached ==> r == Truthiness(c)
      ensures fuel > 0 && old(LocalRef(cond)) ==>
        reached && c == old(Var(cond)) && store.slots == old(store.slots) && store.log == old(store.log)
      decreases fuel, 3
    {
      c, reached := NoneData(), false;
      var cv := Eval(cond, fuel);
      if cv.Failure? {
        return Failure(cv.error), c, reached;
      }
      if cv.value.Undefined? {
        return Failure(HostException), c, reached;
      }
      var data := store.slots[cv.value.h];
      c, reached := data, true;
      r := Truthiness(data);
    }

    /**
     * The elifs of an `if` whose condition was false: every elif whose
     * condition is true runs, in order; `executed` tells whether any did.
     * `conds` are the conditions' values as evaluated, `tests` their verdicts.
     */
    method ExecElifs(elifs: seq<Elif>, fuel: nat)
      returns (r: Outcome<ErrorKind>, executed: bool, ghost conds: seq<PrimitiveData>, ghost tests: seq<bool>)
      requires Valid()
      modifies reach, store
      ensures Valid() && Grown()
      ensures r.Pass? ==> TopOnly()
      ensures Tested(conds, tests) && |tests| <= |elifs|
      ensures |conds| > |tests| ==> r == Fail(InvalidValue)
      ensures r.Pass? ==> |conds| == |tests| == |elifs| && (executed <==> true in tests)
      ensures |elifs| == 0 ==> r.Pass? && !executed && frames == old(frames) && store.slots == old(store.slots)
      ensures fuel > 0 && |elifs| > 0 && old(LocalRef(elifs[0].condition)) ==>
        |conds| > 0 && conds[0] == old(Var(elifs[0].condition))
      decreases fuel, 4
    {
      executed, conds, tests := false, [], [];
      ghost var first := fuel > 0 && |elifs| > 0 && LocalRef(elifs[0].condition);
      ghost var v0 := if first then Var(elifs[0].condition) else NoneData();
      var k := 0;
      while k < |elifs|
        invariant 0 <= k <= |elifs| && |tests| == k && |conds| == k
        invariant Valid() && Grown() && TopOnly()
        invariant Tested(conds, tests)
        invariant executed <==> true in tests
        invariant k == 0 ==> frames == old(frames) && store.slots == old(store.slots)
        invariant first && k > 0 ==> conds[0] == v0
      {
        ghost var c, reached;
        var test;
        test, c, reached := EvalTest(elifs[k].condition, fuel);
        if test.Failure? {
          if reached {
            TestedFails(conds, tests, c);
            conds := conds + [c];
          }
          r := Fail(test.error);
          return;
        }
        TestedStep(conds, tests, c, test.value);
        conds, tests := conds + [c], tests + [test.value];
        if test.value {
          var o := ExecBlock(elifs[k].block, fuel);
          if o.Fail? {
            r := o;
            return;
          }
          executed := true;
        }
        k := k + 1;
      }
      r := Pass;
    }

    /**
     * `if`: a true condition (of value `c`, once `reached`) runs the body
     * (`ranThen`); otherwise every elif whose condition is true runs, in
     * order, and the else body runs (`ranElse`) when none did. Conditions
     * must be Booleans. Bodies run in the current frame.
     */
    method ExecIf(cond: Expr, thenBody: seq<Stmt>, elifs: seq<Elif>, elseBody: Option<seq<Stmt>>, fuel: nat)
      returns (r: Outcome<ErrorKind>, ghost c: PrimitiveData, ghost reached: bool, ghost ranThen: bool,
               ghost elifConds: seq<PrimitiveData>, ghost elifTests: seq<bool>, ghost ranElse: bool)
      requires Valid()
      modifies reach, store
      ensures Valid() && Grown()
      ensures r.Pass? ==> TopOnly()
      ensures r.Pass? ==> reached
      ensures reached && Truthiness(c).Failure? ==> r == Fail(InvalidValue)
      ensures ranThen <==> reached && Truthiness(c) == Success(true)
      ensures ranThen ==> elifConds == [] && !ranElse
      ensures Tested(elifConds, elifTests) && |elifTests| <= |elifs|
      ensures |elifConds| > 0 ==> reached && Truthiness(c) == Success(false)
      ensures |elifConds| > |elifTests| ==> r == Fail(InvalidValue)
      ensures r.Pass? && !ranThen ==>
        && |elifConds| == |elifTests| == |elifs|
        && (ranElse <==> elseBody.Some? && forall i :: 0 <= i < |elifTests| ==> !elifTests[i])
      ensures fuel > 0 && old(LocalRef(cond)) ==> reached && c == old(Var(cond))
      ensures fuel > 0 && old(LocalRef(cond)) && Truthiness(old(Var(cond))) == Success(false) && elifs == [] && elseBody.None? ==>
        r.Pass? && frames == old(frames) && store.slots == old(store.slots)
      decreases fuel, 5
    {
      elifConds, elifTests, ranThen, ranElse := [], [], false, false;
      var test;
      test, c, reached := EvalTest(cond, fuel);
      if test.Failure? {
        return Fail(test.error), c, reached, ranThen, elifConds, elifTests, ranElse;
      }
      if test.value {
        ranThen := true;
        r := ExecBlock(thenBody, fuel);
        return;
      }
      var executed;
      r, executed, elifConds, elifTests := ExecElifs(elifs, fuel);
      if r.Pass? && !executed && elseBody.Some? {
        ranElse := true;
        r := ExecBlock(elseBody.value, fuel);
      }
    }

    /**
     * `target = value`: the target must not be constant, which is checked
     * before the value is evaluated; once the value is `reached`, only its
     * type decides. Only the payload is replaced, in place, so every name
     * bound to the target sees it.
     */
    method ExecAssign(target: Expr, value: Expr, fuel: nat)
      returns (r: Outcome<ErrorKind>, ghost h: Handle, ghost left: PrimitiveData, ghost right: Representation, ghost reached: bool)
      requires Valid()
      modifies reach, store
      ensures Valid() && Grown()
      ensures r.Pass? ==> FramesKept() && reached
      ensures reached ==> (r.Pass? <==> DiffTypes(left.representation.ty, right.ty))
      ensures reached && !DiffTypes(left.representation.ty, right.ty) ==> r == Fail(TypeMismatch)
      ensures r.Pass? ==> h < |store.slots| && store.slots[h] == WithPayload(left, right.value)
      ensures fuel > 0 && old(LocalRef(target)) && old(Var(target)).representation.constant ==> r == Fail(ImmutableValue) && !reached
      ensures fuel > 0 && old(LocalRef(target)) && reached ==> h == old(Slot(target))
      ensures fuel > 0 && old(LocalRef(target)) && old(LocalRef(value)) ==>
        var t := old(Var(target));
        var v := old(Var(value)).representation;
        && r == AssignOutcome(t.representation, v)
        && store.slots == (if r.Pass? then old(store.slots)[old(Slot(target)) := WithPayload(t, v.value)] else old(store.slots))
      decreases fuel, 4
    {
      h, left, right, reached := 0, NoneData(), NoneData().representation, false;
      var lv := Eval(target, fuel);
      if lv.Failure? {
        r := Fail(lv.error);
        return;
      }
      if lv.value.Undefined? {
        r := Fail(HostException);
        return;
      }
      if store.slots[lv.value.h].representation.constant {
        r := Fail(ImmutableValue);
        return;
      }
      h := lv.value.h;
      r, left, right, reached := AssignFrom(lv.value.h, value, fuel);
    }

    /**
     * The second half of `target = value`, once the target was found
     * mutable: evaluates the value (`right`, once `reached`) and stores its
     * payload when its type fits the target's. Constancy is not checked
     * again, though the value's evaluation may have made the target constant.
     */
    method AssignFrom(th: Handle, value: Expr, fuel: nat)
      returns (r: Outcome<ErrorKind>, ghost left: PrimitiveData, ghost right: Representation, ghost reached: bool)
      requires Valid() && th < |store.slots| && !store.slots[th].representation.constant
      modifies reach, store
      ensures Valid() && Grown()
      ensures r.Pass? ==> FramesKept() && reached
      ensures reached ==> (r.Pass? <==> DiffTypes(left.representation.ty, right.ty))
      ensures reached && !DiffTypes(left.representation.ty, right.ty) ==> r == Fail(TypeMismatch)
      ensures reached ==> left.representation.ty == old(store.slots[th]).representation.ty
      ensures r.Pass? ==> store.slots[th] == WithPayload(left, right.value)
      ensures fuel > 0 && old(LocalRef(value)) ==>
        var t := old(store.slots[th]);
        var v := old(Var(value)).representation;
        && reached && left == t && right == v
        && r == AssignOutcome(t.representation, v)
        && store.slots == (if r.Pass? then old(store.slots)[th := WithPayload(t, v.value)] else old(store.slots))
      decreases fuel, 3
    {
      left, right, reached := NoneData(), NoneData().representation, false;
      var rv := Eval(value, fuel);
      if rv.Failure? {
        r := Fail(rv.error);
        return;
      }
      if rv.value.Undefined? {
        r := Fail(HostException);
        return;
      }
      var slot, incoming := store.slots[th], store.slots[rv.value.h].representation;
      left, right, reached := slot, incoming, true;
      if !DiffTypes(slot.representation.ty, incoming.ty) {
        r := Fail(TypeMismatch);
        return;
      }
      store.slots := store.slots[th := WithPayload(slot, incoming.value)];
      r := Pass;
    }

    /** `++`, `--`, `+=`, `-=`, `/=`, `*=` on a mutable Int or Double, in place. */
    method ExecModifier(op: ModOp, target: Expr, operand: Option<Expr>, fuel: nat)
      returns (r: Outcome<ErrorKind>, ghost h: Handle, ghost t: PrimitiveData, ghost right: Option<Representation>)
      requires Valid()
      modifies reach, store
      ensures Valid() && Grown()
      ensures r.Pass? ==> FramesKept()
      ensures r.Pass? ==> (Numeric(t.representation.ty.base) && h < |store.slots|
        && ModifierResult(op, t.representation, right, fpu).Success?
        && store.slots[h] == WithPayload(t, ModifierResult(op, t.representation, right, fpu).value))
      ensures fuel > 0 && old(LocalRef(target)) && r.Pass? ==> h == old(Slot(target))
      ensures fuel > 0 && old(LocalRef(target)) && (operand.None? || old(LocalRef(operand.value))) ==>
        var t := old(Var(target));
        var o := if operand.None? then None else Some(old(Var(operand.value)).representation);
        && r == ModifyOutcome(op, t.representation, o, fpu)
        && store.slots == (if r.Pass? then old(store.slots)[old(Slot(target)) := WithPayload(t, ModifierResult(op, t.representation, o, fpu).value)]
                           else old(store.slots))
      decreases fuel, 4
    {
      h, t, right := 0, NoneData(), None;
      var tv := Eval(target, fuel);
      if tv.Failure? {
        r := Fail(tv.error);
        return;
      }
      if tv.value.Undefined? {
        r := Fail(HostException);
        return;
      }
      var th := tv.value.h;
      h := th;
      var check := ModifierTarget(store.slots[th].representation);
      if check.Fail? {
        r := check;
        return;
      }
      r, t, right := ModifyWith(op, th, operand, fuel);
    }

    /** The second half of a quantity modifier, once the target passed its checks. */
    method ModifyWith(op: ModOp, th: Handle, operand: Option<Expr>, fuel: nat)
      returns (r: Outcome<ErrorKind>, ghost t: PrimitiveData, ghost right: Option<Representation>)
      requires Valid() && th < |store.slots| && ModifierTarget(store.slots[th].representation).Pass?
      modifies reach, store
      ensures Valid() && Grown()
      ensures r.Pass? ==> FramesKept()
      ensures r.Pass? ==> (Numeric(t.representation.ty.base)
        && ModifierResult(op, t.representation, right, fpu).Success?
        && store.slots[th] == WithPayload(t, ModifierResult(op, t.representation, right, fpu).value))
      ensures operand.None? || (fuel > 0 && old(LocalRef(operand.value))) ==>
        var t0 := old(store.slots[th]);
        var o := if operand.None? then None else Some(old(Var(operand.value)).representation);
        && r == ModifyOutcome(op, t0.representation, o, fpu)
        && store.slots == (if r.Pass? then old(store.slots)[th := WithPayload(t0, ModifierResult(op, t0.representation, o, fpu).value)]
                           else old(store.slots))
      decreases fuel, 3
    {
      t, right := NoneData(), None;
      var operandRep: Option<Representation> := None;
      if operand.Some? {
        var rv := Eval(operand.value, fuel);
        if rv.Failure? {
          r := Fail(rv.error);
          return;
        }
        if rv.value.Undefined? {
          r := Fail(HostException);
          return;
        }
        operandRep := Some(store.slots[rv.value.h].representation);
      }
      var slot := store.slots[th];
      t, right := slot, operandRep;
      var result := ModifierResult(op, slot.representation, operandRep, fpu);
      if result.Failure? {
        r := Fail(result.error);
        return;
      }
      store.slots := store.slots[th := WithPayload(slot, result.value)];
      r := Pass;
    }
  }

  /**
   * Conditions evaluated to `conds` gave the verdicts `tests`, one each,
   * except a last condition that was not a Boolean.
   */
  ghost predicate Tested(conds: seq<PrimitiveData>, tests: seq<bool>) {
    && |tests| <= |conds| <= |tests| + 1
    && (forall i :: 0 <= i < |tests| ==> Truthiness(conds[i]) == Success(tests[i]))
    && (|conds| > |tests| ==> Truthiness(conds[|tests|]).Failure?)
  }

  /** One more condition with a verdict. */
  lemma TestedStep(conds: seq<PrimitiveData>, tests: seq<bool>, c: PrimitiveData, b: bool)
    requires Tested(conds, tests) && |conds| == |tests| && Truthiness(c) == Success(b)
    ensures Tested(conds + [c], tests + [b])
    ensures (true in tests + [b]) <==> (true in tests) || b
  {
    assert (tests + [b])[|tests|] == b;
  }

  /** A last condition that was not a Boolean. */
  lemma TestedFails(conds: seq<PrimitiveData>, tests: seq<bool>, c: PrimitiveData)
    requires Tested(conds, tests) && |conds| == |tests| && Truthiness(c).Failure?
    ensures Tested(conds + [c], tests)
  {
  }

  /**
   * The passes of a `for` against the count's values `bounds` read before
   * each: pass i ran only while i was below the value read before it, and
   * a loop that ended normally read a value not above the number of passes.
   */
  ghost predicate Counted(r: Outcome<ErrorKind>, bounds: seq<int>, passes: nat) {
    && passes <= |bounds| <= passes + 1
    && (forall i :: 0 <= i < passes ==> i < bounds[i])
    && (r.Pass? ==> |bounds| == passes + 1 && bounds[passes] <= passes)
  }

  /** A value that can be called: a native or an interpreted function. */
  predicate Callable(v: Payload) {
    v.NativeValue? || v.FunctionValue?
  }

  /** A callable's parameters. */
  function Params(v: Payload): seq<Field>
    requires Callable(v)
  {
    if v.NativeValue? then v.nativeArguments else v.arguments
  }

  /** The arguments of a call as BindArguments sees them: each value's type and slot, None for undefined. */
  function Typed(data: seq<PrimitiveData>, args: seq<Val>): (typed: seq<Option<(Type, Handle)>>)
    ensures |typed| == |args|
  {
    seq(|args|, i requires 0 <= i < |args| =>
      if args[i].Obj? && args[i].h < |data| then Some((data[args[i].h].representation.ty, args[i].h)) else None)
  }

  /** The arguments of a call as the host receives them: the values, None for undefined. */
  function HostArgs(data: seq<PrimitiveData>, args: seq<Val>): (given: seq<Option<PrimitiveData>>)
    ensures |given| == |args|
  {
    seq(|args|, i requires 0 <= i < |args| =>
      if args[i].Obj? && args[i].h < |data| then Some(data[args[i].h]) else None)
  }

  /** Arguments keep their types while the store grows without retyping. */
  lemma TypedKept(before: seq<PrimitiveData>, after: seq<PrimitiveData>, args: seq<Val>)
    requires |before| <= |after|
    requires forall h :: 0 <= h < |before| ==> after[h].representation.ty == before[h].representation.ty
    requires forall i :: 0 <= i < |args| && args[i].Obj? ==> args[i].h < |before|
    ensures Typed(before, args) == Typed(after, args)
  {
  }

  /** An `if`/`elif` condition's verdict: it must be a Boolean, and it holds when its payload is true. */
  function Truthiness(c: PrimitiveData): (r: Result<bool, ErrorKind>)
    ensures r.Success? <==> BaseOf(c) == "Boolean"
    ensures r.Failure? ==> r.error == InvalidValue
    ensures r.Success? ==> (r.value <==> c.representation.value == BooleanValue(true))
  {
    if BaseOf(c) != "Boolean" then Failure(InvalidValue)
    else Success(c.representation.value == BooleanValue(true))
  }

  /** `target = value` on the two values: constant first, then the type check. */
  function AssignOutcome(t: Representation, v: Representation): (r: Outcome<ErrorKind>)
    ensures r.Pass? <==> !t.constant && DiffTypes(t.ty, v.ty)
    ensures t.constant ==> r == Fail(ImmutableValue)
    ensures !t.constant && !DiffTypes(t.ty, v.ty) ==> r == Fail(TypeMismatch)
  {
    if t.constant then Fail(ImmutableValue)
    else if !DiffTypes(t.ty, v.ty) then Fail(TypeMismatch)
    else Pass
  }

  /** A quantity modifier on the two values: the target checks, then the new payload's checks. */
  function ModifyOutcome(op: ModOp, t: Representation, right: Option<Representation>, fpu: FloatUnit): (r: Outcome<ErrorKind>)
    ensures ModifierTarget(t).Fail? ==> r == ModifierTarget(t)
    ensures ModifierTarget(t).Pass? && ModifierResult(op, t, right, fpu).Failure? ==> r == Fail(ModifierResult(op, t, right, fpu).error)
    ensures r.Pass? <==> ModifierTarget(t).Pass? && ModifierResult(op, t, right, fpu).Success?
  {
    if ModifierTarget(t).Fail? then ModifierTarget(t)
    else if ModifierResult(op, t, right, fpu).Failure? then Fail(ModifierResult(op, t, right, fpu).error)
    else Pass
  }

  /** The types of evaluated values, None for undefined. */
  function TypesOf(slots: seq<PrimitiveData>, vals: seq<Val>): (tys: seq<Option<Type>>)
    ensures |tys| == |vals|
  {
    seq(|vals|, i requires 0 <= i < |vals| =>
      if vals[i].Obj? && vals[i].h < |slots| then Some(slots[vals[i].h].representation.ty) else None)
  }

  /** Copies of evaluated values. */
  function DataOf(slots: seq<PrimitiveData>, vals: seq<Val>): (items: seq<PrimitiveData>)
    ensures |items| == |vals|
  {
    seq(|vals|, i requires 0 <= i < |vals| =>
      if vals[i].Obj? && vals[i].h < |slots| then slots[vals[i].h] else NoneData())
  }

  /** Values already in the store read the same after it grows. */
  lemma OfPrefix(slots: seq<PrimitiveData>, more: seq<PrimitiveData>, vals: seq<Val>)
    requires forall i :: 0 <= i < |vals| && vals[i].Obj? ==> vals[i].h < |slots|
    ensures TypesOf(slots + more, vals) == TypesOf(slots, vals)
    ensures DataOf(slots + more, vals) == DataOf(slots, vals)
  {
  }

  /** A List literal on its evaluated members: the member check, then a fresh list of copies. */
  function ListResult(of: Option<Type>, tys: seq<Option<Type>>, items: seq<PrimitiveData>): (r: Result<PrimitiveData, ErrorKind>)
    ensures ElementsCheck(of, tys).Fail? ==> r == Failure(ElementsCheck(of, tys).error)
    ensures ElementsCheck(of, tys).Pass? ==> r == Success(Fresh(Type(LIST, of), ListValue(items)))
  {
    match ElementsCheck(of, tys)
    case Fail(e) => Failure(e)
    case Pass => Success(Fresh(Type(LIST, of), ListValue(items)))
  }

  /** A Map literal on its evaluated values: MapLiteralCheck, then a fresh map pairing each key with its value. */
  function MapResult(of: Option<Type>, pairs: seq<Pair>, tys: seq<Option<Type>>, items: seq<PrimitiveData>)
    : (r: Result<PrimitiveData, ErrorKind>)
    requires |items| == |pairs|
    ensures var keys := seq(|pairs|, i requires 0 <= i < |pairs| => pairs[i].key);
      && (MapLiteralCheck(of, keys, tys).Fail? ==> r == Failure(MapLiteralCheck(of, keys, tys).error))
      && (MapLiteralCheck(of, keys, tys).Pass? ==>
            r.Success? && Distinct(keys) && r.value == Fresh(Type("Map", of), EntriesValue(seq(|pairs|, i requires 0 <= i < |pairs| => Entry(pairs[i].key, items[i])))))
  {
    var keys := seq(|pairs|, i requires 0 <= i < |pairs| => pairs[i].key);
    match MapLiteralCheck(of, keys, tys)
    case Fail(e) => Failure(e)
    case Pass => Success(Fresh(Type("Map", of), EntriesValue(seq(|pairs|, i requires 0 <= i < |pairs| => Entry(pairs[i].key, items[i])))))
  }

  /** The bases a struct literal may not name: the literal forms with their own syntax. */
  predicate BuiltinLiteral(base: string) {
    base in ["Int", "Double", "Boolean", "String", "List", "Map", "Function", "Micro"]
  }

  /** The declared fields a struct literal supplies, in declaration order. */
  function SuppliedFields(fields: seq<Field>, supplied: seq<Pair>): (chosen: seq<Field>)
    ensures |chosen| <= |fields|
    decreases |fields|
  {
    if fields == [] then []
    else
      var last := fields[|fields| - 1];
      SuppliedFields(fields[..|fields| - 1], supplied) + (if FirstPair(supplied, last.name) < |supplied| then [last] else [])
  }

  /** SuppliedFields grows by the next field exactly when that field is supplied. */
  lemma SuppliedStep(fields: seq<Field>, k: nat, supplied: seq<Pair>)
    requires k < |fields|
    ensures SuppliedFields(fields[..k + 1], supplied) == SuppliedFields(fields[..k], supplied)
      + (if FirstPair(supplied, fields[k].name) < |supplied| then [fields[k]] else [])
  {
    assert fields[..k + 1][..k] == fields[..k];
  }

  /**
   * What filling the fields of a struct literal gave: MissingProperty names
   * (`unsupplied`) an absent required field, TypeMismatch names (`mismatch`)
   * a supplied value whose type does not fit; a success holds exactly the
   * entries of the supplied fields, every required one supplied; and, when
   * the supplied values are local names of types `vals`, the outcome is the
   * one of StructCheck.
   */
  ghost predicate Filled(fields: seq<Field>, supplied: seq<Pair>, vals: seq<PrimitiveData>, local: bool,
                         r: Result<seq<Entry>, ErrorKind>, unsupplied: Option<nat>, mismatch: Option<(nat, Type)>)
  {
    && (unsupplied.Some? ==> (r == Failure(MissingProperty) && unsupplied.value < |fields|
        && !fields[unsupplied.value].optional && FirstPair(supplied, fields[unsupplied.value].name) == |supplied|))
    && (mismatch.Some? ==> (r == Failure(TypeMismatch) && mismatch.value.0 < |fields|
        && FirstPair(supplied, fields[mismatch.value.0].name) < |supplied| && !DiffTypes(mismatch.value.1, fields[mismatch.value.0].ty)))
    && (r.Success? ==> (unsupplied.None? && FilledBy(SuppliedFields(fields, supplied), r.value)
        && forall m :: 0 <= m < |fields| && !fields[m].optional ==> FirstPair(supplied, fields[m].name) < |supplied|))
    && (local ==> (|vals| == |supplied| &&
          var check := StructCheck(fields, supplied, vals);
          && (r.Success? <==> check.Pass?)
          && (r.Failure? ==> check.Fail? && r.error == check.error)
          && (r.Success? ==> FromValues(r.value, supplied, vals))))
  }

  /**
   * What the first k fields of a struct literal have given: the entries
   * filling the supplied ones, every required one supplied, and, when the
   * supplied values are local names of types `vals`, every one fitting.
   */
  ghost predicate Progress(fields: seq<Field>, k: nat, supplied: seq<Pair>, vals: seq<PrimitiveData>, local: bool,
                           chosen: seq<Field>, entries: seq<Entry>)
    requires k <= |fields|
  {
    && chosen == SuppliedFields(fields[..k], supplied) && FilledBy(chosen, entries)
    && (forall m :: 0 <= m < k && !fields[m].optional ==> FirstPair(supplied, fields[m].name) < |supplied|)
    && (local ==> (&& |vals| == |supplied| && (forall m :: 0 <= m < k ==> Fits(fields[m], supplied, vals))
        && FromValues(entries, supplied, vals)))
  }

  /** Field k, filled by `one` or absent and optional, extends the progress by one field. */
  lemma ProgressStep(fields: seq<Field>, k: nat, supplied: seq<Pair>, vals: seq<PrimitiveData>, local: bool,
                     chosen: seq<Field>, entries: seq<Entry>, one: Option<Entry>) returns (next: seq<Field>)
    requires k < |fields| && Progress(fields, k, supplied, vals, local, chosen, entries)
    requires one.Some? <==> FirstPair(supplied, fields[k].name) < |supplied|
    requires one.Some? ==> one.value.key == fields[k].name && DiffTypes(one.value.value.representation.ty, fields[k].ty)
    requires !fields[k].optional ==> FirstPair(supplied, fields[k].name) < |supplied|
    requires local ==> |vals| == |supplied| && Fits(fields[k], supplied, vals)
    requires local && one.Some? ==> one.value.value == vals[FirstPair(supplied, fields[k].name)]
    ensures Progress(fields, k + 1, supplied, vals, local, next, if one.Some? then entries + [one.value] else entries)
  {
    SuppliedStep(fields, k, supplied);
    if one.Some? {
      FilledStep(chosen, entries, fields[k], one.value);
      if local {
        FromValuesStep(entries, supplied, vals, one.value);
      }
      next := chosen + [fields[k]];
    } else {
      assert chosen + [] == chosen;
      next := chosen;
    }
  }

  /** All fields done: the entries fill exactly the supplied fields, and the check passes on local values. */
  lemma Finished(fields: seq<Field>, supplied: seq<Pair>, vals: seq<PrimitiveData>, local: bool, chosen: seq<Field>, entries: seq<Entry>)
    requires Progress(fields, |fields|, supplied, vals, local, chosen, entries)
    ensures Filled(fields, supplied, vals, local, Success(entries), None, None)
  {
    assert fields[..|fields|] == fields;
  }

  /**
   * Stopped at field k with `err`: MissingProperty names an absent required
   * field, TypeMismatch a supplied value of type `found` that does not fit;
   * on local values the field decides the check, the k before it having fit.
   */
  lemma Stopped(fields: seq<Field>, k: nat, supplied: seq<Pair>, vals: seq<PrimitiveData>, local: bool,
                chosen: seq<Field>, entries: seq<Entry>, err: ErrorKind, found: Option<Type>)
    returns (unsupplied: Option<nat>, mismatch: Option<(nat, Type)>)
    requires k < |fields| && Progress(fields, k, supplied, vals, local, chosen, entries)
    requires FirstPair(supplied, fields[k].name) == |supplied| ==> !fields[k].optional && err == MissingProperty && found.None?
    requires found.Some? ==> (&& FirstPair(supplied, fields[k].name) < |supplied|
      && !DiffTypes(found.value, fields[k].ty) && err == TypeMismatch)
    requires local ==> |vals| == |supplied| && !Fits(fields[k], supplied, vals) && err == Misfit(fields[k], supplied)
    ensures Filled(fields, supplied, vals, local, Failure(err), unsupplied, mismatch)
  {
    unsupplied, mismatch := None, None;
    if found.Some? {
      mismatch := Some((k, found.value));
    } else if FirstPair(supplied, fields[k].name) == |supplied| {
      unsupplied := Some(k);
    }
    if local {
      FirstMisfit(fields, k, supplied, vals);
    }
  }

  /** One more entry fills one more field. */
  lemma FilledStep(chosen: seq<Field>, entries: seq<Entry>, field: Field, entry: Entry)
    requires FilledBy(chosen, entries)
    requires entry.key == field.name && DiffTypes(entry.value.representation.ty, field.ty)
    ensures FilledBy(chosen + [field], entries + [entry])
  {
  }

  /** Each entry holds the value of the first supplied pair with its key. */
  predicate FromValues(entries: seq<Entry>, supplied: seq<Pair>, vals: seq<PrimitiveData>)
    requires |vals| == |supplied|
  {
    forall i :: 0 <= i < |entries| ==>
      FirstPair(supplied, entries[i].key) < |supplied| && entries[i].value == vals[FirstPair(supplied, entries[i].key)]
  }

  /** One more entry holding its pair's value. */
  lemma FromValuesStep(entries: seq<Entry>, supplied: seq<Pair>, vals: seq<PrimitiveData>, entry: Entry)
    requires |vals| == |supplied| && FromValues(entries, supplied, vals)
    requires FirstPair(supplied, entry.key) < |supplied| && entry.value == vals[FirstPair(supplied, entry.key)]
    ensures FromValues(entries + [entry], supplied, vals)
  {
  }

  /** Struct entries filling the given fields one for one: same names, compatible types. */
  predicate FilledBy(chosen: seq<Field>, entries: seq<Entry>) {
    && |entries| == |chosen|
    && forall i :: 0 <= i < |entries| ==>
         entries[i].key == chosen[i].name && DiffTypes(entries[i].value.representation.ty, chosen[i].ty)
  }

  /** A declared field fits the supplied values' types: a supplied one is compatible, an absent one optional. */
  predicate Fits(field: Field, supplied: seq<Pair>, vals: seq<PrimitiveData>)
    requires |vals| == |supplied|
  {
    var j := FirstPair(supplied, field.name);
    if j < |supplied| then DiffTypes(vals[j].representation.ty, field.ty) else field.optional
  }

  /** What a field that does not fit reports: TypeMismatch when it was supplied, MissingProperty when not. */
  function Misfit(field: Field, supplied: seq<Pair>): ErrorKind {
    if FirstPair(supplied, field.name) < |supplied| then TypeMismatch else MissingProperty
  }

  /**
   * The checks of a struct literal on the types `vals` of the supplied
   * values: the declared fields in order, the first that does not fit
   * deciding the error.
   */
  function StructCheck(fields: seq<Field>, supplied: seq<Pair>, vals: seq<PrimitiveData>): (r: Outcome<ErrorKind>)
    requires |vals| == |supplied|
    ensures r.Pass? <==> forall m :: 0 <= m < |fields| ==> Fits(fields[m], supplied, vals)
    ensures r.Fail? ==> exists m :: (&& 0 <= m < |fields| && !Fits(fields[m], supplied, vals)
      && (forall i :: 0 <= i < m ==> Fits(fields[i], supplied, vals))
      && r.error == Misfit(fields[m], supplied))
    decreases |fields|
  {
    if fields == [] then Pass
    else
      var n := |fields| - 1;
      var prefix := StructCheck(fields[..n], supplied, vals);
      assert forall i :: 0 <= i < n ==> fields[..n][i] == fields[i];
      if prefix.Fail? then prefix
      else if !Fits(fields[n], supplied, vals) then Fail(Misfit(fields[n], supplied))
      else Pass
  }

  /** When every field before `k` fits and field `k` does not, field `k` decides the struct check. */
  lemma FirstMisfit(fields: seq<Field>, k: nat, supplied: seq<Pair>, vals: seq<PrimitiveData>)
    requires |vals| == |supplied| && k < |fields|
    requires forall m :: 0 <= m < k ==> Fits(fields[m], supplied, vals)
    requires !Fits(fields[k], supplied, vals)
    ensures StructCheck(fields, supplied, vals) == Fail(Misfit(fields[k], supplied))
  {
    var r := StructCheck(fields, supplied, vals);
    var m :| (&& 0 <= m < |fields| && !Fits(fields[m], supplied, vals)
      && (forall i :: 0 <= i < m ==> Fits(fields[i], supplied, vals))
      && r.error == Misfit(fields[m], supplied));
    assert m == k;
  }

  /** The first supplied pair with the key, as `find` returns it; |pairs| when there is none. */
  function FirstPair(pairs: seq<Pair>, key: string): (j: nat)
    ensures j <= |pairs|
    ensures j < |pairs| ==> pairs[j].key == key
    ensures forall i :: 0 <= i < j ==> pairs[i].key != key
  {
    if |pairs| == 0 then 0
    else if pairs[0].key == key then 0
    else 1 + FirstPair(pairs[1..], key)
  }
}


=== FILE: numbers.dfy ===
/**
 * JavaScript numbers as the Betic runtime sees them. A number is either
 * integral (`Number.isInteger` holds) or not; non-integral numbers (fractions,
 * NaN, the infinities) are kept opaque and every operation that involves one
 * is delegated to a FloatUnit supplied from outside the model.
 */
module BeticNumbers {

  /** An IEEE-754 double whose value is not an integer, kept as its bit pattern. */
  datatype Float = Float(bits: int)

  /** A JavaScript number: `Integral` exactly when `Number.isInteger` holds of it. */
  datatype Num = Integral(i: int) | Fractional(f: Float)

  /** The NaN produced by arithmetic on a missing operand. */
  const NaN: Num := Fractional(Float(0x7FF8_0000_0000_0000))

  datatype ArithOp = Addition | Subtraction | Multiplication | Division | Modulus | Exponent | Root

  /**
   * The host's floating-point unit: the results of the operations the model
   * does not compute itself, and comparisons involving a non-integral number.
   */
  datatype FloatUnit = FloatUnit(
    arith: (ArithOp, Num, Num) -> Num,
    less: (Num, Num) -> bool,
    equal: (Num, Num) -> bool)

  function Abs(x: int): (r: int)
    ensures r >= 0
  {
    if x < 0 then -x else x
  }

  /** JavaScript's `%` on integers: truncating, so the remainder takes the dividend's sign. */
  function TruncRem(a: int, b: int): (r: int)
    requires b != 0
    ensures a >= 0 ==> 0 <= r < Abs(b)
    ensures a < 0 ==> -Abs(b) < r <= 0
    ensures (a - r) % Abs(b) == 0
  {
    var m := Abs(b);
    if a >= 0 then
      MultipleRem(a / m, m);
      assert a - a % m == (a / m) * m;
      a % m
    else
      MultipleRem(-((-a) / m), m);
      assert a + (-a) % m == (-((-a) / m)) * m;
      -((-a) % m)
  }

  lemma MultipleRem(q: int, m: int)
    requires m > 0
    ensures (q * m) % m == 0
  {
    var d, r := (q * m) / m, (q * m) % m;
    assert (q - d) * m == r;
    if q - d >= 1 {
      assert false;
    } else if q - d <= -1 {
      assert false;
    }
  }

  /**
   * A binary arithmetic operation on two JavaScript numbers. Addition,
   * subtraction, multiplication and the remainder by a non-zero divisor are
   * exact on integral operands; everything else is the FloatUnit's answer.
   */
  function Arith(op: ArithOp, a: Num, b: Num, fpu: FloatUnit): (r: Num)
    ensures a.Integral? && b.Integral? && op == Addition ==> r == Integral(a.i + b.i)
    ensures a.Integral? && b.Integral? && op == Subtraction ==> r == Integral(a.i - b.i)
    ensures a.Integral? && b.Integral? && op == Multiplication ==> r == Integral(a.i * b.i)
    ensures a.Integral? && b.Integral? && op == Modulus && b.i != 0 ==> r == Integral(TruncRem(a.i, b.i))
  {
    if a.Integral? && b.Integral? then
      match op
      case Addition => Integral(a.i + b.i)
      case Subtraction => Integral(a.i - b.i)
      case Multiplication => Integral(a.i * b.i)
      case Modulus => if b.i != 0 then Integral(TruncRem(a.i, b.i)) else fpu.arith(op, a, b)
      case _ => fpu.arith(op, a, b)
    else
      fpu.arith(op, a, b)
  }

  /** JavaScript `<` on numbers. */
  function Less(a: Num, b: Num, fpu: FloatUnit): bool {
    if a.Integral? && b.Integral? then a.i < b.i else fpu.less(a, b)
  }

  /** JavaScript `===` on numbers. */
  function Equal(a: Num, b: Num, fpu: FloatUnit): bool {
    if a.Integral? && b.Integral? then a.i == b.i else fpu.equal(a, b)
  }
}

=== FILE: operators.dfy ===
/**
 * The decisions the evaluator takes on values it has already computed: which
 * operand types an arithmetic, condition or quantity modifier accepts and
 * what it yields, how a source is indexed, how literal members are checked,
 * and how call arguments are bound to parameters.
 */
module BeticOperators {
  import opened Wrappers
  import opened BeticTypes
  import opened BeticNumbers
  import opened BeticAst
  import opened BeticValues
  import opened BeticUtil

  predicate Numeric(base: string) {
    base == "Int" || base == "Double"
  }

  /** A value nobody else holds: mutable, not expected, unnamed and local. */
  predicate Unshared(p: PrimitiveData) {
    && !p.representation.constant && !p.representation.expected
    && p.representation.name.None? && p.engine.None?
  }

  /* ---- Arithmetic. ---- */

  /** Int with Int, Double with Double, and String with String under addition. */
  predicate ArithmeticAccepts(op: ArithOp, left: string, right: string) {
    || (left == "Int" && right == "Int")
    || (left == "Double" && right == "Double")
    || (left == "String" && right == "String" && op == Addition)
  }

  /** The payload is of the kind its base names: a number for Int and Double, a string for String. */
  predicate Matches(v: Representation) {
    && (Numeric(v.ty.base) ==> v.value.NumberValue?)
    && (v.ty.base == "String" ==> v.value.StringValue?)
  }

  /**
   * A binary arithmetic expression on evaluated operands. A numeric result is
   * typed Int exactly when it is integral, whatever the operand types were.
   */
  function ArithmeticResult(op: ArithOp, left: Representation, right: Representation, fpu: FloatUnit)
    : (r: Result<PrimitiveData, ErrorKind>)
    ensures r == Failure(TypeMismatch) <==> !ArithmeticAccepts(op, left.ty.base, right.ty.base)
    ensures ArithmeticAccepts(op, left.ty.base, right.ty.base) && Matches(left) && Matches(right) ==> r.Success?
    ensures r.Success? ==> Unshared(r.value)
    ensures r.Success? && Numeric(left.ty.base) ==>
      && left.value.NumberValue? && right.value.NumberValue?
      && r.value.representation.value == NumberValue(Arith(op, left.value.n, right.value.n, fpu))
      && TypeOf(r.value) == Plain(if Arith(op, left.value.n, right.value.n, fpu).Integral? then "Int" else "Double")
    ensures r.Success? && left.ty.base == "String" ==>
      && left.value.StringValue? && right.value.StringValue?
      && r.value == Fresh(Plain("String"), StringValue(left.value.s + right.value.s))
  {
    if (left.ty.base == "Int" && right.ty.base == "Int") || (left.ty.base == "Double" && right.ty.base == "Double") then
      match (left.value, right.value)
      case (NumberValue(a), NumberValue(b)) =>
        var n := Arith(op, a, b, fpu);
        Success(GeneratePrimitive(JsNumber(n), Some(Plain(if n.Integral? then "Int" else "Double"))))
      case _ => Failure(Unmodelled)
    else if left.ty.base == "String" && right.ty.base == "String" && op == Addition then
      match (left.value, right.value)
      case (StringValue(a), StringValue(b)) => Success(GeneratePrimitive(JsString(a + b), None))
      case _ => Failure(Unmodelled)
    else
      Failure(TypeMismatch)
  }

  /** Int operands are exact: sum, difference and product of two integers stay Int. */
  lemma IntArithmeticExact(op: ArithOp, a: int, b: int, fpu: FloatUnit)
    requires op in {Addition, Subtraction, Multiplication}
    ensures var r := ArithmeticResult(op, Fresh(Plain("Int"), NumberValue(Integral(a))).representation,
                                          Fresh(Plain("Int"), NumberValue(Integral(b))).representation, fpu);
      && r.Success? && TypeOf(r.value) == Plain("Int")
      && r.value.representation.value == NumberValue(Integral(
           if op == Addition then a + b else if op == Subtraction then a - b else a * b))
  {
  }

  /** Int and Double never mix in arithmetic. */
  lemma MixedArithmeticRejected(op: ArithOp, left: Representation, right: Representation, fpu: FloatUnit)
    requires Numeric(left.ty.base) && Numeric(right.ty.base) && left.ty.base != right.ty.base
    ensures ArithmeticResult(op, left, right, fpu) == Failure(TypeMismatch)
  {
  }

  /* ---- Conditions. ---- */

  predicate BooleanOp(op: CondOp) {
    op.And? || op.Or? || op.Nand? || op.Nor?
  }

  predicate EqualityOp(op: CondOp) {
    op.Equals? || op.NotEquals?
  }

  /** Logical operators need two Booleans, relational ones two numbers; equality takes anything. */
  predicate ConditionAccepts(op: CondOp, left: string, right: string) {
    if BooleanOp(op) then left == "Boolean" && right == "Boolean"
    else if EqualityOp(op) then true
    else Numeric(left) && Numeric(right)
  }

  /** The JavaScript string a payload is, if it is one: None values hold the string `none`. */
  function JsText(v: Payload): Option<string> {
    match v
    case NoneValue => Some("none")
    case StringValue(s) => Some(s)
    case _ => None
  }

  /** Payloads that are JavaScript objects (arrays and functions), compared by identity. */
  predicate IsObject(v: Payload) {
    v.ListValue? || v.EntriesValue? || v.FunctionValue? || v.MicroValue? || v.NativeValue?
  }

  /**
   * JavaScript `===` on two payloads: numbers by value, strings by text,
   * different kinds never equal. Two objects compare by identity, which the
   * model does not track (None).
   */
  function StrictEquals(a: Payload, b: Payload, fpu: FloatUnit): (r: Option<bool>)
    ensures r.None? <==> IsObject(a) && IsObject(b)
    ensures IsObject(a) != IsObject(b) ==> r == Some(false)
    ensures JsText(a).Some? && JsText(b).Some? ==> r == Some(JsText(a) == JsText(b))
  {
    if IsObject(a) && IsObject(b) then None
    else
      match (a, b)
      case (NumberValue(x), NumberValue(y)) => Some(Equal(x, y, fpu))
      case (BooleanValue(x), BooleanValue(y)) => Some(x == y)
      case (UndefinedValue, UndefinedValue) => Some(true)
      case _ => Some(JsText(a).Some? && JsText(a) == JsText(b))
  }

  /** Every scalar payload except a non-integral number is `===` to itself. */
  lemma StrictEqualsReflexive(a: Payload, fpu: FloatUnit)
    requires !IsObject(a) && !(a.NumberValue? && a.n.Fractional?)
    ensures StrictEquals(a, a, fpu) == Some(true)
  {
  }

  /**
   * The truth value of a condition on two payloads, or None where the model
   * does not follow JavaScript's coercions: logical operators on two
   * Booleans, relational ones on two numbers, equality on anything but two
   * objects.
   */
  function Truth(op: CondOp, a: Payload, b: Payload, fpu: FloatUnit): (r: Option<bool>)
    ensures BooleanOp(op) ==> (r.Some? <==> a.BooleanValue? && b.BooleanValue?)
    ensures EqualityOp(op) ==> (r.Some? <==> !(IsObject(a) && IsObject(b)))
    ensures !BooleanOp(op) && !EqualityOp(op) ==> (r.Some? <==> a.NumberValue? && b.NumberValue?)
    ensures r.Some? && op.And? ==> r.value == (a.b && b.b)
    ensures r.Some? && op.Or? ==> r.value == (a.b || b.b)
    ensures r.Some? && op.Equals? ==> Some(r.value) == StrictEquals(a, b, fpu)
    ensures r.Some? && op.NotEquals? ==> Some(!r.value) == StrictEquals(a, b, fpu)
  {
    if BooleanOp(op) then
      if a.BooleanValue? && b.BooleanValue? then
        Some(match op
          case And => a.b && b.b
          case Or => a.b || b.b
          case Nand => !(a.b && b.b)
          case _ => !(a.b || b.b))
      else None
    else if EqualityOp(op) then
      match StrictEquals(a, b, fpu)
      case None => None
      case Some(e) => Some(if op.Equals? then e else !e)
    else if a.NumberValue? && b.NumberValue? then
      var x, y := a.n, b.n;
      Some(match op
        case LessThan => Less(x, y, fpu)
        case GreaterThan => Less(y, x, fpu)
        case LessThanEquals => Less(x, y, fpu) || Equal(x, y, fpu)
        case GreaterThanEquals => Less(y, x, fpu) || Equal(x, y, fpu)
        case NotLessThan => !Less(x, y, fpu)
        case NotGreaterThan => !Less(y, x, fpu)
        case NotLessThanEquals => !(Less(x, y, fpu) || Equal(x, y, fpu))
        case _ => !(Less(y, x, fpu) || Equal(x, y, fpu)))
    else None
  }

  /** A condition expression on evaluated operands: always a fresh Boolean when it succeeds. */
  function ConditionResult(op: CondOp, left: Representation, right: Representation, fpu: FloatUnit)
    : (r: Result<PrimitiveData, ErrorKind>)
    ensures r == Failure(InvalidValue) <==> !ConditionAccepts(op, left.ty.base, right.ty.base)
    ensures r.Success? <==> ConditionAccepts(op, left.ty.base, right.ty.base) && Truth(op, left.value, right.value, fpu).Some?
    ensures r.Success? ==> Unshared(r.value) && TypeOf(r.value) == Plain("Boolean")
    ensures r.Success? ==> (r.value.representation.value.BooleanValue?
      && Truth(op, left.value, right.value, fpu) == Some(r.value.representation.value.b))
    ensures r.Failure? ==> r.error in {InvalidValue, Unmodelled}
  {
    if !ConditionAccepts(op, left.ty.base, right.ty.base) then Failure(InvalidValue)
    else
      match Truth(op, left.value, right.value, fpu)
      case None => Failure(Unmodelled)
      case Some(t) => Success(GeneratePrimitive(JsBoolean(t), None))
  }

  /** Each operator and its negated form. */
  function Complement(op: CondOp): CondOp {
    match op
    case And => Nand
    case Nand => And
    case Or => Nor
    case Nor => Or
    case Equals => NotEquals
    case NotEquals => Equals
    case LessThan => NotLessThan
    case NotLessThan => LessThan
    case GreaterThan => NotGreaterThan
    case NotGreaterThan => GreaterThan
    case LessThanEquals => NotLessThanEquals
    case NotLessThanEquals => LessThanEquals
    case GreaterThanEquals => NotGreaterThanEquals
    case NotGreaterThanEquals => GreaterThanEquals
  }

  /** A negated operator accepts the same operands and yields the opposite Boolean. */
  lemma ConditionComplement(op: CondOp, left: Representation, right: Representation, fpu: FloatUnit)
    ensures var r, s := ConditionResult(op, left, right, fpu), ConditionResult(Complement(op), left, right, fpu);
      && (r.Failure? <==> s.Failure?)
      && (r.Failure? ==> r.error == s.error)
      && (r.Success? ==> r.value.representation.value.b == !s.value.representation.value.b)
  {
  }

  /** On whole numbers the relational operators are the integer comparisons. */
  lemma IntegralComparisons(op: CondOp, x: int, y: int, fpu: FloatUnit)
    requires !BooleanOp(op) && !EqualityOp(op)
    ensures Truth(op, NumberValue(Integral(x)), NumberValue(Integral(y)), fpu) == Some(
      match op
      case LessThan => x < y
      case GreaterThan => x > y
      case LessThanEquals => x <= y
      case GreaterThanEquals => x >= y
      case NotLessThan => x >= y
      case NotGreaterThan => x <= y
      case NotLessThanEquals => x > y
      case _ => x < y)
  {
  }

  /** A None value equals the String `none`, because both hold the same JavaScript string. */
  lemma NoneEqualsNoneText(fpu: FloatUnit)
    ensures ConditionResult(Equals, NoneData().representation, Fresh(Plain("String"), StringValue("none")).representation, fpu)
      == Success(Fresh(Plain("Boolean"), BooleanValue(true)))
  {
  }

  /* ---- Quantity modifiers. ---- */

  /** The checks on the modified value, made before the right-hand side is evaluated. */
  function ModifierTarget(t: Representation): (r: Outcome<ErrorKind>)
    ensures r.Pass? <==> !t.constant && Numeric(t.ty.base)
    ensures t.constant ==> r == Fail(ImmutableValue)
    ensures !t.constant && !Numeric(t.ty.base) ==> r == Fail(InvalidValue)
  {
    if t.constant then Fail(ImmutableValue)
    else if !Numeric(t.ty.base) then Fail(InvalidValue)
    else Pass
  }

  function ModifierArith(op: ModOp): ArithOp
    requires !op.Increment? && !op.Decrement?
  {
    match op
    case AddBy => Addition
    case SubtractBy => Subtraction
    case DivideBy => Division
    case MultiplyBy => Multiplication
  }

  /**
   * The number a compound modifier computes: the target's number combined
   * with the right-hand number, or NaN when there is no right-hand side.
   */
  function ModifierOperation(op: ModOp, a: Num, right: Option<Representation>, fpu: FloatUnit): Option<Num>
    requires !op.Increment? && !op.Decrement?
  {
    match right
    case None => Some(NaN)
    case Some(rv) =>
      if rv.value.NumberValue? then Some(Arith(ModifierArith(op), a, rv.value.n, fpu)) else None
  }

  /**
   * The new payload of a quantity modifier as the evaluator computes it. A
   * whole result may go into a Double; a fractional result (and NaN) may
   * not go into an Int. The type check failing for a modifier without a
   * right-hand side crashes the report itself (HostException).
   */
  function ModifierCheck(t: Representation, result: Num, right: Option<Representation>): (r: Result<Payload, ErrorKind>)
    ensures r.Success? ==> r.value == NumberValue(result)
    ensures t.ty == Plain("Int") ==> (r.Success? <==> result.Integral?)
    ensures t.ty == Plain("Double") ==> r.Success?
  {
    var resultType := if result.Integral? then "Int" else "Double";
    if !(t.ty.base == "Double" && resultType == "Int") && !DiffTypes(t.ty, Plain(resultType)) then
      Failure(if right.None? then HostException else TypeMismatch)
    else
      Success(NumberValue(result))
  }

  /**
   * The payload `++`, `--`, `+=`, `-=`, `/=` or `*=` leaves in a value that
   * passed ModifierTarget (only its type matters here), given its
   * right-hand side if any. `++` and `--`
   * add or subtract one.
   */
  function ModifierResult(op: ModOp, t: Representation, right: Option<Representation>, fpu: FloatUnit)
    : (r: Result<Payload, ErrorKind>)
    requires Numeric(t.ty.base)
    ensures right.Some? && !Numeric(right.value.ty.base) ==> r == Failure(InvalidValue)
    ensures r.Success? ==> r.value.NumberValue? && t.value.NumberValue?
    ensures r.Success? && t.ty.base == "Int" ==> r.value.n.Integral?
  {
    if right.Some? && !Numeric(right.value.ty.base) then Failure(InvalidValue)
    else if !t.value.NumberValue? then Failure(Unmodelled)
    else if op.Increment? || op.Decrement? then
      ModifierCheck(t, Arith(if op.Increment? then Addition else Subtraction, t.value.n, Integral(1), fpu), right)
    else
      match ModifierOperation(op, t.value.n, right, fpu)
      case None => Failure(Unmodelled)
      case Some(result) => ModifierCheck(t, result, right)
  }

  /**
   * The evaluator as written: `++` and `--` bump the payload but leave
   * `undefined` as the result, which is not an integer, so an Int target
   * fails the type check and a Double target ends up holding `undefined`.
   */
  function ModifierResultAsWritten(op: ModOp, t: Representation, right: Option<Representation>, fpu: FloatUnit)
    : (r: Result<Payload, ErrorKind>)
    requires Numeric(t.ty.base)
    ensures !op.Increment? && !op.Decrement? ==> r == ModifierResult(op, t, right, fpu)
    ensures (op.Increment? || op.Decrement?) && r.Success? ==> r.value == UndefinedValue
    ensures (op.Increment? || op.Decrement?) && t.value.NumberValue? && (right.None? || Numeric(right.value.ty.base)) ==>
      (r.Success? <==> DiffTypes(t.ty, Plain("Double")))
    ensures (op.Increment? || op.Decrement?) && t.value.NumberValue? && right.None? && !DiffTypes(t.ty, Plain("Double")) ==>
      r == Failure(HostException)
  {
    if op.Increment? || op.Decrement? then
      if right.Some? && !Numeric(right.value.ty.base) then Failure(InvalidValue)
      else if !t.value.NumberValue? then Failure(Unmodelled)
      else if !DiffTypes(t.ty, Plain("Double")) then
        Failure(if right.None? then HostException else TypeMismatch)
      else Success(UndefinedValue)
    else
      ModifierResult(op, t, right, fpu)
  }

  /** As written, `x++` on an Int variable never succeeds and on a Double loses the number. */
  lemma IncrementAsWrittenLosesValue(a: int, fpu: FloatUnit)
    ensures ModifierResultAsWritten(Increment, Fresh(Plain("Int"), NumberValue(Integral(a))).representation, None, fpu)
      == Failure(HostException)
    ensures ModifierResultAsWritten(Increment, Fresh(Plain("Double"), NumberValue(Integral(a))).representation, None, fpu)
      == Success(UndefinedValue)
  {
  }

  /** `x++`, `x--`, `x += b`, `x -= b`, `x *= b` on Int variables compute exactly. */
  lemma IntModifiersExact(op: ModOp, a: int, b: int, fpu: FloatUnit)
    requires op != DivideBy
    ensures var right := if op.Increment? || op.Decrement? then None
                         else Some(Fresh(Plain("Int"), NumberValue(Integral(b))).representation);
      ModifierResult(op, Fresh(Plain("Int"), NumberValue(Integral(a))).representation, right, fpu)
      == Success(NumberValue(Integral(
           match op
           case Increment => a + 1
           case Decrement => a - 1
           case AddBy => a + b
           case SubtractBy => a - b
           case _ => a * b)))
  {
  }

  /** A compound modifier without a right-hand side computes NaN, which an Int rejects. */
  lemma MissingOperandIsNaN(op: ModOp, t: Representation, fpu: FloatUnit)
    requires Numeric(t.ty.base) && !op.Increment? && !op.Decrement?
    requires t.value.NumberValue?
    ensures t.ty == Plain("Int") ==> ModifierResult(op, t, None, fpu) == Failure(HostException)
    ensures t.ty == Plain("Double") ==> ModifierResult(op, t, None, fpu) == Success(NumberValue(NaN))
  {
  }

  /* ---- Indexing. ---- */

  /** The bases the `.` getter refuses. */
  predicate Unindexable(base: string) {
    base in ["Int", "Double", "String", "Boolean", "Function", "List", "Void", "None"]
  }

  /**
   * The two getters disagree: `.` refuses List and String, which `[ ]`
   * accepts, and accepts every base outside its list (Map, Micro, Occult,
   * Byte and every custom struct type), of which `[ ]` accepts only Map.
   */
  lemma GettersDisagree(base: string)
    ensures Unindexable(base) && Indexable(base) <==> base == "List" || base == "String"
    ensures !Unindexable(base) && Indexable(base) <==> base == "Map"
    ensures !Unindexable(base) ==> base !in {"Int", "Double", "Boolean", "Function", "Void", "None"}
  {
  }

  /**
   * The pairs a `.` getter binds for a value: a Map or struct's entries.
   * The members of a list and the statements of a Function or Micro block
   * have no `key`, so they bind nothing a reference can see; a payload with
   * no `forEach` throws.
   */
  function FieldEntries(v: Payload): (r: Result<seq<Entry>, ErrorKind>)
    ensures r.Success? <==> v.EntriesValue? || v.ListValue? || v.FunctionValue? || v.MicroValue?
    ensures v.EntriesValue? ==> r == Success(v.entries)
    ensures r.Success? && !v.EntriesValue? ==> r.value == []
    ensures r.Failure? ==> r.error == HostException
  {
    match v
    case EntriesValue(es) => Success(es)
    case ListValue(_) => Success([])
    case FunctionValue(_, _, _) => Success([])
    case MicroValue(_, _, _) => Success([])
    case _ => Failure(HostException)
  }

  /** The frame a `.` getter pushes: each entry's key bound to its value. */
  function EntriesFrame(es: seq<Entry>): (m: map<string, PrimitiveData>)
    ensures forall k :: k in m <==> exists i :: 0 <= i < |es| && es[i].key == k
  {
    if |es| == 0 then map[]
    else EntriesFrame(es[..|es| - 1])[es[|es| - 1].key := es[|es| - 1].value]
  }

  /** Of several entries with one key, the last one is bound. */
  lemma {:induction false} EntriesFrameLastWins(es: seq<Entry>, i: int)
    requires 0 <= i < |es|
    requires forall j :: i < j < |es| ==> es[j].key != es[i].key
    ensures EntriesFrame(es)[es[i].key] == es[i].value
    decreases |es|
  {
    if i < |es| - 1 {
      EntriesFrameLastWins(es[..|es| - 1], i);
    }
  }

  /** The bases the `[ ]` getter accepts. */
  predicate Indexable(base: string) {
    base == "List" || base == "Map" || base == "String"
  }

  /** The first entry with the key, as JavaScript's `find` returns it. */
  function LookupKey(entries: seq<Entry>, key: string): (r: Option<PrimitiveData>)
    ensures r.Some? <==> exists i :: 0 <= i < |entries| && entries[i].key == key
    ensures r.Some? ==> exists i :: (0 <= i < |entries| && entries[i].key == key && entries[i].value == r.value
      && forall j :: 0 <= j < i ==> entries[j].key != key)
  {
    if |entries| == 0 then None
    else if entries[0].key == key then Some(entries[0].value)
    else
      var r := LookupKey(entries[1..], key);
      assert r.Some? ==> exists i :: (1 <= i < |entries| && entries[i].key == key && entries[i].value == r.value
        && forall j :: 1 <= j < i ==> entries[j].key != key);
      r
  }

  /**
   * `source[index]` on an evaluated source whose base is List, Map or String.
   * A Map is looked up by a String key; a List or String by an Int position.
   * The result carries the source's owner tag.
   */
  function IndexResult(source: PrimitiveData, index: Representation): (r: Result<PrimitiveData, ErrorKind>)
    requires Indexable(BaseOf(source))
    ensures BaseOf(source) == "Map" && index.ty.base != "String" ==> r == Failure(InvalidValue)
    ensures BaseOf(source) != "Map" && index.ty.base != "Int" ==> r == Failure(InvalidValue)
    ensures r.Success? ==> r.value.engine == source.engine
    ensures BaseOf(source) == "Map" && index.ty.base == "String" && source.representation.value.EntriesValue?
      && JsText(index.value).Some? && LookupKey(source.representation.value.entries, JsText(index.value).value).Some?
      ==> r.Success?
    ensures BaseOf(source) == "Map" && index.ty.base == "String" && source.representation.value.EntriesValue?
      && JsText(index.value).Some? && LookupKey(source.representation.value.entries, JsText(index.value).value).None?
      ==> r == Failure(InvalidValue)
    ensures BaseOf(source) == "List" && index.ty.base == "Int" && source.representation.value.ListValue?
      && index.value.NumberValue? && index.value.n.Integral?
      && 0 <= index.value.n.i < |source.representation.value.items|
      ==> r.Success?
    ensures BaseOf(source) == "String" && index.ty.base == "Int" && JsText(source.representation.value).Some?
      && index.value.NumberValue? && index.value.n.Integral?
      && 0 <= index.value.n.i < |JsText(source.representation.value).value|
      ==> r.Success?
    ensures r.Success? && BaseOf(source) == "Map" ==>
      && source.representation.value.EntriesValue? && JsText(index.value).Some?
      && LookupKey(source.representation.value.entries, JsText(index.value).value).Some?
      && r.value == WithOwner(LookupKey(source.representation.value.entries, JsText(index.value).value).value, source.engine)
    ensures r.Success? && BaseOf(source) == "List" ==>
      && source.representation.value.ListValue? && index.value.NumberValue? && index.value.n.Integral?
      && 0 <= index.value.n.i < |source.representation.value.items|
      && r.value.representation == source.representation.value.items[index.value.n.i].representation
    ensures r.Success? && BaseOf(source) == "String" ==>
      && JsText(source.representation.value).Some? && index.value.NumberValue? && index.value.n.Integral?
      && 0 <= index.value.n.i < |JsText(source.representation.value).value|
      && r.value.representation == Fresh(Plain("String"), StringValue([JsText(source.representation.value).value[index.value.n.i]])).representation
  {
    var s := source.representation;
    if s.ty.base == "Map" then
      if index.ty.base != "String" then Failure(InvalidValue)
      else
        match s.value
        case EntriesValue(es) =>
          var key := JsText(index.value);
          if key.None? then Failure(InvalidValue)
          else
            (match LookupKey(es, key.value)
             case None => Failure(InvalidValue)
             case Some(v) => Success(WithOwner(v, source.engine)))
        case ListValue(_) => Failure(InvalidValue)
        case FunctionValue(_, _, _) => Failure(InvalidValue)
        case MicroValue(_, _, _) => Failure(InvalidValue)
        case _ => Failure(HostException)
    else if index.ty.base != "Int" then Failure(InvalidValue)
    else if !(index.value.NumberValue? && index.value.n.Integral?) then Failure(Unmodelled)
    else
      var k := index.value.n.i;
      if s.ty.base == "List" then
        match s.value
        case ListValue(items) =>
          if 0 <= k < |items| then Success(WithOwner(items[k], source.engine)) else Failure(HostException)
        case _ => Failure(Unmodelled)
      else
        match JsText(s.value)
        case None => Failure(Unmodelled)
        case Some(text) =>
          if 0 <= k < |text| then Success(WithOwner(GeneratePrimitive(JsString([text[k]]), None), source.engine))
          else Failure(InvalidValue)
  }

  /** A String indexed out of range is an invalid value; a List indexed out of range crashes the host. */
  lemma IndexOutOfRange(source: PrimitiveData, k: int)
    requires BaseOf(source) == "List" || BaseOf(source) == "String"
    requires source.representation.value.ListValue? || source.representation.value.StringValue?
    requires k < 0 || k >= (if source.representation.value.ListValue? then |source.representation.value.items|
                            else |source.representation.value.s|)
    ensures var r := IndexResult(source, Fresh(Plain("Int"), NumberValue(Integral(k))).representation);
      && (BaseOf(source) == "String" && source.representation.value.StringValue? ==> r == Failure(InvalidValue))
      && (BaseOf(source) == "List" && source.representation.value.ListValue? ==> r == Failure(HostException))
  {
  }

  /* ---- Literal members. ---- */

  /**
   * The member check of a List or Map literal on the evaluated members'
   * types (None for a member that evaluated to undefined): every member
   * must fit the literal's `of`; a literal with members and no `of`
   * throws. The checks run in callbacks that are not awaited: a mismatch
   * exits at once, while a throw is a rejection that only ends the program
   * later, so any mismatch is the one reported.
   */
  function ElementsCheck(of: Option<Type>, elements: seq<Option<Type>>): (r: Outcome<ErrorKind>)
    ensures r.Pass? <==> |elements| == 0 || (of.Some? && forall i :: 0 <= i < |elements| ==>
      elements[i].Some? && DiffTypes(elements[i].value, of.value))
    ensures r == Fail(TypeMismatch) <==> of.Some? && exists i :: (0 <= i < |elements| &&
      elements[i].Some? && !DiffTypes(elements[i].value, of.value))
    ensures r.Fail? ==> r.error == TypeMismatch || r.error == HostException
  {
    if |elements| == 0 then Pass
    else if of.None? then Fail(HostException)
    else if elements[0].Some? && !DiffTypes(elements[0].value, of.value) then Fail(TypeMismatch)
    else
      var rest := ElementsCheck(of, elements[1..]);
      assert forall i :: 1 <= i < |elements| ==> elements[i] == elements[1..][i - 1];
      if rest.Fail? then rest
      else if elements[0].None? then Fail(HostException)
      else Pass
  }

  predicate Distinct(keys: seq<string>) {
    forall i, j :: 0 <= i < j < |keys| ==> keys[i] != keys[j]
  }

  lemma {:induction false} SetOfSize(keys: seq<string>)
    ensures |set k | k in keys| <= |keys|
    ensures |set k | k in keys| == |keys| <==> Distinct(keys)
    decreases |keys|
  {
    if |keys| > 0 {
      var rest := keys[1..];
      SetOfSize(rest);
      assert (set k | k in keys) == {keys[0]} + (set k | k in rest);
      if keys[0] in rest {
        assert (set k | k in keys) == (set k | k in rest);
        var j :| 0 <= j < |rest| && rest[j] == keys[0];
        assert keys[0] == keys[j + 1];
      } else {
        assert Distinct(keys) <==> Distinct(rest) by {
          if Distinct(rest) {
            forall i, j | 0 <= i < j < |keys| ensures keys[i] != keys[j] {
              if i > 0 {
                assert keys[i] == rest[i - 1] && keys[j] == rest[j - 1];
              } else {
                assert keys[j] == rest[j - 1];
              }
            }
          }
          if Distinct(keys) {
            forall i, j | 0 <= i < j < |rest| ensures rest[i] != rest[j] {
              assert rest[i] == keys[i + 1] && rest[j] == keys[j + 1];
            }
          }
        }
      }
    }
  }

  /**
   * The whole check of a Map literal. A member that does not fit exits at
   * once; the keys, which must be pairwise different (the size of the key
   * set is compared with the number of keys), are checked next and also
   * exit at once; a member check that threw (no `of`, or an undefined
   * member) ends the program only after that.
   */
  function MapLiteralCheck(of: Option<Type>, keys: seq<string>, elements: seq<Option<Type>>): (r: Outcome<ErrorKind>)
    ensures r.Pass? <==> ElementsCheck(of, elements).Pass? && Distinct(keys)
    ensures r == Fail(TypeMismatch) <==> ElementsCheck(of, elements) == Fail(TypeMismatch)
    ensures r == Fail(DuplicateKeys) <==> ElementsCheck(of, elements) != Fail(TypeMismatch) && !Distinct(keys)
    ensures r == Fail(HostException) <==> ElementsCheck(of, elements) == Fail(HostException) && Distinct(keys)
  {
    SetOfSize(keys);
    var members := ElementsCheck(of, elements);
    if members == Fail(TypeMismatch) then members
    else if |set k | k in keys| != |keys| then Fail(DuplicateKeys)
    else members
  }

  /** A repeated key is reported even when a member is undefined or the literal has no `of`. */
  lemma DuplicateKeysBeforeThrow(x: Type)
    ensures MapLiteralCheck(Some(x), ["a", "a"], [Some(x), None]) == Fail(DuplicateKeys)
    ensures MapLiteralCheck(None, ["a", "a"], [Some(x), Some(x)]) == Fail(DuplicateKeys)
    ensures ElementsCheck(Some(x), [Some(x), None]) == Fail(HostException)
  {
    var keys := ["a", "a"];
    assert keys[0] == keys[1];
    DiffTypesReflexive(x);
  }

  /**
   * The provides rule of a Function or Micro literal: a Void callable must
   * not provide a value and any other must.
   */
  function ReturnCheck(returnType: Option<Type>, providesValue: bool): (r: Outcome<ErrorKind>)
    ensures r.Pass? <==> (providesValue <==> !(returnType.Some? && returnType.value.base == VOID))
    ensures r.Fail? ==> r.error == TypeMismatch
  {
    if returnType.Some? && returnType.value.base == VOID && providesValue then Fail(TypeMismatch)
    else if !(returnType.Some? && returnType.value.base == VOID) && !providesValue then Fail(TypeMismatch)
    else Pass
  }

  /* ---- Binding call arguments. ---- */

  /** Whether argument i was given a value (a missing or undefined argument is not). */
  predicate Supplied(args: seq<Option<(Type, Handle)>>, i: int) {
    0 <= i < |args| && args[i].Some?
  }

  /** Parameter i is satisfied: a supplied argument fits its type, an absent one is optional. */
  predicate Satisfied(params: seq<Field>, args: seq<Option<(Type, Handle)>>, i: int)
    requires 0 <= i < |params|
  {
    if Supplied(args, i) then DiffTypes(args[i].value.0, params[i].ty) else params[i].optional
  }

  /** Parameter i's binding is not overwritten by a later supplied parameter of the same name among the first k. */
  predicate LastBinding(params: seq<Field>, args: seq<Option<(Type, Handle)>>, i: int, k: int)
    requires 0 <= i < k <= |params|
  {
    forall j :: i < j < k && Supplied(args, j) ==> params[j].name != params[i].name
  }

  function SuppliedNames(params: seq<Field>, args: seq<Option<(Type, Handle)>>, k: int): set<string>
    requires 0 <= k <= |params|
  {
    set i | 0 <= i < k && Supplied(args, i) :: params[i].name
  }

  lemma SuppliedNamesStep(params: seq<Field>, args: seq<Option<(Type, Handle)>>, k: int)
    requires 0 <= k < |params|
    ensures SuppliedNames(params, args, k + 1) ==
      SuppliedNames(params, args, k) + (if Supplied(args, k) then {params[k].name} else {})
  {
  }

  /** The frame after parameter k is bound over `sub`. */
  function BindOne(params: seq<Field>, args: seq<Option<(Type, Handle)>>, sub: map<string, Handle>, k: int): map<string, Handle>
    requires 0 <= k < |params|
  {
    if Supplied(args, k) then sub[params[k].name := args[k].value.1] else sub
  }

  /** Each supplied parameter among the first k that no later one overrides is bound to its argument. */
  predicate ArgumentsBound(params: seq<Field>, args: seq<Option<(Type, Handle)>>, sub: map<string, Handle>, k: int)
    requires 0 <= k <= |params|
  {
    forall i :: 0 <= i < k && Supplied(args, i) && LastBinding(params, args, i, k) ==>
      params[i].name in sub && sub[params[i].name] == args[i].value.1
  }

  /** Every binding comes from the frame or from an argument. */
  predicate BindingsFrom(args: seq<Option<(Type, Handle)>>, frame: map<string, Handle>, sub: map<string, Handle>) {
    forall x :: x in sub ==>
      (x in frame && sub[x] == frame[x]) || exists i :: 0 <= i < |args| && args[i].Some? && sub[x] == args[i].value.1
  }

  /** What binding the first k parameters over `frame` has produced in `sub`. */
  predicate BoundUpTo(params: seq<Field>, args: seq<Option<(Type, Handle)>>, frame: map<string, Handle>,
                      sub: map<string, Handle>, k: int)
    requires 0 <= k <= |params|
  {
    && sub.Keys == frame.Keys + SuppliedNames(params, args, k)
    && ArgumentsBound(params, args, sub, k)
    && (forall x :: x in frame && x !in SuppliedNames(params, args, k) ==> sub[x] == frame[x])
    && BindingsFrom(args, frame, sub)
  }

  lemma ArgumentsBoundStep(params: seq<Field>, args: seq<Option<(Type, Handle)>>, sub: map<string, Handle>, k: int)
    requires 0 <= k < |params| && ArgumentsBound(params, args, sub, k)
    ensures ArgumentsBound(params, args, BindOne(params, args, sub, k), k + 1)
  {
    var next := BindOne(params, args, sub, k);
    forall i | 0 <= i < k + 1 && Supplied(args, i) && LastBinding(params, args, i, k + 1)
      ensures params[i].name in next && next[params[i].name] == args[i].value.1
    {
      if i < k {
        assert LastBinding(params, args, i, k);
      }
    }
  }

  lemma BindingsFromStep(params: seq<Field>, args: seq<Option<(Type, Handle)>>, frame: map<string, Handle>,
                         sub: map<string, Handle>, k: int)
    requires 0 <= k < |params| && BindingsFrom(args, frame, sub)
    ensures BindingsFrom(args, frame, BindOne(params, args, sub, k))
  {
    var next := BindOne(params, args, sub, k);
    forall x | x in next
      ensures (x in frame && next[x] == frame[x]) || exists i :: 0 <= i < |args| && args[i].Some? && next[x] == args[i].value.1
    {
      if Supplied(args, k) && x == params[k].name {
        assert next[x] == args[k].value.1;
      } else {
        assert next[x] == sub[x];
      }
    }
  }

  /** Binding parameter k keeps BoundUpTo. */
  lemma BindStep(params: seq<Field>, args: seq<Option<(Type, Handle)>>, frame: map<string, Handle>,
                 sub: map<string, Handle>, k: int)
    requires 0 <= k < |params| && BoundUpTo(params, args, frame, sub, k)
    ensures BoundUpTo(params, args, frame, BindOne(params, args, sub, k), k + 1)
  {
    SuppliedNamesStep(params, args, k);
    ArgumentsBoundStep(params, args, sub, k);
    BindingsFromStep(params, args, frame, sub, k);
  }

  /**
   * Binds the arguments of a call to the callee's parameters over a copy of
   * a frame, parameter by parameter in order; extra arguments are ignored.
   * Fails with TypeMismatch or MissingArgument at the first parameter that
   * is not satisfied.
   */
  method BindArguments(params: seq<Field>, args: seq<Option<(Type, Handle)>>, frame: map<string, Handle>)
    returns (r: Result<map<string, Handle>, ErrorKind>)
    ensures r.Success? <==> forall i :: 0 <= i < |params| ==> Satisfied(params, args, i)
    ensures r.Failure? ==> exists i :: (0 <= i < |params| && !Satisfied(params, args, i)
      && (forall j :: 0 <= j < i ==> Satisfied(params, args, j))
      && r.error == (if Supplied(args, i) then TypeMismatch else MissingArgument))
    ensures r.Success? ==> r.value.Keys == frame.Keys + SuppliedNames(params, args, |params|)
    ensures r.Success? ==> forall i :: (0 <= i < |params| && Supplied(args, i) && LastBinding(params, args, i, |params|)
      ==> r.value[params[i].name] == args[i].value.1)
    ensures r.Success? ==> forall x :: x in frame && x !in SuppliedNames(params, args, |params|) ==> r.value[x] == frame[x]
    ensures r.Success? ==> forall x :: x in r.value ==>
      (x in frame && r.value[x] == frame[x]) || exists i :: 0 <= i < |args| && args[i].Some? && r.value[x] == args[i].value.1
  {
    var sub: map<string, Handle> := frame;
    var k := 0;
    assert SuppliedNames(params, args, 0) == {};
    while k < |params| && Satisfied(params, args, k)
      invariant 0 <= k <= |params|
      invariant forall i :: 0 <= i < k ==> Satisfied(params, args, i)
      invariant BoundUpTo(params, args, frame, sub, k)
    {
      BindStep(params, args, frame, sub, k);
      sub := BindOne(params, args, sub, k);
      k := k + 1;
    }
    if k < |params| {
      return Failure(if Supplied(args, k) then TypeMismatch else MissingArgument);
    }
    return Success(sub);
  }
}

=== FILE: types.dfy ===
/**
 * Structural type descriptors of the Betic language and the compatibility
 * test every assignment, call, literal and struct check goes through.
 */
module BeticTypes {
  import opened Wrappers

  /** `{ base, of? }`: a base name and an optional element/return type. */
  datatype Type = Type(base: string, of: Option<Type>)

  const OCCULT := "Occult"
  const VOID := "Void"
  const LIST := "List"

  function Plain(base: string): Type {
    Type(base, None)
  }

  /**
   * Compatibility of two descriptors. Equal bases need matching presence of
   * `of` and, when both have one, compatible `of` types; different bases are
   * compatible only when one of them is Occult.
   */
  function DiffTypes(source: Type, target: Type): bool {
    if source.base == target.base then
      match (source.of, target.of)
      case (Some(s), Some(t)) => DiffTypes(s, t)
      case (None, None) => true
      case _ => false
    else
      source.base == OCCULT || target.base == OCCULT
  }

  lemma {:induction false} DiffTypesReflexive(t: Type)
    ensures DiffTypes(t, t)
  {
    if t.of.Some? {
      DiffTypesReflexive(t.of.value);
    }
  }

  lemma {:induction false} DiffTypesSymmetric(a: Type, b: Type)
    ensures DiffTypes(a, b) == DiffTypes(b, a)
  {
    if a.base == b.base && a.of.Some? && b.of.Some? {
      DiffTypesSymmetric(a.of.value, b.of.value);
    }
  }

  /** Different bases: compatible exactly when one side is Occult, whatever the `of` parts. */
  lemma DiffTypesDifferentBases(a: Type, b: Type)
    requires a.base != b.base
    ensures DiffTypes(a, b) <==> a.base == OCCULT || b.base == OCCULT
  {
  }

  /** Equal bases with `of` on one side only are incompatible, even for Occult. */
  lemma DiffTypesOfPresence(a: Type, b: Type)
    requires a.base == b.base && a.of.Some? != b.of.Some?
    ensures !DiffTypes(a, b)
  {
  }

  /** A bare Occult matches every type except an Occult that carries an `of`. */
  lemma OccultCompatibility(t: Type)
    ensures DiffTypes(Plain(OCCULT), t) <==> !(t.base == OCCULT && t.of.Some?)
  {
  }

  /** List<Int> ~ List<Occult> ~ List<String>, yet List<Int> and List<String> differ. */
  lemma DiffTypesNotTransitive()
    ensures !(forall a: Type, b: Type, c: Type :: DiffTypes(a, b) && DiffTypes(b, c) ==> DiffTypes(a, c))
  {
    var a := Type(LIST, Some(Plain("Int")));
    var b := Type(LIST, Some(Plain(OCCULT)));
    var c := Type(LIST, Some(Plain("String")));
    assert DiffTypes(a, b) && DiffTypes(b, c) && !DiffTypes(a, c);
  }

  /* ---- An independent reference definition: compare the spines. ---- */

  /** The bases met going down the `of` chain. */
  function Spine(t: Type): (s: seq<string>)
    ensures |s| >= 1 && s[0] == t.base
  {
    match t.of
    case None => [t.base]
    case Some(inner) => [t.base] + Spine(inner)
  }

  /** The first level at which two spines differ, or the shorter length when none does. */
  function FirstDifference(s: seq<string>, u: seq<string>): (k: nat)
    ensures k <= |s| && k <= |u|
    ensures forall j :: 0 <= j < k ==> s[j] == u[j]
    ensures k < |s| && k < |u| ==> s[k] != u[k]
  {
    if s == [] || u == [] || s[0] != u[0] then 0
    else 1 + FirstDifference(s[1..], u[1..])
  }

  /**
   * Two spines match when, at the first level where the bases differ, one of
   * them is Occult; with no such level, they must have the same length.
   */
  predicate SpinesMatch(s: seq<string>, u: seq<string>) {
    var k := FirstDifference(s, u);
    if k < |s| && k < |u| then s[k] == OCCULT || u[k] == OCCULT else |s| == |u|
  }

  lemma {:induction false} DiffTypesIsSpineMatch(a: Type, b: Type)
    ensures DiffTypes(a, b) <==> SpinesMatch(Spine(a), Spine(b))
  {
    if a.base == b.base && a.of.Some? && b.of.Some? {
      DiffTypesIsSpineMatch(a.of.value, b.of.value);
      var s, u := Spine(a), Spine(b);
      assert s[1..] == Spine(a.of.value) && u[1..] == Spine(b.of.value);
      assert FirstDifference(s, u) == 1 + FirstDifference(s[1..], u[1..]);
    }
  }

  /* ---- Plain (uncoloured) serialisation of descriptors. ---- */

  /**
   * `base<inner>` for a descriptor with `of`, the bare base otherwise; for
   * List the source appends `[]` to a string, which appends the empty string,
   * so a List descriptor prints as its element type alone.
   */
  function SerializeTypePlain(t: Type): string {
    match t.of
    case None => t.base
    case Some(inner) =>
      if t.base == LIST then SerializeTypePlain(inner)
      else t.base + "<" + SerializeTypePlain(inner) + ">"
  }

  /** The List wrapper is invisible in the text, so distinct descriptors can print alike. */
  lemma SerializeTypePlainNotInjective()
    ensures exists a: Type, b: Type :: a != b && SerializeTypePlain(a) == SerializeTypePlain(b)
  {
    var a := Type(LIST, Some(Plain("Int")));
    assert SerializeTypePlain(a) == SerializeTypePlain(Plain("Int"));
  }

  /** A base that prints unambiguously: no angle brackets. */
  predicate CleanBase(b: string) {
    forall i :: 0 <= i < |b| ==> b[i] != '<' && b[i] != '>'
  }

  /** Descriptors whose text can be read back: clean bases and no List that carries an `of`. */
  predicate Printable(t: Type) {
    CleanBase(t.base) &&
    match t.of
    case None => true
    case Some(inner) => t.base != LIST && Printable(inner)
  }

  /** Index of the first '<' in s, or |s| when there is none. */
  function FirstOpen(s: string): (i: nat)
    ensures i <= |s| && forall j :: 0 <= j < i ==> s[j] != '<'
    ensures i < |s| ==> s[i] == '<'
  {
    if s == [] then 0
    else if s[0] == '<' then 0
    else 1 + FirstOpen(s[1..])
  }

  /** Reads a plain descriptor text back: `base` or `base<inner>`. */
  function ParseTypePlain(s: string): Option<Type>
    decreases |s|
  {
    var i := FirstOpen(s);
    if i == |s| then Some(Plain(s))
    else if |s| < i + 2 || s[|s| - 1] != '>' then None
    else
      match ParseTypePlain(s[i + 1..|s| - 1])
      case None => None
      case Some(inner) => Some(Type(s[..i], Some(inner)))
  }

  lemma FirstOpenAfterClean(b: string, rest: string)
    requires CleanBase(b) && |rest| > 0 && rest[0] == '<'
    ensures FirstOpen(b + rest) == |b|
  {
    if b != [] {
      assert (b + rest)[1..] == b[1..] + rest;
      FirstOpenAfterClean(b[1..], rest);
    }
  }

  lemma FirstOpenClean(b: string)
    requires CleanBase(b)
    ensures FirstOpen(b) == |b|
  {
    if b != [] {
      FirstOpenClean(b[1..]);
    }
  }

  lemma {:induction false} SerializeTypePlainRoundTrip(t: Type)
    requires Printable(t)
    ensures ParseTypePlain(SerializeTypePlain(t)) == Some(t)
  {
    match t.of
    case None =>
      FirstOpenClean(t.base);
    case Some(inner) =>
      SerializeTypePlainRoundTrip(inner);
      var body := SerializeTypePlain(inner);
      var s := t.base + "<" + body + ">";
      assert s == t.base + ("<" + body + ">");
      FirstOpenAfterClean(t.base, "<" + body + ">");
      assert s[|t.base| + 1..|s| - 1] == body;
      assert s[..|t.base|] == t.base;
  }
}

=== FILE: util.dfy ===
/**
 * The pure helpers of the runtime: plain serialisation of values, conversion
 * of host (JavaScript) values into Betic values, and conversion of a Byte
 * list into a host byte array.
 */
module BeticUtil {
  import opened Wrappers
  import opened BeticTypes
  import opened BeticNumbers
  import opened BeticAst
  import opened BeticValues

  /**
   * The error kinds of the runtime's diagnostics. The last three are not
   * reported by the source: HostException is an uncaught JavaScript exception
   * (a TypeError or an unhandled rejection) that ends the process,
   * Unmodelled marks JavaScript coercions the model does not follow, and
   * OutOfFuel is the model's bound on interpreted recursion.
   */
  datatype ErrorKind =
    | SyntaxError | TypeMismatch | UninitializedValue | UnindexibleReference
    | ImmutableValue | InvalidValue | AlreadyExists | DuplicateKeys
    | MissingArgument | MissingProperty | CannotOpenFile | RuntimeError
    | HostException | Unmodelled | OutOfFuel

  /* ---- Decimal text of integers (JavaScript `toString` on an integral number). ---- */

  function DigitChar(d: int): char
    requires 0 <= d < 10
  {
    "0123456789"[d]
  }

  function NatToString(n: nat): (s: string)
    ensures |s| >= 1
    decreases n
  {
    if n < 10 then [DigitChar(n)] else NatToString(n / 10) + [DigitChar(n % 10)]
  }

  function IntToString(i: int): string {
    if i < 0 then "-" + NatToString(-i) else NatToString(i)
  }

  function DigitValue(c: char): Option<nat> {
    if '0' <= c <= '9' then Some(c as int - '0' as int) else None
  }

  /** Reads a non-empty run of decimal digits. */
  function ParseNat(s: string): Option<nat>
    decreases |s|
  {
    if s == [] then None
    else
      match DigitValue(s[|s| - 1])
      case None => None
      case Some(d) =>
        if |s| == 1 then Some(d)
        else
          match ParseNat(s[..|s| - 1])
          case None => None
          case Some(n) => Some(n * 10 + d)
  }

  /** Reads an optionally negative decimal integer. */
  function ParseInt(s: string): Option<int> {
    if |s| > 0 && s[0] == '-' then
      match ParseNat(s[1..])
      case None => None
      case Some(n) => Some(-(n as int))
    else
      match ParseNat(s)
      case None => None
      case Some(n) => Some(n)
  }

  lemma {:induction false} NatToStringRoundTrip(n: nat)
    ensures ParseNat(NatToString(n)) == Some(n)
    ensures NatToString(n)[0] != '-'
    decreases n
  {
    var s := NatToString(n);
    if n >= 10 {
      NatToStringRoundTrip(n / 10);
      assert s[..|s| - 1] == NatToString(n / 10);
      assert s[|s| - 1] == DigitChar(n % 10);
    }
  }

  lemma IntToStringRoundTrip(i: int)
    ensures ParseInt(IntToString(i)) == Some(i)
  {
    if i < 0 {
      var t := NatToString(-i);
      NatToStringRoundTrip(-i);
      var s := "-" + t;
      assert s[0] == '-' && s[1..] == t;
      assert ParseInt(s) == Some(-(-i));
    } else {
      NatToStringRoundTrip(i);
      var s := NatToString(i);
      assert s[0] != '-';
      assert ParseInt(s) == Some(i);
    }
  }

  /* ---- Plain serialisation of values. ---- */

  /** `parts.join(sep)`. */
  function Join(sep: string, parts: seq<string>): string {
    if parts == [] then ""
    else if |parts| == 1 then parts[0]
    else parts[0] + sep + Join(sep, parts[1..])
  }

  function BoolText(b: bool): string {
    if b then "true" else "false"
  }

  /** `value.toString()` on the scalar payloads the model can print; None for the rest. */
  function ScalarText(v: Payload): Option<string> {
    match v
    case NumberValue(Integral(i)) => Some(IntToString(i))
    case StringValue(s) => Some(s)
    case BooleanValue(b) => Some(BoolText(b))
    case NoneValue => Some("none")
    case _ => None
  }

  /**
   * The uncoloured text of a value, chosen by its type base. None stands for
   * what the model does not print: Double values, payloads that do not match
   * their type base, and the crashes the source would run into.
   */
  function SerializeValuePlain(p: PrimitiveData): Option<string> {
    var ty := p.representation.ty;
    var v := p.representation.value;
    if ty.base == "None" then Some("none")
    else if ty.base == "Int" || ty.base == "String" || ty.base == "Boolean" then ScalarText(v)
    else if ty.base == "Double" then None
    else if ty.base == LIST then
      match v
      case ListValue(items) =>
        (match SerializeItems(items)
         case Some(parts) => Some("[ " + Join(", ", parts) + " ]")
         case None => None)
      case _ => None
    else if ty.base == "Map" then
      match v
      case EntriesValue(entries) =>
        (match SerializeEntries(entries)
         case Some(lines) => Some("{\n" + Join(",\n", lines) + "\n}")
         case None => None)
      case _ => None
    else if ty.base == "Function" then
      match (ty.of, ParametersOf(v))
      case (Some(ret), Some(params)) =>
        Some("function -> " + SerializeTypePlain(ret) + " (" + Join(", ", SerializeParams(params)) + ") { ... }")
      case _ => None
    else if ty.base == "Micro" then
      match ty.of
      case Some(ret) => Some("micro -> " + SerializeTypePlain(ret) + " { ... }")
      case None => None
    else
      match v
      case EntriesValue(entries) =>
        (match SerializeEntries(entries)
         case Some(lines) => Some(SerializeTypePlain(ty) + " {\n" + Join(",\n", lines) + "\n}")
         case None => None)
      case _ => None
  }

  function SerializeItems(items: seq<PrimitiveData>): (r: Option<seq<string>>)
    ensures r.Some? ==> |r.value| == |items|
  {
    if items == [] then Some([])
    else
      match (SerializeValuePlain(items[0]), SerializeItems(items[1..]))
      case (Some(h), Some(t)) => Some([h] + t)
      case _ => None
  }

  /** Each entry as `  key: value`. */
  function SerializeEntries(entries: seq<Entry>): (r: Option<seq<string>>)
    ensures r.Some? ==> |r.value| == |entries|
  {
    if entries == [] then Some([])
    else
      match (SerializeValuePlain(entries[0].value), SerializeEntries(entries[1..]))
      case (Some(h), Some(t)) => Some(["  " + entries[0].key + ": " + h] + t)
      case _ => None
  }

  /** Each parameter as `Type name`, with `?` after an optional one. */
  function SerializeParams(params: seq<Field>): (r: seq<string>)
    ensures |r| == |params|
  {
    if params == [] then []
    else
      [SerializeTypePlain(params[0].ty) + " " + params[0].name + (if params[0].optional then "?" else "")]
      + SerializeParams(params[1..])
  }

  /** An Int value prints as decimal text that reads back as its payload. */
  lemma SerializeIntRoundTrip(p: PrimitiveData, i: int)
    requires p.representation.ty.base == "Int" && p.representation.value == NumberValue(Integral(i))
    ensures SerializeValuePlain(p).Some? && ParseInt(SerializeValuePlain(p).value) == Some(i)
  {
    IntToStringRoundTrip(i);
  }

  /** None values print `none` whatever their payload; Booleans print `true` or `false`. */
  lemma SerializeScalars(p: PrimitiveData)
    ensures p.representation.ty.base == "None" ==> SerializeValuePlain(p) == Some("none")
    ensures p.representation.ty.base == "Boolean" && p.representation.value.BooleanValue? ==>
      SerializeValuePlain(p) == Some(if p.representation.value.b then "true" else "false")
  {
  }

  /** A list prints as `[ ` + the element texts joined by `, ` + ` ]`. */
  lemma {:induction false} SerializeListText(p: PrimitiveData, texts: seq<string>)
    requires p.representation.ty.base == LIST && p.representation.value.ListValue?
    requires |texts| == |p.representation.value.items|
    requires forall i :: 0 <= i < |texts| ==> SerializeValuePlain(p.representation.value.items[i]) == Some(texts[i])
    ensures SerializeValuePlain(p) == Some("[ " + Join(", ", texts) + " ]")
  {
    SerializeItemsAll(p.representation.value.items, texts);
  }

  lemma {:induction false} SerializeItemsAll(items: seq<PrimitiveData>, texts: seq<string>)
    requires |texts| == |items|
    requires forall i :: 0 <= i < |texts| ==> SerializeValuePlain(items[i]) == Some(texts[i])
    ensures SerializeItems(items) == Some(texts)
  {
    if items != [] {
      SerializeItemsAll(items[1..], texts[1..]);
      assert SerializeValuePlain(items[0]) == Some(texts[0]);
      assert texts == [texts[0]] + texts[1..];
    }
  }

  /** A map prints as `{\n` + lines `  key: value` joined by `,\n` + `\n}`, keys in entry order. */
  lemma {:induction false} SerializeMapText(p: PrimitiveData, texts: seq<string>)
    requires p.representation.ty.base == "Map" && p.representation.value.EntriesValue?
    requires |texts| == |p.representation.value.entries|
    requires forall i :: 0 <= i < |texts| ==> SerializeValuePlain(p.representation.value.entries[i].value) == Some(texts[i])
    ensures SerializeValuePlain(p) == Some("{\n" + Join(",\n", EntryLines(p.representation.value.entries, texts)) + "\n}")
  {
    SerializeEntriesAll(p.representation.value.entries, texts);
  }

  function EntryLines(entries: seq<Entry>, texts: seq<string>): (r: seq<string>)
    requires |texts| == |entries|
    ensures |r| == |entries|
    ensures forall i :: 0 <= i < |r| ==> r[i] == "  " + entries[i].key + ": " + texts[i]
  {
    seq(|entries|, i requires 0 <= i < |entries| => "  " + entries[i].key + ": " + texts[i])
  }

  lemma {:induction false} SerializeEntriesAll(entries: seq<Entry>, texts: seq<string>)
    requires |texts| == |entries|
    requires forall i :: 0 <= i < |texts| ==> SerializeValuePlain(entries[i].value) == Some(texts[i])
    ensures SerializeEntries(entries) == Some(EntryLines(entries, texts))
  {
    if entries != [] {
      SerializeEntriesAll(entries[1..], texts[1..]);
      assert EntryLines(entries, texts) == ["  " + entries[0].key + ": " + texts[0]] + EntryLines(entries[1..], texts[1..]);
    }
  }

  /* ---- Host values into Betic values. ---- */

  /** The host values GeneratePrimitive is given; object properties in `Object.keys` order. */
  datatype JsValue =
    | JsNull
    | JsNumber(n: Num)
    | JsString(s: string)
    | JsBoolean(b: bool)
    | JsArray(elements: seq<JsValue>)
    | JsObject(props: seq<JsProp>)
    | JsOther   // any other constructor (a typed array, a date, ...)

  datatype JsProp = JsProp(key: string, value: JsValue)

  function NoneData(): PrimitiveData {
    Fresh(Plain("None"), NoneValue)
  }

  /** The element type of a generated list: the given type's `of`, else Occult. */
  function ElementType(ty: Option<Type>): Type {
    if ty.Some? && ty.value.of.Some? then ty.value.of.value else Plain(OCCULT)
  }

  /**
   * Converts a host value into a fresh Betic value. Numbers, strings and
   * booleans take the given type when there is one; arrays always become
   * Lists and objects Maps of Occult unless a type is given; elements and
   * properties are converted without a type, in order.
   */
  function GeneratePrimitive(v: JsValue, ty: Option<Type>): (r: PrimitiveData)
    ensures !r.representation.constant && !r.representation.expected
    ensures r.representation.name.None? && r.engine.None?
  {
    match v
    case JsNumber(n) =>
      Fresh(if ty.Some? then ty.value else Plain(if n.Integral? then "Int" else "Double"), NumberValue(n))
    case JsString(s) =>
      Fresh(if ty.Some? then ty.value else Plain("String"), StringValue(s))
    case JsBoolean(b) =>
      Fresh(if ty.Some? then ty.value else Plain("Boolean"), BooleanValue(b))
    case JsArray(elements) =>
      Fresh(Type(LIST, Some(ElementType(ty))),
        ListValue(seq(|elements|, i requires 0 <= i < |elements| => GeneratePrimitive(elements[i], None))))
    case JsObject(props) =>
      Fresh(if ty.Some? then ty.value else Type("Map", Some(Plain(OCCULT))),
        EntriesValue(seq(|props|, i requires 0 <= i < |props| =>
          Entry(props[i].key, GeneratePrimitive(props[i].value, None)))))
    case _ => NoneData()
  }

  /** Null and unrecognised host values become None with payload `none`. */
  lemma GenerateNone(v: JsValue, ty: Option<Type>)
    requires v.JsNull? || v.JsOther?
    ensures GeneratePrimitive(v, ty).representation.ty == Plain("None")
    ensures GeneratePrimitive(v, ty).representation.value == NoneValue
  {
  }

  /** Scalars take the given type, else Int/Double by integrality, String or Boolean. */
  lemma GenerateScalarTypes(v: JsValue)
    ensures v.JsNumber? ==> TypeOf(GeneratePrimitive(v, None)) == Plain(if v.n.Integral? then "Int" else "Double")
    ensures v.JsString? ==> TypeOf(GeneratePrimitive(v, None)) == Plain("String")
    ensures v.JsBoolean? ==> TypeOf(GeneratePrimitive(v, None)) == Plain("Boolean")
    ensures (v.JsNumber? || v.JsString? || v.JsBoolean?) ==> forall t :: TypeOf(GeneratePrimitive(v, Some(t))) == t
  {
  }

  /** An array always becomes a List whose element type is the given `of` or Occult, elements in order. */
  lemma GenerateArray(elements: seq<JsValue>, ty: Option<Type>)
    ensures var r := GeneratePrimitive(JsArray(elements), ty);
      && TypeOf(r) == Type(LIST, Some(ElementType(ty)))
      && r.representation.value.ListValue?
      && |r.representation.value.items| == |elements|
      && forall i :: 0 <= i < |elements| ==> r.representation.value.items[i] == GeneratePrimitive(elements[i], None)
  {
  }

  /** The host view of a Betic value: the inverse of GeneratePrimitive. */
  function ToJs(p: PrimitiveData): JsValue {
    match p.representation.value
    case NoneValue => JsNull
    case NumberValue(n) => JsNumber(n)
    case BooleanValue(b) => JsBoolean(b)
    case StringValue(s) => JsString(s)
    case ListValue(items) => JsArray(seq(|items|, i requires 0 <= i < |items| => ToJs(items[i])))
    case EntriesValue(entries) =>
      JsObject(seq(|entries|, i requires 0 <= i < |entries| => JsProp(entries[i].key, ToJs(entries[i].value))))
    case _ => JsOther
  }

  /** Host values without unrecognised parts. */
  predicate Plainly(v: JsValue) {
    match v
    case JsOther => false
    case JsArray(elements) => forall i :: 0 <= i < |elements| ==> Plainly(elements[i])
    case JsObject(props) => forall i :: 0 <= i < |props| ==> Plainly(props[i].value)
    case _ => true
  }

  lemma {:induction false} GenerateRoundTrip(v: JsValue, ty: Option<Type>)
    requires Plainly(v)
    ensures ToJs(GeneratePrimitive(v, ty)) == v
  {
    match v
    case JsArray(elements) =>
      var items := GeneratePrimitive(v, ty).representation.value.items;
      forall i | 0 <= i < |elements|
        ensures ToJs(items[i]) == elements[i]
      {
        GenerateRoundTrip(elements[i], None);
      }
      assert seq(|items|, i requires 0 <= i < |items| => ToJs(items[i])) == elements;
    case JsObject(props) =>
      var entries := GeneratePrimitive(v, ty).representation.value.entries;
      forall i | 0 <= i < |props|
        ensures JsProp(entries[i].key, ToJs(entries[i].value)) == props[i]
      {
        GenerateRoundTrip(props[i].value, None);
      }
      assert seq(|entries|, i requires 0 <= i < |entries| => JsProp(entries[i].key, ToJs(entries[i].value))) == props;
    case _ =>
  }

  /* ---- Byte lists and host byte arrays. ---- */

  /** The outcome of a conversion to a host byte array. */
  datatype Conversion = Converted(bytes: seq<bv8>) | Throws | NotModelled

  /** JavaScript's ToUint8 on an integer: reduction modulo 256. */
  function ToUint8(i: int): bv8 {
    (i % 256) as bv8
  }

  function ByteOf(p: PrimitiveData): Option<bv8> {
    match p.representation.value
    case NumberValue(Integral(i)) => Some(ToUint8(i))
    case _ => None
  }

  /**
   * Throws unless the list's element type is Byte; otherwise the element
   * payloads in order, each reduced modulo 256.
   */
  function FromBeticListToUint8Array(list: PrimitiveData): (r: Conversion)
    ensures list.representation.ty.of.None? ==> r == Throws
    ensures list.representation.ty.of.Some? && list.representation.ty.of.value.base != "Byte" ==> r == Throws
    ensures r.Converted? ==> (list.representation.value.ListValue?
      && |r.bytes| == |list.representation.value.items|
      && forall i :: 0 <= i < |r.bytes| ==> ByteOf(list.representation.value.items[i]) == Some(r.bytes[i]))
    ensures (&& list.representation.ty.of.Some? && list.representation.ty.of.value.base == "Byte" && list.representation.value.ListValue?
             && forall i :: 0 <= i < |list.representation.value.items| ==> ByteOf(list.representation.value.items[i]).Some?) ==>
      r.Converted?
  {
    match list.representation.ty.of
    case None => Throws
    case Some(of) =>
      if of.base != "Byte" then Throws
      else
        match list.representation.value
        case ListValue(items) =>
          if forall i :: 0 <= i < |items| ==> ByteOf(items[i]).Some? then
            Converted(seq(|items|, i requires 0 <= i < |items| => ByteOf(items[i]).value))
          else NotModelled
        case _ => NotModelled
  }

  /** `GeneratePrimitive(Array.from(bytes), type)`: a host byte array as a Betic list. */
  function FromUint8ArrayToBeticList(bytes: seq<bv8>, ty: Option<Type>): Representation {
    GeneratePrimitive(JsArray(seq(|bytes|, i requires 0 <= i < |bytes| => JsNumber(Integral(bytes[i] as int)))), ty).representation
  }

  const BYTE_LIST := Type(LIST, Some(Plain("Byte")))

  lemma ToUint8Byte(b: bv8)
    ensures ToUint8(b as int) == b
  {
    assert (b as int) % 256 == b as int;
  }

  /** A byte array converted to a List<Byte> converts back to the same bytes. */
  lemma ByteListRoundTrip(bytes: seq<bv8>)
    ensures FromBeticListToUint8Array(PrimitiveData(FromUint8ArrayToBeticList(bytes, Some(BYTE_LIST)), None)) == Converted(bytes)
  {
    var elements := seq(|bytes|, i requires 0 <= i < |bytes| => JsNumber(Integral(bytes[i] as int)));
    var list := PrimitiveData(FromUint8ArrayToBeticList(bytes, Some(BYTE_LIST)), None);
    GenerateArray(elements, Some(BYTE_LIST));
    var items := list.representation.value.items;
    forall i | 0 <= i < |items|
      ensures ByteOf(items[i]) == Some(bytes[i])
    {
      assert items[i] == GeneratePrimitive(elements[i], None);
      assert items[i].representation.value == NumberValue(Integral(bytes[i] as int));
      ToUint8Byte(bytes[i]);
    }
    assert seq(|items|, i requires 0 <= i < |items| => ByteOf(items[i]).value) == bytes;
  }

  /** A Byte payload out of range wraps: 300 converts to 44, and -1 to 255. */
  lemma ByteListWraps()
    ensures var items := [Fresh(Plain("Byte"), NumberValue(Integral(300))), Fresh(Plain("Byte"), NumberValue(Integral(-1)))];
      FromBeticListToUint8Array(Fresh(BYTE_LIST, ListValue(items))) == Converted([44, 255])
  {
    var items := [Fresh(Plain("Byte"), NumberValue(Integral(300))), Fresh(Plain("Byte"), NumberValue(Integral(-1)))];
    assert ByteOf(items[0]) == Some(44) && ByteOf(items[1]) == Some(255);
    assert seq(|items|, i requires 0 <= i < |items| => ByteOf(items[i]).value) == [44, 255];
  }

  /** The byte list the `byte_array` port builds is typed List<Int>, so it does not convert back. */
  lemma IntListDoesNotConvert(bytes: seq<bv8>)
    ensures FromBeticListToUint8Array(PrimitiveData(FromUint8ArrayToBeticList(bytes, Some(Type(LIST, Some(Plain("Int"))))), None)) == Throws
  {
  }
}

=== FILE: values.dfy ===
/**
 * The value representation: a tagged payload with its type descriptor, the
 * constancy and expectation flags, an optional name, and the owner tag that
 * routes calls and lookups back to the module instance that owns the value.
 */
module BeticValues {
  import opened Wrappers
  import opened BeticTypes
  import opened BeticNumbers
  import opened BeticAst

  /** The generated identifier of an imported module instance. */
  type ModuleId = string

  /** The index of a value's slot in the shared store. */
  type Handle = nat

  /** What evaluating an expression yields: a value's slot, or JavaScript undefined from a host callback. */
  datatype Val = Obj(h: Handle) | Undefined

  /** The `value` part of a representation, by variant. */
  datatype Payload =
    | NoneValue                      // the string 'none' held by None values
    | NumberValue(n: Num)            // Int, Byte and Double payloads: a JavaScript number
    | BooleanValue(b: bool)
    | StringValue(s: string)
    | ListValue(items: seq<PrimitiveData>)
    | EntriesValue(entries: seq<Entry>)   // Map and custom-struct payloads: ordered key/value pairs
    | FunctionValue(block: seq<Stmt>, arguments: seq<Field>, providing: Option<Expr>)
    | MicroValue(microBlock: seq<Stmt>, prototype: Field, microProvides: Option<Expr>)
    | NativeValue(callback: nat, isAsync: bool, nativeArguments: seq<Field>)   // a host callback
    | UndefinedValue                 // JavaScript undefined, left behind by `++` and `--`

  datatype Representation = Representation(
    ty: Type,
    value: Payload,
    constant: bool,
    expected: bool,
    name: Option<string>)

  /** A value together with its owner tag: None for local, Some(id) for a value reached through an import. */
  datatype PrimitiveData = PrimitiveData(representation: Representation, engine: Option<ModuleId>)

  datatype Entry = Entry(key: string, value: PrimitiveData)

  /** A type-table entry: the ordered field list of a named type, with its owner tag. */
  datatype TypeData = TypeData(fields: seq<Field>, engine: Option<ModuleId>)

  /** A freshly produced value: mutable, not expected, unnamed and locally owned. */
  function Fresh(ty: Type, value: Payload): PrimitiveData {
    PrimitiveData(Representation(ty, value, false, false, None), None)
  }

  function TypeOf(p: PrimitiveData): Type {
    p.representation.ty
  }

  function BaseOf(p: PrimitiveData): string {
    p.representation.ty.base
  }

  /** The declared parameter list of a callable payload, if it has one. */
  function ParametersOf(v: Payload): Option<seq<Field>> {
    match v
    case FunctionValue(_, params, _) => Some(params)
    case NativeValue(_, _, params) => Some(params)
    case _ => None
  }

  /** The payload with `value` replaced, everything else (type, flags, name, owner) kept. */
  function WithPayload(p: PrimitiveData, v: Payload): PrimitiveData {
    p.(representation := p.representation.(value := v))
  }

  /** The value with its owner tag replaced. */
  function WithOwner(p: PrimitiveData, owner: Option<ModuleId>): PrimitiveData {
    p.(engine := owner)
  }
}

=== FILE: wrappers.dfy ===
/** Failure-compatible result types shared by the whole model. */
module Wrappers {

  datatype Option<+T> = None | Some(value: T)

  datatype Result<+R, +E> = Success(value: R) | Failure(error: E) {
    predicate IsFailure() {
      Failure?
    }

    function PropagateFailure<U>(): Result<U, E>
      requires Failure?
    {
      Failure(error)
    }

    function Extract(): R
      requires Success?
    {
      value
    }
  }

  datatype Outcome<+E> = Pass | Fail(error: E) {
    predicate IsFailure() {
      Fail?
    }

    function PropagateFailure(): Outcome<E>
      requires Fail?
    {
      this
    }
  }
}
